=== FILE: README.md ===
# mangaview core, modelled in Dafny

This project models the arithmetic core of the mangaview Android manga viewer
(keiji/mangaview). It covers three groups of logic.

- **Tile grids.** The tiling script `build` in `script/tiled_bitmap_maker`
  and the two Kotlin copies of `TiledSource.build` cut a source image into a
  row-major grid of crop rectangles. `TiledBitmapLayer.onDraw` then chooses
  which tiles to show, which to request and which to evict.
- **Page and layout indices.** Page-layout managers map pages to layouts
  ("spreads") and back: single page, double page, and double page that
  starts with one side. Strip layout managers place layouts left to right,
  right to left or top to bottom, and find the neighbouring layouts.
  `LayoutManager` looks layouts up through a cache and collects the layouts
  around the viewport.
- **Geometry.** This group covers the `Rectangle` operations and the
  `ViewContext` viewport: scale clamp, focus-keeping zoom, strict scroll-area
  correction and the screen/global projections. It also covers how
  `SinglePageLayout` and `DoublePageLayout` fit pages into a layout, how
  `ContentLayer` aligns content in a page, and how `FocusHelper` zooms to a
  rectangle.

The model is functional. Every mutable Kotlin object becomes an immutable
datatype, and every mutating call becomes a function that returns the new
value. Exceptions become `Result` values and nullable returns become
`Option` values. Kotlin `Float` is modelled as exact `real`, and the Python
script's integers as `int`. Each source file has its own module:

| file | module |
|---|---|
| numerics.dfy | `Numerics` (truncating and ceiling division, floor/ceil, min/max), `Wrappers` (`Option`, `Result`) |
| rectangle.dfy | `Rectangles` |
| pages.dfy | `BookPages` (`Page`, the fit scale) |
| sequences.dfy | `Sequences` (filter) |
| tiled_bitmap_maker.dfy | `TiledBitmapMaker` (the Python script) |
| tiled_source.dfy | `TiledSources` (`TiledSource.kt`) |
| tiled_bitmap_layer.dfy | `TiledBitmapLayer` (the widget copy of `TiledSource.build`, tile selection) |
| view_context.dfy | `ViewContexts` |
| single_page_layout.dfy, double_page_layout.dfy, page_layout.dfy | `SinglePageLayouts`, `DoublePageLayouts`, `PageLayouts` |
| page_layout_managers.dfy | `SinglePageLayoutManager`, `DoublePageLayoutManager`, `DoublePageStartOneSideLayoutManager`, `PageLayoutManagers` |
| strip_layout_managers.dfy | `HorizontalLtrLayoutManager`, `HorizontalRtlLayoutManager`, `VerticalLayoutManager` |
| layout_manager.dfy | `LayoutManagers` |
| content_layer.dfy | `ContentLayers` |
| focus_helper.dfy | `FocusHelpers` |

## Model

| member | source | states |
|---|---|---|
| TiledBitmapMaker.Build | script/tiled_bitmap_maker/main.py:28-60 | Refuses the image exactly when width ≤ tile width, height ≤ tile height, a stride exceeds its tile size, or a stride is zero. Each refusal names the first failed check. Otherwise the column and row counts are the ceilings of size over stride, and the list has one entry per grid cell. |
| TiledBitmapMaker.BuildTileList | script/tiled_bitmap_maker/main.py:48-58 | The nested row/column loop appends exactly the row-major list of clamped tile boxes. |
| TiledBitmapMaker.TileAt | script/tiled_bitmap_maker/main.py:48-58 | Entry y·colCount+x exists. It starts at (x·strideH, y·strideV) and ends one tile further on, clamped to the image edge. |
| TiledBitmapMaker.TilesWithinImage | script/tiled_bitmap_maker/main.py:50-56 | Every tile the script accepts is non-empty and lies inside the image. |
| TiledBitmapMaker.TilesCoverImage | script/tiled_bitmap_maker/main.py:38-58 | With positive strides, every pixel of the image lies in some tile. |
| TiledBitmapMaker.NegativeStrideGivesNoTiles | script/tiled_bitmap_maker/main.py:38-48 | The checks let a negative stride through, and the grid is then empty. |
| TiledBitmapMaker.EffectiveStride | script/tiled_bitmap_maker/main.py:79-85 | A stride flag that is set is used as given; an unset one falls back to the tile size. |
| TiledBitmapMaker.UnsetStridesDefaultToTileSize | script/tiled_bitmap_maker/main.py:79-88 | With both strides unset, no stride error can occur. The image is accepted exactly when it is larger than a non-zero tile, and the tiles abut, so the counts are size over tile size, rounded up. |
| TiledBitmapMaker.DefaultTilesAbut | script/tiled_bitmap_maker/main.py:12-15 | With the default 256-pixel tiles and no strides, every image larger than a tile is accepted, and each tile ends where its right neighbour starts. |
| TiledBitmapMaker.ScenarioClamped | script/tiled_bitmap_maker/main.py:41-58 | A 600×400 image in 256 tiles makes a 3×2 grid. The last column and row are clamped to 600 and 400. |
| TiledBitmapMaker.ScenarioOverlap | script/tiled_bitmap_maker/main.py:41-58 | A 300×300 image in 100 tiles with stride 50 makes a 6×6 grid of overlapping tiles. |
| TiledSources.Build | mangaview/src/main/java/dev/keiji/mangaview/TiledSource.kt:23-70 | Throws exactly when source < tile or stride > tile, in the source's order of checks; equal sizes are accepted. The result keeps the geometry, its counts are the ceilings of source over stride, and it has one tile per cell. |
| TiledSources.BuildTileList | mangaview/src/main/java/dev/keiji/mangaview/TiledSource.kt:49-67 | The nested loop with its running index builds exactly the row-major tile list. |
| TiledSources.TilesNumberedRowMajor | mangaview/src/main/java/dev/keiji/mangaview/TiledSource.kt:51-66 | Tile i has index i, stores an in-range (x, y), and satisfies y·colCount + x = i. |
| TiledSources.TileAt | mangaview/src/main/java/dev/keiji/mangaview/TiledSource.kt:55-62 | The tile at (x, y) is (x·strideH, y·strideV, min(left+tileW, srcW), min(top+tileH, srcH)). |
| TiledSources.TilesWithinSource | mangaview/src/main/java/dev/keiji/mangaview/TiledSource.kt:45-66 | With positive strides, every tile is non-empty and inside the source. |
| TiledSources.TilesCoverSource | mangaview/src/main/java/dev/keiji/mangaview/TiledSource.kt:45-66 | With positive strides, every point of the source lies in some tile. |
| TiledSources.CeilOfRatio | mangaview/src/main/java/dev/keiji/mangaview/TiledSource.kt:45-46 | For integral sizes, the Float ceiling of size over stride equals integer ceiling division. |
| TiledSources.AgreesWithTilingScript | mangaview/src/main/java/dev/keiji/mangaview/TiledSource.kt:23-70 | On integral input the script accepts, the Kotlin build also succeeds, with the same counts and the same tile rectangles in the same order. |
| TiledSources.WholeSourceTileAccepted | mangaview/src/main/java/dev/keiji/mangaview/TiledSource.kt:28-33 | A tile exactly the size of the source is accepted in Kotlin but refused by the script. |
| TiledBitmapLayer.Build | mangaview/src/main/java/dev/keiji/mangaview/widget/TiledBitmapLayer.kt:26-72 | The widget copy refuses exactly the same inputs, and counts columns and rows as ceilings. |
| TiledBitmapLayer.SameAsTiledSource | mangaview/src/main/java/dev/keiji/mangaview/widget/TiledBitmapLayer.kt:26-78 | The widget copy and `TiledSource.kt` agree on every input: the same error, counts and tile rectangles. Only the tiles' stored x/y are absent here. |
| TiledBitmapLayer.NewLayer | mangaview/src/main/java/dev/keiji/mangaview/widget/TiledBitmapLayer.kt:81-110 | A new layer shows tiles from scale 3.0 on and has an empty cache. |
| TiledBitmapLayer.OnDraw | mangaview/src/main/java/dev/keiji/mangaview/widget/TiledBitmapLayer.kt:114-151 | Without a page nothing is shown, requested or evicted. Otherwise the displayed tiles are exactly the source tiles intersecting the visible content, and the cache keeps exactly its displayed entries, bitmaps unchanged. Below the threshold the draw succeeds and requests nothing. At or above it, the draw succeeds exactly when every displayed tile has a bitmap, and requests exactly the displayed tiles without one. |
| TiledBitmapLayer.DrawKeepsVisibleCache | mangaview/src/main/java/dev/keiji/mangaview/widget/TiledBitmapLayer.kt:123-148 | A cache holding only visible tiles of the source survives a draw unchanged. |
| TiledBitmapLayer.RedrawKeepsCache | mangaview/src/main/java/dev/keiji/mangaview/widget/TiledBitmapLayer.kt:114-151 | Drawing the same view twice evicts nothing the second time. |
| TiledBitmapLayer.RedrawSameVerdict | mangaview/src/main/java/dev/keiji/mangaview/widget/TiledBitmapLayer.kt:136-150 | Drawing the same view twice gives the same "all tiles shown" answer. |
| TiledBitmapLayer.OnRecycled | mangaview/src/main/java/dev/keiji/mangaview/widget/TiledBitmapLayer.kt:209-218 | Recycling drops every cached bitmap and keeps the source and threshold. |
| TiledBitmapLayer.RecycledLayerRequestsEveryVisibleTile | mangaview/src/main/java/dev/keiji/mangaview/widget/TiledBitmapLayer.kt:153-165 | After recycling, a zoomed-in draw requests every visible tile. It reports success only when no tile is visible. |
| TiledBitmapLayer.VisibleContentFillsProjection | mangaview/src/main/java/dev/keiji/mangaview/widget/TiledBitmapLayer.kt:193-207 | A tile that is exactly the visible content projects onto the whole display projection. |
| TiledBitmapLayer.DefaultStridesScenario | mangaview/src/test/java/dev/keiji/mangaview/widget/TiledSourceTest.kt:13-33 | 1000×2000 in 256 tiles gives 4 columns, 8 rows and 32 tiles. Tile 3 is (768,0,1000,256) and tile 31 is (768,1792,1000,2000). |
| TiledBitmapLayer.NarrowStrideScenario | mangaview/src/test/java/dev/keiji/mangaview/widget/TiledSourceTest.kt:36-58 | With stride 250, tile 3 is (750,0,1000,256) and tile 31 is (750,1750,1000,2000). |
| TiledBitmapLayer.RefusedScenarios | mangaview/src/test/java/dev/keiji/mangaview/widget/TiledSourceTest.kt:60-118 | The four refused test inputs fail, in the source's order of checks: a tile wider than the source, a tile taller than the source, horizontal stride 256.1 over tile 256, vertical stride 256.1 over tile 256. |
| Rectangles.Offset | mangaview/src/main/java/dev/keiji/mangaview/Rectangle.kt:47-52 | Offsetting moves every edge by (dx, dy) and keeps width and height. |
| Rectangles.RelativeBy | mangaview/src/main/java/dev/keiji/mangaview/Rectangle.kt:80-83 | Expressing a rectangle relative to a base is offsetting it by minus the base's top-left corner. |
| Rectangles.And | mangaview/src/main/java/dev/keiji/mangaview/Rectangle.kt:132-146 | The intersection is null exactly when the rectangles do not intersect. For valid rectangles it is otherwise a valid rectangle contained in both. |
| Rectangles.Or | mangaview/src/main/java/dev/keiji/mangaview/Rectangle.kt:116-130 | The union is null exactly when the rectangles do not intersect. Otherwise it is the bounding box: it contains both, and every rectangle containing both contains it. |
| Rectangles.Validate | mangaview/src/main/java/dev/keiji/mangaview/Rectangle.kt:89-100 | The result has ordered edges and the same set of edge values: each axis is swapped when reversed. |
| Rectangles.JaccardIndex | mangaview/src/main/java/dev/keiji/mangaview/Rectangle.kt:148-161 | Disjoint rectangles score 0. The lemmas below bound a defined score to [0, 1], make it symmetric, and give 1 for a rectangle against itself. A zero union area, where Kotlin's quotient is not finite, has no score here. |
| Rectangles.IntersectSymmetric | mangaview/src/main/java/dev/keiji/mangaview/Rectangle.kt:54-68 | `intersect` is symmetric. |
| Rectangles.TouchingRectanglesIntersect | mangaview/src/main/java/dev/keiji/mangaview/Rectangle.kt:54-68 | Rectangles that only share an edge intersect: the test is closed. |
| Rectangles.IntersectIffCommonPoint | mangaview/src/main/java/dev/keiji/mangaview/Rectangle.kt:54-68 | For valid rectangles, `intersect` holds exactly when some point lies in both. |
| Rectangles.AndIsCommonPart | mangaview/src/main/java/dev/keiji/mangaview/Rectangle.kt:132-146 | A point lies in the intersection exactly when it lies in both rectangles. |
| Rectangles.AndSymmetric | mangaview/src/main/java/dev/keiji/mangaview/Rectangle.kt:132-146 | `and` is symmetric. |
| Rectangles.ContainsReflexive | mangaview/src/main/java/dev/keiji/mangaview/Rectangle.kt:70-78 | Every rectangle contains itself. |
| Rectangles.ContainsTransitive | mangaview/src/main/java/dev/keiji/mangaview/Rectangle.kt:70-78 | `contains` is transitive. |
| Rectangles.ValidateIdempotent | mangaview/src/main/java/dev/keiji/mangaview/Rectangle.kt:89-100 | Validating twice is validating once. |
| Rectangles.OverlapAreaBounded | mangaview/src/main/java/dev/keiji/mangaview/Rectangle.kt:148-161 | For valid intersecting rectangles, the overlap area is at most either area. |
| Rectangles.JaccardIndexRange | mangaview/src/main/java/dev/keiji/mangaview/Rectangle.kt:148-161 | For valid rectangles, a defined index lies in [0, 1]. |
| Rectangles.JaccardIndexSymmetric | mangaview/src/main/java/dev/keiji/mangaview/Rectangle.kt:148-161 | The index is symmetric. |
| Rectangles.JaccardIndexSelf | mangaview/src/main/java/dev/keiji/mangaview/Rectangle.kt:148-161 | A valid rectangle with positive area scores 1 against itself. |
| ViewContexts.Initial | mangaview/src/main/java/dev/keiji/mangaview/widget/ViewContext.kt:8-47 | A fresh context has scale 1 in [1, 5], a viewport equal to the view, and unlimited scrolling on both axes. |
| ViewContexts.SetViewSize | mangaview/src/main/java/dev/keiji/mangaview/widget/ViewContext.kt:36-44 | Sets the view size and resets the viewport to the view at the origin; nothing else changes. |
| ViewContexts.SetScrollableAxis | mangaview/src/main/java/dev/keiji/mangaview/widget/ViewContext.kt:185-188 | Sets the two scroll policies; nothing else changes. |
| ViewContexts.ApplyViewport | mangaview/src/main/java/dev/keiji/mangaview/widget/ViewContext.kt:49-73 | Leaves the scale, sizes and policies alone. Without an area the position is kept. Afterwards the viewport matches the position and scale. |
| ViewContexts.OffsetTo | mangaview/src/main/java/dev/keiji/mangaview/widget/ViewContext.kt:89-101 | Without applying, only the position changes. With applying and no area, the viewport is (x, y, x + viewW/scale, y + viewH/scale). |
| ViewContexts.Offset | mangaview/src/main/java/dev/keiji/mangaview/widget/ViewContext.kt:82-87 | Moves the position by (dx, dy) and, when applied without an area, keeps it there. |
| ViewContexts.ClampScale | mangaview/src/main/java/dev/keiji/mangaview/widget/ViewContext.kt:128 | The clamped scale is at least minScale and at most maxScale when the bounds are ordered. A scale already in range is kept. |
| ViewContexts.ScaleTo | mangaview/src/main/java/dev/keiji/mangaview/widget/ViewContext.kt:121-145 | The new scale is the clamped target and so lies in [minScale, maxScale]. When the clamp equals the current scale, nothing changes. |
| ViewContexts.Scale | mangaview/src/main/java/dev/keiji/mangaview/widget/ViewContext.kt:103-119 | Zooming by a factor lands on the clamp of current scale × factor. |
| ViewContexts.ProjectToGlobalPosition | mangaview/src/main/java/dev/keiji/mangaview/widget/ViewContext.kt:163-172 | A screen point maps to an empty rectangle at the global point. Its offset from the viewport corner, times the view size, equals the screen coordinate times the viewport size on each axis, so the screen is stretched linearly onto the viewport. |
| ViewContexts.ProjectToScreenPosition | mangaview/src/main/java/dev/keiji/mangaview/widget/ViewContext.kt:174-183 | A global point maps to an empty rectangle at the screen point. The screen coordinate times the viewport size equals the point's offset from the viewport corner times the view size on each axis, the inverse stretch. |
| ViewContexts.ProjectCorners | mangaview/src/main/java/dev/keiji/mangaview/widget/ViewContext.kt:163-183 | The screen's top-left corner projects to the viewport's top-left corner and the screen's far corner (view width, view height) to the viewport's bottom-right corner. Back the other way, those viewport corners project to (0, 0) and to the view size. |
| ViewContexts.ProjectionsKeepOrder | mangaview/src/main/java/dev/keiji/mangaview/widget/ViewContext.kt:163-183 | Both projections keep the order of points on each axis: a point left of (or above) another stays so after projecting. |
| ViewContexts.OffsetToPlacesViewport | mangaview/src/main/java/dev/keiji/mangaview/widget/ViewContext.kt:49-56 | An applied move without an area puts the viewport's corner at (x, y) with size view/scale. |
| ViewContexts.StrictHorizontalStaysInside | mangaview/src/main/java/dev/keiji/mangaview/widget/ViewContext.kt:57-64 | Under the strict horizontal policy, a viewport no wider than the area ends inside it horizontally. |
| ViewContexts.StrictVerticalStaysInside | mangaview/src/main/java/dev/keiji/mangaview/widget/ViewContext.kt:65-71 | Under the strict vertical policy, a viewport no taller than the area ends inside it vertically. |
| ViewContexts.UnlimitedAxisNotCorrected | mangaview/src/main/java/dev/keiji/mangaview/widget/ViewContext.kt:57-72 | An axis whose policy is not strict is never corrected by the area. |
| ViewContexts.InsideAreaNotCorrected | mangaview/src/main/java/dev/keiji/mangaview/widget/ViewContext.kt:57-72 | A viewport already inside the area is left exactly where it is. |
| ViewContexts.ScaleToKeepsFocus | mangaview/src/main/java/dev/keiji/mangaview/widget/ViewContext.kt:133-144 | Zooming without an area keeps the global point under the focus fixed on screen. |
| ViewContexts.ScreenRoundTrip | mangaview/src/main/java/dev/keiji/mangaview/widget/ViewContext.kt:163-183 | Projecting a screen point to global and back gives the point again. |
| ViewContexts.GlobalRoundTrip | mangaview/src/main/java/dev/keiji/mangaview/widget/ViewContext.kt:163-183 | Projecting a global point to the screen and back gives the point again. |
| ViewContexts.NothingToScrollIffShown | mangaview/src/main/java/dev/keiji/mangaview/widget/ViewContext.kt:147-161 | With delta 0, no `canScroll*` holds exactly when the viewport contains the rectangle. |
| BookPages.NewPage | mangaview/src/main/java/dev/keiji/mangaview/widget/Page.kt:11-28 | A new page is centred, in the middle, and unscaled. |
| BookPages.FitScale | mangaview/src/main/java/dev/keiji/mangaview/widget/SinglePageLayout.kt:20-23 | The fit scale is one of the two axis ratios, and no larger than either. |
| BookPages.FitScaleFits | mangaview/src/main/java/dev/keiji/mangaview/widget/SinglePageLayout.kt:20-26 | Content scaled by the fit scale fits the box on both axes and fills it on one. |
| SinglePageLayouts.Empty | mangaview/src/main/java/dev/keiji/mangaview/widget/SinglePageLayout.kt:14-17 | A new single layout is not filled and shows no pages. |
| SinglePageLayouts.Pages | mangaview/src/main/java/dev/keiji/mangaview/widget/SinglePageLayout.kt:77-81 | At most one page, and some page exactly when the layout is filled. |
| SinglePageLayouts.InitScrollArea | mangaview/src/main/java/dev/keiji/mangaview/widget/SinglePageLayout.kt:46-57 | The scroll area becomes the page's rectangle; an empty layout is unchanged. |
| SinglePageLayouts.Add | mangaview/src/main/java/dev/keiji/mangaview/widget/SinglePageLayout.kt:19-44 | The layout becomes filled. The page is scaled by the fit scale and centred: left margin equals right margin, top equals bottom. Its rectangle has the scaled size and becomes the scroll area. |
| SinglePageLayouts.AddedPageFitsSlot | mangaview/src/main/java/dev/keiji/mangaview/widget/SinglePageLayout.kt:20-38 | The placed page lies inside the layout and fills its width or its height. |
| SinglePageLayouts.CalcScrollArea | mangaview/src/main/java/dev/keiji/mangaview/widget/SinglePageLayout.kt:59-75 | The scaled scroll area has the same centre as the scroll area and contains it. |
| SinglePageLayouts.ScrollAreaAtScale | mangaview/src/main/java/dev/keiji/mangaview/widget/SinglePageLayout.kt:59-75 | At scale ≤ 1 the scroll area is unchanged. At scale ≥ 1 it grows to exactly scale × its size. |
| DoublePageLayouts.Empty | mangaview/src/main/java/dev/keiji/mangaview/widget/DoublePageLayout.kt:8-24 | A new spread is unflipped and has neither page. |
| DoublePageLayouts.Pages | mangaview/src/main/java/dev/keiji/mangaview/widget/DoublePageLayout.kt:140-150 | Empty unless both pages are set. Otherwise [left, right] unflipped and [right, left] flipped. |
| DoublePageLayouts.IsFilled | mangaview/src/main/java/dev/keiji/mangaview/widget/DoublePageLayout.kt:17-18 | A spread is filled exactly when it lists pages, and then it lists exactly two. |
| DoublePageLayouts.KeyPage | mangaview/src/main/java/dev/keiji/mangaview/widget/DoublePageLayout.kt:26-33 | The key page is one of the two slots. In a filled spread it is the second page in reading order (the right slot, or the left one when flipped). An unfilled spread may have none. |
| DoublePageLayouts.GoesRight | mangaview/src/main/java/dev/keiji/mangaview/widget/DoublePageLayout.kt:35-48 | An added page goes to the right slot exactly when its index is even in an unflipped spread, or odd in a flipped one. Kotlin's remainder is modelled for negative indices too. |
| DoublePageLayouts.SetRightPage | mangaview/src/main/java/dev/keiji/mangaview/widget/DoublePageLayout.kt:74-104 | Only the right slot changes. It holds the page with only the scale, rectangle and alignment changed. The scale fits the page into half the layout. The page is centred vertically and is as tall as its scaled height. In a spread it sits against the spine with all the slack outside and is aligned left. Otherwise the slack is split: a third at the spine, two thirds at the outer edge, alignment kept. |
| DoublePageLayouts.SetLeftPage | mangaview/src/main/java/dev/keiji/mangaview/widget/DoublePageLayout.kt:106-138 | Only the left slot changes. It holds the page with only the scale, rectangle and alignment changed. The scale fits the page into half the layout. The page is centred vertically and is as tall as its scaled height. In a spread it sits against the spine with all the slack outside and is aligned right. Otherwise the slack is split: a third at the spine, two thirds at the outer edge, alignment kept. |
| DoublePageLayouts.InitScrollArea | mangaview/src/main/java/dev/keiji/mangaview/widget/DoublePageLayout.kt:61-71 | A filled spread's scroll area is the smallest rectangle containing both page rectangles. An unfilled spread is unchanged. |
| DoublePageLayouts.Add | mangaview/src/main/java/dev/keiji/mangaview/widget/DoublePageLayout.kt:35-51 | A page goes right when its index (plus one when flipped) is even and left otherwise. The chosen slot holds the page as `SetRightPage`/`SetLeftPage` fit it into half the slot's width. The other slot, the position and the flags are kept. Once both slots are filled, the scroll area is the smallest rectangle containing both pages; before that it is unchanged. |
| DoublePageLayouts.RightPageInRightHalf | mangaview/src/main/java/dev/keiji/mangaview/widget/DoublePageLayout.kt:74-104 | A page added on the right lies inside the right half. In a spread it sits against the spine, aligned left. |
| DoublePageLayouts.LeftPageInLeftHalf | mangaview/src/main/java/dev/keiji/mangaview/widget/DoublePageLayout.kt:106-138 | A page added on the left lies inside the left half. In a spread it sits against the spine, aligned right. |
| DoublePageLayouts.Replace | mangaview/src/main/java/dev/keiji/mangaview/widget/DoublePageLayout.kt:53-59 | A page is identified by its index, standing in for the source's reference comparison. When the left slot holds the target it takes the new page (or empties when there is none) and nothing else changes. Otherwise, when the right slot holds the target, the right slot does so. With no match the layout is unchanged. The flags, placement and scroll area are always kept. |
| DoublePageLayouts.Remove | mangaview/src/main/java/dev/keiji/mangaview/widget/PageLayout.kt:19-21 | Removing the page in the left slot empties that slot and keeps the right one. Otherwise, removing the page in the right slot empties it and keeps the left one. Either way the spread is unfilled and lists no pages. Removing a page it does not hold changes nothing. |
| DoublePageLayouts.RemoveUndoesAdd | mangaview/src/main/java/dev/keiji/mangaview/widget/DoublePageLayout.kt:35-59 | Removing a page right after adding it empties the slot `add` chose and restores the other slot. It keeps the index, flags and placement. For the right slot this needs the left slot not to hold a page with the same index. |
| DoublePageLayouts.Flip | mangaview/src/main/java/dev/keiji/mangaview/widget/DoublePageLayout.kt:154-172 | A spread missing a page is unchanged. A filled one stays filled and toggles its flip flag. |
| DoublePageLayouts.FlipSwaps | mangaview/src/main/java/dev/keiji/mangaview/widget/DoublePageLayout.kt:26-172 | Flipping a filled spread swaps the two page rectangles, keeps which page is in which slot, reverses `pages`, and makes the key page the other slot. |
| DoublePageLayouts.FlipTwice | mangaview/src/main/java/dev/keiji/mangaview/widget/DoublePageLayout.kt:152-172 | Flipping twice restores the flag and both page rectangles. Outside spreads it restores the whole layout. |
| PageLayouts.Pages | mangaview/src/main/java/dev/keiji/mangaview/widget/PageLayout.kt:11-23 | A layout shows pages exactly when it is filled. |
| PageLayouts.Add | mangaview/src/main/java/dev/keiji/mangaview/widget/PageLayout.kt:15 | After `add`, the layout holds the page; index, position and kind are kept. |
| PageLayouts.Flip | mangaview/src/main/java/dev/keiji/mangaview/widget/PageLayout.kt:25-27 | A single layout or an unfilled spread is unchanged; a filled spread toggles its flip flag. |
| SinglePageLayoutManager.CalcLastPageIndex | mangaview/src/main/java/dev/keiji/mangaview/widget/SinglePageLayoutManager.kt:13 | A layout's last page has the layout's own index. |
| SinglePageLayoutManager.CalcFirstPageIndex | mangaview/src/main/java/dev/keiji/mangaview/widget/SinglePageLayoutManager.kt:11 | A layout starts with the same page it ends with. |
| SinglePageLayoutManager.CalcPageLayoutIndex | mangaview/src/main/java/dev/keiji/mangaview/widget/SinglePageLayoutManager.kt:9 | The layout found for a page starts and ends with that page. |
| SinglePageLayoutManager.GetCount | mangaview/src/main/java/dev/keiji/mangaview/widget/SinglePageLayoutManager.kt:5-7 | Every page of the book lands in a layout below the count, and every layout below the count shows a page of the book. |
| SinglePageLayoutManager.OnePagePerLayout | mangaview/src/main/java/dev/keiji/mangaview/widget/SinglePageLayoutManager.kt:9-13 | Each layout spans one page, and page index and layout index map to each other both ways. |
| SinglePageLayoutManager.PagesInRange | mangaview/src/main/java/dev/keiji/mangaview/widget/SinglePageLayoutManager.kt:5-9 | Every page of the book lands in a layout that exists. |
| DoublePageLayoutManager.GetCount | mangaview/src/main/java/dev/keiji/mangaview/widget/DoublePageLayoutManager.kt:10-17 | The count is ⌈n/2⌉, or ⌈(n+1)/2⌉ when starting with one side. |
| DoublePageLayoutManager.CalcPageLayoutIndex | mangaview/src/main/java/dev/keiji/mangaview/widget/DoublePageLayoutManager.kt:19-26 | The layout of page p is ⌊p/2⌋, or ⌊(p+1)/2⌋ when starting with one side. Kotlin's `floor` of a halved Int is modelled exactly. |
| DoublePageLayoutManager.CalcFirstPageIndex | mangaview/src/main/java/dev/keiji/mangaview/widget/DoublePageLayoutManager.kt:28-37 | For every layout, its first page is a page of the book and lies in that layout. From layout 1 on, the page before it lies in the previous layout. |
| DoublePageLayoutManager.CalcLastPageIndex | mangaview/src/main/java/dev/keiji/mangaview/widget/DoublePageLayoutManager.kt:39-49 | For every layout, its last page lies in that layout and the page after it in the next layout. |
| DoublePageLayoutManager.PageInLayoutIff | mangaview/src/main/java/dev/keiji/mangaview/widget/DoublePageLayoutManager.kt:19-49 | In both modes, page p lies in layout k's first..last span exactly when p's layout index is k. |
| DoublePageLayoutManager.LayoutSpan | mangaview/src/main/java/dev/keiji/mangaview/widget/DoublePageLayoutManager.kt:28-49 | Layout i spans pages 2i..2i+1. Starting with one side, layout 0 is page 0 alone and layout k ≥ 1 spans 2k−1..2k. |
| DoublePageLayoutManager.LayoutsCoverBook | mangaview/src/main/java/dev/keiji/mangaview/widget/DoublePageLayoutManager.kt:10-26 | The first page is in layout 0 and the last page is in the last layout. |
| DoublePageStartOneSideLayoutManager.GetCount | mangaview/src/main/java/dev/keiji/mangaview/widget/DoublePageStartOneSideLayoutManager.kt:9-12 | The count is ⌈(n+1)/2⌉. |
| DoublePageStartOneSideLayoutManager.CalcPageLayoutIndex | mangaview/src/main/java/dev/keiji/mangaview/widget/DoublePageStartOneSideLayoutManager.kt:14-17 | The layout of page p is ⌊(p+1)/2⌋. |
| DoublePageStartOneSideLayoutManager.CalcFirstPageIndex | mangaview/src/main/java/dev/keiji/mangaview/widget/DoublePageStartOneSideLayoutManager.kt:19-25 | For every layout, its first slot lies in that layout and the slot before it in the previous layout. For layout 0 that slot is the blank −1. |
| DoublePageStartOneSideLayoutManager.CalcLastPageIndex | mangaview/src/main/java/dev/keiji/mangaview/widget/DoublePageStartOneSideLayoutManager.kt:27-33 | For every layout, its last page lies in that layout and the page after it in the next layout. |
| DoublePageStartOneSideLayoutManager.TwoSlotsPerLayout | mangaview/src/main/java/dev/keiji/mangaview/widget/DoublePageStartOneSideLayoutManager.kt:19-33 | Every layout spans exactly two slots. Layout 0 is the blank slot −1 followed by page 0. |
| DoublePageStartOneSideLayoutManager.PageInLayoutIff | mangaview/src/main/java/dev/keiji/mangaview/widget/DoublePageStartOneSideLayoutManager.kt:14-33 | Page p lies in layout k's span exactly when p's layout index is k. |
| DoublePageStartOneSideLayoutManager.AgreesWithStartOneSideMode | mangaview/src/main/java/dev/keiji/mangaview/widget/DoublePageStartOneSideLayoutManager.kt:9-33 | This manager equals the double-page manager's start-one-side mode on count, layout index and last page. Their first pages differ only at layout 0 (−1 against 0). |
| PageLayoutManagers.GetPage | mangaview/src/main/java/dev/keiji/mangaview/widget/PageAdapter.kt:11-17 | The adapter's page has the requested index and the adapter's size for it. |
| PageLayoutManagers.CreatePageLayout | mangaview/src/main/java/dev/keiji/mangaview/widget/PageLayoutManager.kt:32 | A new layout has the given index and no pages. It is single for the single-page manager and an unflipped empty spread otherwise. |
| PageLayoutManagers.AddPages | mangaview/src/main/java/dev/keiji/mangaview/widget/PageLayoutManager.kt:16-25 | Adding the pages first..last keeps index, position and kind. The layout then holds the last page and, in a spread, the one before it. |
| PageLayoutManagers.Layout | mangaview/src/main/java/dev/keiji/mangaview/widget/PageLayoutManager.kt:16-25 | Filling a layout keeps its index, position and kind. |
| PageLayoutManagers.SpanIsOneOrTwo | mangaview/src/main/java/dev/keiji/mangaview/widget/PageLayoutManager.kt:16-18 | Every manager gives each layout one or two pages. |
| PageLayoutManagers.AddPagesSpan | mangaview/src/main/java/dev/keiji/mangaview/widget/PageLayoutManager.kt:20-22 | Adding a span of one or two pages leaves all of them in the layout, and two fill it. |
| PageLayoutManagers.LayoutHoldsItsPages | mangaview/src/main/java/dev/keiji/mangaview/widget/PageLayoutManager.kt:16-25 | A created and filled layout holds every page of its span, and is filled when the span has two pages. |
| PageLayoutManagers.DoubleLayoutPairsPages | mangaview/src/main/java/dev/keiji/mangaview/widget/DoublePageLayout.kt:38-48 | In plain double-page mode, layout i puts page 2i on the right and page 2i+1 on the left. |
| HorizontalLtrLayoutManager.Place | mangaview/src/main/java/dev/keiji/mangaview/widget/HorizontalLtrLayoutManager.kt:50-61 | Layout i is a view-sized box at the top of the strip, starting i view widths right of the origin. |
| HorizontalLtrLayoutManager.PlacementsAbut | mangaview/src/main/java/dev/keiji/mangaview/widget/HorizontalLtrLayoutManager.kt:50-61 | Layout 0 starts at the origin. Every layout is one view in size, and each starts where the previous one ends. |
| HorizontalLtrLayoutManager.CurrentPageLayoutIndex | mangaview/src/main/java/dev/keiji/mangaview/widget/HorizontalLtrLayoutManager.kt:21-23 | The current index is the integer part of abs(viewport centre x / view width). |
| HorizontalLtrLayoutManager.LeftIndex | mangaview/src/main/java/dev/keiji/mangaview/widget/HorizontalLtrLayoutManager.kt:25-36 | There is no left neighbour exactly at index 0 or before. |
| HorizontalLtrLayoutManager.RightIndex | mangaview/src/main/java/dev/keiji/mangaview/widget/HorizontalLtrLayoutManager.kt:38-48 | There is no right neighbour exactly when index + 1 ≥ count. |
| HorizontalLtrLayoutManager.NeighboursInverse | mangaview/src/main/java/dev/keiji/mangaview/widget/HorizontalLtrLayoutManager.kt:25-48 | The right neighbour of the left neighbour is the layout itself, and the other way round. |
| HorizontalLtrLayoutManager.CalcFirstVisiblePageLayoutIndex | mangaview/src/main/java/dev/keiji/mangaview/widget/HorizontalLtrLayoutManager.kt:63-65 | For a viewport right of the origin, the first visible layout is the one whose box holds the viewport's left edge. |
| HorizontalLtrLayoutManager.CalcLastVisiblePageLayoutIndex | mangaview/src/main/java/dev/keiji/mangaview/widget/HorizontalLtrLayoutManager.kt:67-69 | For a viewport right of the origin, the last visible layout is the first one whose left edge is at or right of the viewport's left edge. |
| HorizontalLtrLayoutManager.VisibleRangeCoversViewport | mangaview/src/main/java/dev/keiji/mangaview/widget/HorizontalLtrLayoutManager.kt:63-69 | Every layout that overlaps a viewport right of the origin, no wider than the view, lies between the first and last visible index. |
| HorizontalRtlLayoutManager.InitialScrollX | mangaview/src/main/java/dev/keiji/mangaview/layout/HorizontalRtlLayoutManager.kt:18-19 | For any context with that view width, the initial scroll x is layout 0's left edge. |
| HorizontalRtlLayoutManager.Place | mangaview/src/main/java/dev/keiji/mangaview/layout/HorizontalRtlLayoutManager.kt:47-58 | Layout i is a view-sized box at the top of the strip, ending i view widths left of the origin. |
| HorizontalRtlLayoutManager.PlacementsAbut | mangaview/src/main/java/dev/keiji/mangaview/layout/HorizontalRtlLayoutManager.kt:47-58 | Layout 0 ends at the origin. Every layout is one view in size, and each ends where the previous one starts. |
| HorizontalRtlLayoutManager.PortraitPhoneScenario | mangaview/src/test/java/dev/keiji/mangaview/widget/PageLayoutTest.kt:81-158 | For a 1080×2048 view, layouts 0 and 1 are (−1080,0,0,2048) and (−2160,0,−1080,2048). The initial scroll x sits on layout 0's left edge. |
| HorizontalRtlLayoutManager.CurrentPageLayoutIndex | mangaview/src/main/java/dev/keiji/mangaview/layout/HorizontalRtlLayoutManager.kt:24-26 | The current index is the integer part of abs(viewport centre x / view width). |
| HorizontalRtlLayoutManager.LeftIndex | mangaview/src/main/java/dev/keiji/mangaview/layout/HorizontalRtlLayoutManager.kt:28-36 | There is no left neighbour exactly when index + 1 ≥ count. |
| HorizontalRtlLayoutManager.RightIndex | mangaview/src/main/java/dev/keiji/mangaview/layout/HorizontalRtlLayoutManager.kt:38-45 | There is no right neighbour exactly at index 0 or before. |
| HorizontalRtlLayoutManager.MirrorsLeftToRight | mangaview/src/main/java/dev/keiji/mangaview/layout/HorizontalRtlLayoutManager.kt:28-45 | Left here is right in the left-to-right strip, and right here is left there. |
| HorizontalRtlLayoutManager.CalcLastVisiblePageLayoutIndex | mangaview/src/main/java/dev/keiji/mangaview/layout/HorizontalRtlLayoutManager.kt:60-62 | For a viewport left of the origin, the last visible layout is the one whose box holds the viewport's right edge. |
| HorizontalRtlLayoutManager.CalcFirstVisiblePageLayoutIndex | mangaview/src/main/java/dev/keiji/mangaview/layout/HorizontalRtlLayoutManager.kt:64-66 | For a viewport left of the origin, the first visible layout is the one whose left edge is the first at or right of the viewport's right edge. When that edge is the origin this is −1. |
| HorizontalRtlLayoutManager.VisibleRangeCoversViewport | mangaview/src/main/java/dev/keiji/mangaview/layout/HorizontalRtlLayoutManager.kt:60-66 | Every layout that overlaps a viewport left of the origin, no wider than the view, lies between the first and last visible index. |
| VerticalLayoutManager.Place | mangaview/src/main/java/dev/keiji/mangaview/widget/VerticalLayoutManager.kt:50-61 | Layout i is a view-sized box at the left of the strip, starting i view heights below the origin. |
| VerticalLayoutManager.PlacementsAbut | mangaview/src/main/java/dev/keiji/mangaview/widget/VerticalLayoutManager.kt:50-61 | Layout 0 starts at the origin. Every layout is one view in size, and each starts where the previous one ends. |
| VerticalLayoutManager.CurrentPageLayoutIndex | mangaview/src/main/java/dev/keiji/mangaview/widget/VerticalLayoutManager.kt:21-23 | The current index is the integer part of abs(viewport centre y / view height). |
| VerticalLayoutManager.TopIndex | mangaview/src/main/java/dev/keiji/mangaview/widget/VerticalLayoutManager.kt:25-36 | There is no top neighbour exactly at index 0 or before. |
| VerticalLayoutManager.BottomIndex | mangaview/src/main/java/dev/keiji/mangaview/widget/VerticalLayoutManager.kt:38-48 | There is no bottom neighbour exactly when index + 1 ≥ count. |
| VerticalLayoutManager.NeighboursInverse | mangaview/src/main/java/dev/keiji/mangaview/widget/VerticalLayoutManager.kt:25-48 | The bottom neighbour of the top neighbour is the layout itself, and the other way round. |
| VerticalLayoutManager.CalcFirstVisiblePageLayoutIndex | mangaview/src/main/java/dev/keiji/mangaview/widget/VerticalLayoutManager.kt:63-65 | For a viewport below the origin, the first visible layout is the one whose box holds the viewport's top edge. |
| VerticalLayoutManager.CalcLastVisiblePageLayoutIndex | mangaview/src/main/java/dev/keiji/mangaview/widget/VerticalLayoutManager.kt:67-69 | For a viewport below the origin, the last visible layout is the first one whose top edge is at or below the viewport's top edge. |
| VerticalLayoutManager.VisibleRangeCoversViewport | mangaview/src/main/java/dev/keiji/mangaview/widget/VerticalLayoutManager.kt:63-69 | Every layout that overlaps a viewport below the origin, no taller than the view, lies between the first and last visible index. |
| LayoutManagers.Count | mangaview/src/main/java/dev/keiji/mangaview/widget/PageLayoutManager.kt:14-27 | The first page of the book is in layout 0, the last page in the last layout, and every page in a layout below the count. |
| LayoutManagers.CurrentPageLayoutIndex | mangaview/src/main/java/dev/keiji/mangaview/widget/LayoutManager.kt:23 | The current index is non-negative. It is the integer part of abs(viewport centre / view size) along the strip's axis: x for the horizontal strips, y for the vertical one. |
| LayoutManagers.CalcFirstVisiblePageLayoutIndex | mangaview/src/main/java/dev/keiji/mangaview/widget/LayoutManager.kt:110 | On each strip, the layout at the viewport's leading edge: left edge left to right, right edge right to left, top edge vertically. |
| LayoutManagers.CalcLastVisiblePageLayoutIndex | mangaview/src/main/java/dev/keiji/mangaview/widget/LayoutManager.kt:112 | On each strip, the layout at the viewport's trailing edge, located as for the strip's own manager. |
| LayoutManagers.StripLayout | mangaview/src/main/java/dev/keiji/mangaview/widget/LayoutManager.kt:108 | Laying a layout out on a strip puts it at its strip place and keeps its index and fill state. |
| LayoutManagers.RtlFlipsEmptyLayout | mangaview/src/main/java/dev/keiji/mangaview/layout/HorizontalRtlLayoutManager.kt:47-58 | The right-to-left strip flips a layout before it holds pages, so the flip changes nothing and the spread stays unflipped. |
| LayoutManagers.GetPageLayout | mangaview/src/main/java/dev/keiji/mangaview/widget/LayoutManager.kt:25-40 | Null exactly for an index outside [0, count). A cached layout is returned as is. Otherwise a new unfilled layout with that index is placed on the strip and cached. An index-consistent, placed cache stays so. |
| LayoutManagers.GetPageLayoutIdempotent | mangaview/src/main/java/dev/keiji/mangaview/widget/LayoutManager.kt:33-39 | A second lookup of the same index returns the same layout and leaves the cache as the first left it. |
| LayoutManagers.NeighbourSitsOnThatSide | mangaview/src/main/java/dev/keiji/mangaview/widget/LayoutManager.kt:46-64 | On every strip, the neighbour index on a side is in range and its place touches the current place on that side. |
| LayoutManagers.NeighbourPageLayout | mangaview/src/main/java/dev/keiji/mangaview/widget/LayoutManager.kt:46-64 | The neighbour lookup starts from the base layout's index, or the current index without one. It gives null past either end and is otherwise the cached lookup of the neighbour index. |
| LayoutManagers.FreshLayout | mangaview/src/main/java/dev/keiji/mangaview/widget/LayoutManager.kt:33-37 | A layout created for an index keeps the index and sits at the strip place of that index. |
| LayoutManagers.FreshLayoutHoldsItsPages | mangaview/src/main/java/dev/keiji/mangaview/widget/LayoutManager.kt:94-98 | A created and filled layout holds all the pages of its index, on every strip. |
| LayoutManagers.ObtainFilled | mangaview/src/main/java/dev/keiji/mangaview/widget/LayoutManager.kt:94-99 | One step of the visible-layout walk: look up, fill when unfilled, cache. A filled cached layout is reused, and a new one is placed and holds its pages. |
| LayoutManagers.VisibleRange | mangaview/src/main/java/dev/keiji/mangaview/widget/LayoutManager.kt:80-90 | The walked range starts at 0 or later and ends at the last layout or earlier. |
| LayoutManagers.VisibleRangeIsClampedWindow | mangaview/src/main/java/dev/keiji/mangaview/widget/LayoutManager.kt:80-90 | An index is walked exactly when it is a layout of the strip and lies within the page limit of the first and last visible indices, whichever order those come in. |
| LayoutManagers.CollectLayouts | mangaview/src/main/java/dev/keiji/mangaview/widget/LayoutManager.kt:92-101 | The walk returns one layout per index of the range, in ascending order and each with its own index. Each is then cached, and cached layouts outside the range stay untouched. |
| LayoutManagers.ObtainVisiblePageLayout | mangaview/src/main/java/dev/keiji/mangaview/widget/LayoutManager.kt:68-103 | The result is exactly the layouts of the clamped visible range, in order. Newly created ones hold their pages, and with a placed cache every layout is at its strip place. |
| LayoutManagers.VisibleLayoutsCollected | mangaview/src/main/java/dev/keiji/mangaview/widget/LayoutManager.kt:73-90 | Every layout that overlaps a viewport no larger than the view is within the walked range. |
| LayoutManagers.FirstPageLayout | mangaview/src/main/java/dev/keiji/mangaview/widget/LayoutManager.kt:124-125 | There is a first layout exactly when the strip is not empty. |
| LayoutManagers.LastPageLayout | mangaview/src/main/java/dev/keiji/mangaview/widget/LayoutManager.kt:127-128 | There is a last layout exactly when the strip is not empty, and its index is count − 1. |
| LayoutManagers.IsOverScrolled | mangaview/src/main/java/dev/keiji/mangaview/widget/HorizontalLtrLayoutManager.kt:80-89 | A zero move is never over-scrolled. With a placed cache, left to right (top to bottom on the vertical strip), the answer is true exactly when the move goes back and the viewport starts before layout 0, or the move goes forward and the viewport ends past the last layout. |
| LayoutManagers.InitWith | mangaview/src/main/java/dev/keiji/mangaview/widget/LayoutManager.kt:114-122 | Records the rounded view size and keeps the context's scale and view size. It sets the cross axis strict and the reading axis unlimited. |
| LayoutManagers.InitShowsFirstLayout | mangaview/src/main/java/dev/keiji/mangaview/widget/LayoutManager.kt:114-122 | At scale 1, after initialisation the viewport is exactly layout 0's place and the current index is 0, on every strip. |
| ContentLayers.NewContentLayer | mangaview/src/main/java/dev/keiji/mangaview/widget/ContentLayer.kt:11-45 | A new layer is in state NA with no page, scale 1 and the content's size. |
| ContentLayers.LeftPadding | mangaview/src/main/java/dev/keiji/mangaview/widget/ContentLayer.kt:65-69 | Center splits the slack equally, Left puts none before the content, Right puts all of it. Non-negative slack gives a padding within it. |
| ContentLayers.TopPadding | mangaview/src/main/java/dev/keiji/mangaview/widget/ContentLayer.kt:70-74 | Middle splits the slack equally, Top puts none above the content, Bottom puts all of it. Non-negative slack gives a padding within it. |
| ContentLayers.OnContentPrepared | mangaview/src/main/java/dev/keiji/mangaview/widget/ContentLayer.kt:49-91 | Without a page nothing changes. With one, the layer becomes Initialized. Its scale is the fit scale, so the scaled content fits the page and fills it on one axis. On each axis the slack is split by the page's alignment, the position is the page rectangle shrunk by the shares, and the stored paddings are the shares divided by the scale. |
| ContentLayers.FitLayerIsFitted | mangaview/src/main/java/dev/keiji/mangaview/widget/ContentLayer.kt:54-90 | The preparation with the fit scale yields a fitted layer (as for `OnContentPrepared`). |
| ContentLayers.FitLayer | mangaview/src/main/java/dev/keiji/mangaview/widget/ContentLayer.kt:59-90 | Placing the content at a given scale changes only the scale, position, paddings and state, and ends Initialized. |
| ContentLayers.Draw | mangaview/src/main/java/dev/keiji/mangaview/widget/ContentLayer.kt:93-138 | An unprepared source leaves the layer Waiting without drawing, and a layer that is not Initialized does not draw. Otherwise the page's content source is mapped back to content coordinates and the content viewport recomputed; the listener hears of it exactly when it changed. The draw succeeds when the display projection is empty or the layer's own drawing succeeds. |
| ContentLayers.ContentViewport | mangaview/src/main/java/dev/keiji/mangaview/widget/ContentLayer.kt:120-125 | The content viewport is the mapped source inset by the four paddings. |
| ContentLayers.Recycle | mangaview/src/main/java/dev/keiji/mangaview/widget/ContentLayer.kt:246-250 | Recycling resets the state to NA and changes nothing else. |
| ContentLayers.RecycledLayerDoesNotDraw | mangaview/src/main/java/dev/keiji/mangaview/widget/ContentLayer.kt:100-107 | A recycled layer does not draw until it is prepared again. |
| ContentLayers.WholePageShowsWholeContent | mangaview/src/main/java/dev/keiji/mangaview/widget/ContentLayer.kt:109-125 | For a fitted layer whose page is wholly visible, the reported content viewport is the whole content, (0, 0, contentW, contentH). |
| FocusHelpers.Focus | mangaview/src/main/java/dev/keiji/mangaview/widget/FocusHelper.kt:12-50 | The animation starts at the current position and scale and has no zoom focus point. It runs 200 ms at priority −1. |
| FocusHelpers.FocusScaleFits | mangaview/src/main/java/dev/keiji/mangaview/widget/FocusHelper.kt:13-25 | The target scale is positive. The scaled rectangle fits the view on both axes and fills one, so both paddings are non-negative. |
| FocusHelpers.FocusCentres | mangaview/src/main/java/dev/keiji/mangaview/widget/FocusHelper.kt:27-31 | Half a viewport past the destination is the rectangle's centre, on both axes. |
| FocusHelpers.FocusShowsRect | mangaview/src/main/java/dev/keiji/mangaview/widget/FocusHelper.kt:12-50 | Once the view is at the target scale and destination, its viewport contains the whole rectangle and shares its centre. |

## Left out

- DoublePageLayouts.Replace: Kotlin compares `Page` objects by reference. `getPage` builds a new `Page` on every call, while `layout` fetches each page once and the layout keeps that object, so the model identifies pages by index. A `Page` from another `getPage` call for the same index is never matched by Kotlin's `replace`, but is matched here.
- PageLayoutManagers.Layout, PageLayoutManagers.AddPages: these require `PagesSized`, i.e. that the adapter reports a positive size for every integer index. Kotlin's `layout` calls `getPage` for every index of the span without a bounds check. That includes −1 for layout 0 of `DoublePageStartOneSideLayoutManager` and `pageCount` for an odd book's last spread, so an adapter that fails on those indices fails there. The model does not cover that failure.
- Floating point: Kotlin `Float` is exact `real` here, so rounding, NaN and infinities are not modelled. Where the source would divide by zero, the model requires a non-zero divisor instead: view and page sizes, scales, content sizes, strides in the Kotlin builds, and the viewport in the projections.
- TiledSources.Build, TiledBitmapLayer.Build: a zero stride is excluded by the requires, because Float division by zero is outside the exact-real model. In Kotlin, a positive source size over a zero stride gives +Infinity, which `roundToInt()` turns into `Int.MAX_VALUE`: a grid of about 2^31 columns or rows. A zero source size gives 0/0 = NaN, and `roundToInt()` then throws `IllegalArgumentException`. A negative size gives −Infinity, which becomes `Int.MIN_VALUE`, so there are no tiles.
- TiledBitmapMaker.Build: the `print` calls and the PIL image are left out, so the image is given by its width and height. A zero stride passes the script's checks and then raises `ZeroDivisionError`; the model returns the error `ZeroStride` for it.
- The script's `main`: flag parsing, file checks, directory creation, cropping and saving are I/O. Only the stride defaults are modelled.
- LayoutManagers.IsOverScrolled: the right-to-left strip is excluded by the requires, because `HorizontalRtlLayoutManager` in this snapshot does not implement `isOverScrolled`.
- Android and threading: canvases, bitmaps, paints, `synchronized` blocks and bitmap `recycle()` calls are left out. A bitmap is an opaque type parameter, and the cache is a map.
- `TiledBitmapLayer.drawTiles`: what is drawn is left out. Its verdict and requests are modelled in `OnDraw`, and the projection of a tile in `Project`.
- ContentLayers.Draw: the content source's asynchronous `prepare` becomes the `prepared` parameter. The subclass's `onDraw` result becomes the `onDrawResult` parameter. The listener call becomes the `notified` field of the result. The transient Initializing state cannot be observed between the two halves of the callback, so it never appears.
- ContentLayer tap handling (`requestHandleEvent`, `convertToLocal`, `onTap`, `onDoubleTap`, `onLongTap`) depends on listeners and `MangaView`, so it is left out. The `onRecycled` hook of the base class is empty. The tiled layer's override is modelled as `TiledBitmapLayer.OnRecycled`.
- The content viewport that `draw` reports adds the left/top paddings to a source that was already shifted by them, and subtracts the right/bottom paddings. The model computes it as written. Only the wholly visible page is proved to give the whole content (`ContentLayers.WholePageShowsWholeContent`). No general property is claimed for partial views.
- `PageLayout.getScaledScrollArea` only caches `calcScrollArea` by scale, so it is left out; `SinglePageLayouts.CalcScrollArea` models the computation.
- Inconsistencies in this source snapshot, resolved as follows:
  - `SinglePageLayout.add` writes `page.globalPosition`, which `Page` does not have; it is modelled as the page's `globalRect`.
  - `SinglePageLayout` declares neither `keyPage` nor `replace`, so neither is modelled for single layouts.
  - `DoublePageLayoutManager.createPageLayout` passes `startOneSide` to a two-argument `DoublePageLayout` constructor; the model passes only `isSpread`.
  - `SinglePageLayoutManager.createPageLayout` takes no index, while `PageLayout` has no `index` although the layout managers read one; every layout carries its index here.
  - `FocusHelper` passes an `applyImmediatelyEachAnimation` argument that `Animation` does not declare; it is not modelled.
  - The widget `TiledBitmapLayer` extends a `ContentLayer` constructor that does not match `ContentLayer.kt`; the layer is modelled with the content size from its tiled source.
- FocusHelpers.Focus: the animation's start time, the animator that plays it and its end callback are clock-driven, so they are left out. `FocusShowsRect` states where the finished animation leaves the view.
- Animator, populate helpers, MangaView, EdgeNavigationHelper, DoubleTapZoomHelper, Page drawing, the region and path layers and the older `jp.co.c_lis` and `app` copies are outside this model.

=== FILE: content_layer.dfy ===
/** `ContentLayer`: the picture drawn inside a page. Once its content
    source is prepared, the layer fits the content into the page's global
    rectangle, pads the slack according to the page's alignment, and from
    then on maps the visible part of the page to content pixels when it
    draws. */
module ContentLayers {
  import opened Numerics
  import opened Wrappers
  import opened Rectangles
  import opened BookPages

  datatype State = NA | Waiting | Initializing | Initialized

  datatype ContentLayer = ContentLayer(
    contentWidth: real,
    contentHeight: real,
    page: Option<Page>,
    baseScale: real,
    paddingLeft: real,
    paddingTop: real,
    paddingRight: real,
    paddingBottom: real,
    globalPosition: Rectangle,
    contentSrc: Rectangle,
    prevContentViewport: Rectangle,
    state: State)

  /** A layer over a `contentWidth` x `contentHeight` source, before any
      preparation: unscaled, unpadded, in state `NA`. */
  function NewContentLayer(contentWidth: real, contentHeight: real): (l: ContentLayer)
    ensures l.state == NA && l.page.None? && l.baseScale == 1.0
    ensures l.contentWidth == contentWidth && l.contentHeight == contentHeight
  {
    var zero := Rectangle(0.0, 0.0, 0.0, 0.0);
    ContentLayer(contentWidth, contentHeight, None, 1.0, 0.0, 0.0, 0.0, 0.0, zero, zero, zero, NA)
  }

  /** The share of the horizontal `slack` that goes to the left of the
      content: half when centred, none when left-aligned, all of it when
      right-aligned. */
  function LeftPadding(align: HorizontalAlign, slack: real): (p: real)
    ensures slack >= 0.0 ==> 0.0 <= p <= slack
    ensures align == Center ==> p == slack - p
    ensures align == Left ==> p == 0.0
    ensures align == Right ==> slack - p == 0.0
  {
    match align
    case Center => slack / 2.0
    case Left => 0.0
    case Right => slack
  }

  /** The share of the vertical `slack` that goes above the content. */
  function TopPadding(align: VerticalAlign, slack: real): (p: real)
    ensures slack >= 0.0 ==> 0.0 <= p <= slack
    ensures align == Middle ==> p == slack - p
    ensures align == Top ==> p == 0.0
    ensures align == Bottom ==> slack - p == 0.0
  {
    match align
    case Middle => slack / 2.0
    case Top => 0.0
    case Bottom => slack
  }

  /** What a prepared layer needs when a page is attached: a content
      source and a page rectangle with a size, since the fit divides by
      both. Without a page the callback does nothing and needs nothing. */
  predicate Preparable(layer: ContentLayer)
  {
    layer.page.Some? ==>
      && layer.contentWidth > 0.0 && layer.contentHeight > 0.0
      && layer.page.value.globalRect.Width() > 0.0 && layer.page.value.globalRect.Height() > 0.0
  }

  /** The callback run once the content source is prepared. Without a page
      nothing happens. Otherwise the layer becomes `Initialized` with a
      scale that fits the content into the page rectangle and fills it
      along one axis, a global position that is the scaled content, inside
      the page rectangle and aligned as the page says, and paddings that,
      in content pixels, are the gaps between the two rectangles. */
  method OnContentPrepared(layer: ContentLayer) returns (r: ContentLayer)
    requires Preparable(layer)
    ensures layer.page.None? ==> r == layer
    ensures layer.page.Some? ==> FittedInto(layer, layer.page.value, r)
  {
    if layer.page.None? {
      return layer;
    }
    var p := layer.page.value;
    var g := p.globalRect;
    r := FitLayer(layer, p, FitScale(g.Width(), g.Height(), layer.contentWidth, layer.contentHeight));
    FitLayerIsFitted(layer, p);
  }

  /** `r` is `layer` fitted into page `p`: only the scale, the global
      position, the paddings and the state changed, the layer is
      `Initialized`, and the scale, position and paddings fit as below. */
  ghost predicate FittedInto(layer: ContentLayer, p: Page, r: ContentLayer)
  {
    && r == layer.(baseScale := r.baseScale, globalPosition := r.globalPosition,
                   paddingLeft := r.paddingLeft, paddingTop := r.paddingTop,
                   paddingRight := r.paddingRight, paddingBottom := r.paddingBottom,
                   state := Initialized)
    && FittedScale(p, r) && FittedHorizontally(p, r) && FittedVertically(p, r)
  }

  /** The layer fitted at the scale `FitScale` picks is fitted. */
  lemma FitLayerIsFitted(layer: ContentLayer, p: Page)
    requires layer.contentWidth > 0.0 && layer.contentHeight > 0.0
    requires p.globalRect.Width() > 0.0 && p.globalRect.Height() > 0.0
    ensures var g := p.globalRect;
            FittedInto(layer, p, FitLayer(layer, p, FitScale(g.Width(), g.Height(), layer.contentWidth, layer.contentHeight)))
  {
    var bw, bh := p.globalRect.Width(), p.globalRect.Height();
    var s := FitScale(bw, bh, layer.contentWidth, layer.contentHeight);
    FitScaleFits(bw, bh, layer.contentWidth, layer.contentHeight);
    FitScaleIsPositive(bw, bh, layer.contentWidth, layer.contentHeight);
    FitLayerHorizontally(layer, p, s);
    FitLayerVertically(layer, p, s);
  }

  /** The layer fitted into page `p` at scale `s`: the scaled content
      placed as the page's alignments say, the gaps left over as paddings
      in content pixels. */
  function FitLayer(layer: ContentLayer, p: Page, s: real): (r: ContentLayer)
    requires s > 0.0
    ensures r == layer.(baseScale := s, globalPosition := r.globalPosition,
                        paddingLeft := r.paddingLeft, paddingTop := r.paddingTop,
                        paddingRight := r.paddingRight, paddingBottom := r.paddingBottom,
                        state := Initialized)
  {
    var g := p.globalRect;
    var slackW := g.Width() - layer.contentWidth * s;
    var slackH := g.Height() - layer.contentHeight * s;
    var padL := LeftPadding(p.horizontalAlign, slackW);
    var padT := TopPadding(p.verticalAlign, slackH);
    layer.(baseScale := s,
           globalPosition := Rectangle(g.left + padL, g.top + padT, g.right - (slackW - padL), g.bottom - (slackH - padT)),
           paddingLeft := padL / s, paddingTop := padT / s,
           paddingRight := (slackW - padL) / s, paddingBottom := (slackH - padT) / s,
           state := Initialized)
  }

  /** Horizontally, the layer fitted at a scale whose content fits is placed
      as the page says. */
  lemma FitLayerHorizontally(layer: ContentLayer, p: Page, s: real)
    requires s > 0.0 && layer.contentWidth * s <= p.globalRect.Width()
    ensures FittedHorizontally(p, FitLayer(layer, p, s))
  {
    var g := p.globalRect;
    var r := FitLayer(layer, p, s);
    var slack := g.Width() - layer.contentWidth * s;
    var lead := LeftPadding(p.horizontalAlign, slack);
    AxisFit(g.left, g.right, r.globalPosition.left, r.globalPosition.right, layer.contentWidth * s,
            r.paddingLeft, r.paddingRight, s, lead);
  }

  /** Vertically, the layer fitted at a scale whose content fits is placed
      as the page says. */
  lemma FitLayerVertically(layer: ContentLayer, p: Page, s: real)
    requires s > 0.0 && layer.contentHeight * s <= p.globalRect.Height()
    ensures FittedVertically(p, FitLayer(layer, p, s))
  {
    var g := p.globalRect;
    var r := FitLayer(layer, p, s);
    var slack := g.Height() - layer.contentHeight * s;
    var lead := TopPadding(p.verticalAlign, slack);
    AxisFit(g.top, g.bottom, r.globalPosition.top, r.globalPosition.bottom, layer.contentHeight * s,
            r.paddingTop, r.paddingBottom, s, lead);
  }

  /** One axis of the fit: a content extent `w` placed between `first` and
      `last` with `lead` of the slack before it keeps its extent, stays
      between the two, and each padding in content pixels times the scale
      is the gap on its side. */
  lemma AxisFit(first: real, last: real, lo: real, hi: real, w: real, padLo: real, padHi: real, s: real, lead: real)
    requires s > 0.0 && 0.0 <= lead <= (last - first) - w
    requires lo == first + lead && hi == last - (((last - first) - w) - lead)
    requires padLo == lead / s && padHi == (((last - first) - w) - lead) / s
    ensures AxisFitted(first, last, lo, hi, w, padLo, padHi, s)
  {
  }

  /** On one axis, the span `[lo, hi]` of extent `w` lies in `[first, last]`
      and the paddings, times the scale, are the gaps on either side. */
  ghost predicate AxisFitted(first: real, last: real, lo: real, hi: real, w: real, padLo: real, padHi: real, s: real)
  {
    && hi - lo == w && first <= lo && hi <= last
    && padLo * s == lo - first && padHi * s == last - hi
  }

  /** The scale fits the content into the page rectangle and fills it
      along one axis. */
  ghost predicate FittedScale(p: Page, r: ContentLayer)
  {
    var g := p.globalRect;
    var w := r.contentWidth * r.baseScale;
    var h := r.contentHeight * r.baseScale;
    && r.baseScale > 0.0
    && w <= g.Width() && h <= g.Height() && (w == g.Width() || h == g.Height())
  }

  /** Horizontally the global position is the scaled content, inside the
      page rectangle, aligned as the page says, and the left and right
      paddings are the gaps on those sides in content pixels. */
  ghost predicate FittedHorizontally(p: Page, r: ContentLayer)
  {
    var g := p.globalRect;
    var pos := r.globalPosition;
    && AxisFitted(g.left, g.right, pos.left, pos.right, r.contentWidth * r.baseScale,
                  r.paddingLeft, r.paddingRight, r.baseScale)
    && (p.horizontalAlign == Center ==> pos.left - g.left == g.right - pos.right)
    && (p.horizontalAlign == Left ==> pos.left == g.left)
    && (p.horizontalAlign == Right ==> pos.right == g.right)
  }

  /** The same vertically. */
  ghost predicate FittedVertically(p: Page, r: ContentLayer)
  {
    var g := p.globalRect;
    var pos := r.globalPosition;
    && AxisFitted(g.top, g.bottom, pos.top, pos.bottom, r.contentHeight * r.baseScale,
                  r.paddingTop, r.paddingBottom, r.baseScale)
    && (p.verticalAlign == Middle ==> pos.top - g.top == g.bottom - pos.bottom)
    && (p.verticalAlign == Top ==> pos.top == g.top)
    && (p.verticalAlign == Bottom ==> pos.bottom == g.bottom)
  }

  /** What one `draw` does with a layer. `notified` is the content viewport
      handed to the change listener, when it changed since the last draw. */
  datatype DrawStep = DrawStep(drawn: bool, layer: ContentLayer, notified: Option<Rectangle>)

  /** `draw`. `prepared` is the answer of the content source's `prepare`
      (which may have run `OnContentPrepared` before), and `onDrawResult`
      the answer of the layer's own drawing. The layer draws only once
      prepared and initialised; it then maps the page's visible part,
      `page.contentSrc`, into content pixels. */
  function Draw(layer: ContentLayer, page: Page, prepared: bool, onDrawResult: bool): (r: DrawStep)
    requires layer.baseScale != 0.0
    ensures !prepared ==> !r.drawn && r.layer == layer.(state := Waiting) && r.notified.None?
    ensures prepared && layer.state != Initialized ==> !r.drawn && r == DrawStep(false, layer, None)
    ensures r.drawn ==> prepared && layer.state == Initialized
    ensures prepared && layer.state == Initialized ==>
              && r.drawn == (page.displayProjection.Area() == 0.0 || onDrawResult)
              && r.layer == layer.(contentSrc := r.layer.contentSrc, prevContentViewport := r.layer.prevContentViewport)
              && MapsBack(layer, r.layer.contentSrc, page.contentSrc)
              && r.layer.prevContentViewport == ContentViewport(layer, r.layer.contentSrc)
              && (r.notified.Some? <==> r.layer.prevContentViewport != layer.prevContentViewport)
              && (r.notified.Some? ==> r.notified.value == r.layer.prevContentViewport)
  {
    if !prepared then DrawStep(false, layer.(state := Waiting), None)
    else if layer.state != Initialized then DrawStep(false, layer, None)
    else
      var s := layer.baseScale;
      var src := page.contentSrc;
      var contentSrc := Offset(Rectangle(src.left / s, src.top / s, src.right / s, src.bottom / s),
                               -layer.paddingLeft, -layer.paddingTop);
      var viewport := ContentViewport(layer, contentSrc);
      var notified := if viewport != layer.prevContentViewport then Some(viewport) else None;
      var drawn := if page.displayProjection.Area() == 0.0 then true else onDrawResult;
      DrawStep(drawn, layer.(contentSrc := contentSrc, prevContentViewport := viewport), notified)
  }

  /** `contentSrc`, taken back out of content pixels (shifted by the left
      and top paddings, scaled by `baseScale`), is the page's visible part. */
  ghost predicate MapsBack(layer: ContentLayer, contentSrc: Rectangle, pageSrc: Rectangle)
  {
    var s := layer.baseScale;
    && (contentSrc.left + layer.paddingLeft) * s == pageSrc.left
    && (contentSrc.top + layer.paddingTop) * s == pageSrc.top
    && (contentSrc.right + layer.paddingLeft) * s == pageSrc.right
    && (contentSrc.bottom + layer.paddingTop) * s == pageSrc.bottom
  }

  /** The content viewport reported to the listener: the layer's source
      rectangle with the left and top paddings added back and the right and
      bottom paddings taken off. */
  function ContentViewport(layer: ContentLayer, contentSrc: Rectangle): (v: Rectangle)
    ensures v.left - contentSrc.left == layer.paddingLeft && v.top - contentSrc.top == layer.paddingTop
    ensures contentSrc.right - v.right == layer.paddingRight && contentSrc.bottom - v.bottom == layer.paddingBottom
  {
    Rectangle(contentSrc.left + layer.paddingLeft, contentSrc.top + layer.paddingTop,
              contentSrc.right - layer.paddingRight, contentSrc.bottom - layer.paddingBottom)
  }

  /** `recycle`: the layer forgets its preparation. */
  function Recycle(layer: ContentLayer): (r: ContentLayer)
    ensures r.state == NA
    ensures r.(state := layer.state) == layer
  {
    layer.(state := NA)
  }

  /** A recycled layer does not draw again until it is prepared anew. */
  lemma RecycledLayerDoesNotDraw(layer: ContentLayer, page: Page, prepared: bool, onDrawResult: bool)
    requires layer.baseScale != 0.0
    ensures !Draw(Recycle(layer), page, prepared, onDrawResult).drawn
  {
  }

  /** When the whole page is visible (its visible part, relative to the
      page, is the page rectangle itself), a layer fitted into that page
      reports the whole content, `(0, 0, contentWidth, contentHeight)`, as
      its content viewport. */
  lemma WholePageShowsWholeContent(p: Page, l: ContentLayer, page: Page, onDrawResult: bool)
    requires FittedScale(p, l) && FittedHorizontally(p, l) && FittedVertically(p, l)
    requires l.state == Initialized
    requires page.contentSrc == Rectangle(0.0, 0.0, p.globalRect.Width(), p.globalRect.Height())
    ensures Draw(l, page, true, onDrawResult).layer.prevContentViewport
            == Rectangle(0.0, 0.0, l.contentWidth, l.contentHeight)
  {
    var src := Draw(l, page, true, onDrawResult).layer.contentSrc;
    WholeSourceShowsWholeContent(p, l, src);
  }

  /** A source rectangle that maps back to the whole page rectangle gives
      the whole content as the content viewport. */
  lemma WholeSourceShowsWholeContent(p: Page, l: ContentLayer, src: Rectangle)
    requires FittedScale(p, l) && FittedHorizontally(p, l) && FittedVertically(p, l)
    requires MapsBack(l, src, Rectangle(0.0, 0.0, p.globalRect.Width(), p.globalRect.Height()))
    ensures ContentViewport(l, src) == Rectangle(0.0, 0.0, l.contentWidth, l.contentHeight)
  {
    var g := p.globalRect;
    var pos := l.globalPosition;
    AxisShowsWholeContent(src.left, src.right, l.paddingLeft, l.paddingRight, l.baseScale,
                          l.contentWidth, g.Width(), pos.left - g.left, g.right - pos.right);
    AxisShowsWholeContent(src.top, src.bottom, l.paddingTop, l.paddingBottom, l.baseScale,
                          l.contentHeight, g.Height(), pos.top - g.top, g.bottom - pos.bottom);
  }

  /** One axis of the whole-page view: a source span that maps back to
      `[0, page]`, with paddings that fill the slack around the scaled
      content, shows the content span `[0, content]` once the paddings are
      put back. */
  lemma AxisShowsWholeContent(lo: real, hi: real, padLo: real, padHi: real, s: real,
                              content: real, page: real, gapLo: real, gapHi: real)
    requires s > 0.0
    requires (lo + padLo) * s == 0.0 && (hi + padLo) * s == page
    requires padLo * s == gapLo && padHi * s == gapHi && gapLo + gapHi == page - content * s
    ensures lo + padLo == 0.0 && hi - padHi == content
  {
    if lo + padLo < 0.0 {
      MulStrictReal(lo + padLo, 0.0, s);
    } else if lo + padLo > 0.0 {
      MulStrictReal(0.0, lo + padLo, s);
    }
    var x := hi - padHi;
    assert x * s == (hi + padLo) * s - (padLo + padHi) * s;
    assert x * s == content * s;
    if x < content {
      MulStrictReal(x, content, s);
    } else if x > content {
      MulStrictReal(content, x, s);
    }
  }
}

=== FILE: double_page_layout.dfy ===
/** `DoublePageLayout`: a layout slot split at its middle into a left and
    a right page. Even pages go right and odd pages left (the other way
    round once flipped); a spread pushes both pages against the spine,
    otherwise a page sits a third of the slack from the spine and the
    outer side gets the other two thirds. */
module DoublePageLayouts {
  import opened Numerics
  import opened Wrappers
  import opened Rectangles
  import opened BookPages

  datatype DoublePageLayout = DoublePageLayout(
    index: int,
    isSpread: bool,
    globalPosition: Rectangle,
    scrollArea: Rectangle,
    leftPage: Option<Page>,
    rightPage: Option<Page>,
    isFlip: bool)

  function Empty(index: int, isSpread: bool): (l: DoublePageLayout)
    ensures l.index == index && l.isSpread == isSpread && !l.isFlip
    ensures l.leftPage.None? && l.rightPage.None?
  {
    var zero := Rectangle(0.0, 0.0, 0.0, 0.0);
    DoublePageLayout(index, isSpread, zero, zero, None, None, false)
  }

  /** `pages`: nothing until both pages are there; then left and right, or
      right and left once flipped. */
  function Pages(l: DoublePageLayout): (ps: seq<Page>)
    ensures ps == [] <==> l.leftPage.None? || l.rightPage.None?
    ensures ps != [] && !l.isFlip ==> ps == [l.leftPage.value, l.rightPage.value]
    ensures ps != [] && l.isFlip ==> ps == [l.rightPage.value, l.leftPage.value]
  {
    match (l.rightPage, l.leftPage)
    case (Some(even), Some(odd)) => if !l.isFlip then [odd, even] else [even, odd]
    case _ => []
  }

  /** `isFilled`: both slots hold a page, which is when `pages` lists two. */
  predicate IsFilled(l: DoublePageLayout): (b: bool)
    ensures b <==> Pages(l) != []
    ensures b <==> |Pages(l)| == 2
  {
    l.leftPage.Some? && l.rightPage.Some?
  }

  /** `keyPage`: the right page, or the left one once flipped. It is always
      one of the slots, and in a full spread the page `pages` lists last. */
  function KeyPage(l: DoublePageLayout): (k: Option<Page>)
    ensures k.Some? ==> k == l.leftPage || k == l.rightPage
    ensures IsFilled(l) ==> k == Some(Pages(l)[1])
    ensures k.None? ==> !IsFilled(l)
  {
    if l.isFlip then l.leftPage else l.rightPage
  }

  /** The half of the slot each page occupies. */
  function LeftHalf(gp: Rectangle): Rectangle
  {
    Rectangle(gp.left, gp.top, gp.left + gp.Width() / 2.0, gp.bottom)
  }

  function RightHalf(gp: Rectangle): Rectangle
  {
    Rectangle(gp.left + gp.Width() / 2.0, gp.top, gp.right, gp.bottom)
  }

  /** `setRightPage`: fit the page into the right half and place it, against
      the spine in a spread. */
  function SetRightPage(l: DoublePageLayout, page: Page, pageWidth: real): (r: DoublePageLayout)
    requires Sized(page)
    ensures r == l.(rightPage := r.rightPage)
    ensures r.rightPage.Some?
    ensures var p := r.rightPage.value;
            var gp := l.globalPosition;
            var slack := pageWidth - page.width as real * p.baseScale;
            var spineGap := p.globalRect.left - (gp.left + pageWidth);
            var outerGap := gp.right - p.globalRect.right;
            && p == page.(baseScale := p.baseScale, globalRect := p.globalRect, horizontalAlign := p.horizontalAlign)
            && p.baseScale == FitScale(pageWidth, gp.Height(), page.width as real, page.height as real)
            && p.globalRect.top - gp.top == gp.bottom - p.globalRect.bottom
            && p.globalRect.Height() == page.height as real * p.baseScale
            && (l.isSpread ==> spineGap == 0.0 && outerGap == slack && p.horizontalAlign == Left)
            && (!l.isSpread ==> spineGap == slack / 3.0 && outerGap == slack * 2.0 / 3.0
                                && p.horizontalAlign == page.horizontalAlign)
  {
    var gp := l.globalPosition;
    var baseScale := FitScale(pageWidth, gp.Height(), page.width as real, page.height as real);
    var scaled := page.(baseScale := baseScale);
    var paddingHorizontal := pageWidth - scaled.ScaledWidth();
    var paddingVertical := gp.Height() - scaled.ScaledHeight();
    var paddingTop := paddingVertical / 2.0;
    var paddingBottom := paddingVertical - paddingTop;
    var aligned := if l.isSpread then scaled.(horizontalAlign := Left) else scaled;
    var paddingRight := if l.isSpread then paddingHorizontal else paddingHorizontal / 3.0 * 2.0;
    var paddingLeft := if l.isSpread then 0.0 else paddingHorizontal - paddingRight;
    var placed := aligned.(globalRect := Rectangle(gp.left + pageWidth + paddingLeft, gp.top + paddingTop,
                                                   gp.right - paddingRight, gp.bottom - paddingBottom));
    l.(rightPage := Some(placed))
  }

  /** `setLeftPage`: the mirror image in the left half. */
  function SetLeftPage(l: DoublePageLayout, page: Page, pageWidth: real): (r: DoublePageLayout)
    requires Sized(page)
    ensures r == l.(leftPage := r.leftPage)
    ensures r.leftPage.Some?
    ensures var p := r.leftPage.value;
            var gp := l.globalPosition;
            var slack := pageWidth - page.width as real * p.baseScale;
            var spineGap := (gp.right - pageWidth) - p.globalRect.right;
            var outerGap := p.globalRect.left - gp.left;
            && p == page.(baseScale := p.baseScale, globalRect := p.globalRect, horizontalAlign := p.horizontalAlign)
            && p.baseScale == FitScale(pageWidth, gp.Height(), page.width as real, page.height as real)
            && p.globalRect.top - gp.top == gp.bottom - p.globalRect.bottom
            && p.globalRect.Height() == page.height as real * p.baseScale
            && (l.isSpread ==> spineGap == 0.0 && outerGap == slack && p.horizontalAlign == Right)
            && (!l.isSpread ==> spineGap == slack / 3.0 && outerGap == slack * 2.0 / 3.0
                                && p.horizontalAlign == page.horizontalAlign)
  {
    var gp := l.globalPosition;
    var baseScale := FitScale(pageWidth, gp.Height(), page.width as real, page.height as real);
    var scaled := page.(baseScale := baseScale);
    var paddingHorizontal := pageWidth - scaled.ScaledWidth();
    var paddingVertical := gp.Height() - scaled.ScaledHeight();
    var paddingTop := paddingVertical / 2.0;
    var paddingBottom := paddingVertical - paddingTop;
    var aligned := if l.isSpread then scaled.(horizontalAlign := Right) else scaled;
    var paddingLeft := if l.isSpread then paddingHorizontal else paddingHorizontal / 3.0 * 2.0;
    var paddingRight := if l.isSpread then 0.0 else paddingHorizontal - paddingLeft;
    var placed := aligned.(globalRect := Rectangle(gp.left + paddingLeft, gp.top + paddingTop,
                                                   gp.right - pageWidth - paddingRight, gp.bottom - paddingBottom));
    l.(leftPage := Some(placed))
  }

  /** `initScrollArea`: once both pages are placed, the scroll area is the
      smallest rectangle holding both. */
  function InitScrollArea(l: DoublePageLayout): (r: DoublePageLayout)
    ensures r == l.(scrollArea := r.scrollArea)
    ensures !IsFilled(l) ==> r == l
    ensures IsFilled(l) ==>
              && Contains(r.scrollArea, l.leftPage.value.globalRect)
              && Contains(r.scrollArea, l.rightPage.value.globalRect)
              && forall c :: Contains(c, l.leftPage.value.globalRect) && Contains(c, l.rightPage.value.globalRect)
                             ==> Contains(c, r.scrollArea)
  {
    match (l.rightPage, l.leftPage)
    case (Some(even), Some(odd)) =>
      var e, o := even.globalRect, odd.globalRect;
      l.(scrollArea := Rectangle(Min(e.left, o.left), Min(e.top, o.top), Max(e.right, o.right), Max(e.bottom, o.bottom)))
    case _ => l
  }

  /** Whether `add` sends a page to the right slot: its index, shifted by
      one when flipped, is even (Kotlin `%`). */
  predicate GoesRight(l: DoublePageLayout, page: Page): (b: bool)
    ensures b <==> (page.index % 2 == 0) != l.isFlip
  {
    TruncRemParity(page.index);
    TruncRem(page.index + (if l.isFlip then 1 else 0), 2) == 0
  }

  /** `add`: place the page, fitted into half the slot, in the slot its
      parity selects, then refresh the scroll area; the other slot is
      untouched. */
  function Add(l: DoublePageLayout, page: Page): (r: DoublePageLayout)
    requires Sized(page)
    ensures r.index == l.index && r.isSpread == l.isSpread && r.isFlip == l.isFlip
    ensures r.globalPosition == l.globalPosition
    ensures GoesRight(l, page) ==> r.rightPage.Some? && r.rightPage.value.index == page.index && r.leftPage == l.leftPage
    ensures !GoesRight(l, page) ==> r.leftPage.Some? && r.leftPage.value.index == page.index && r.rightPage == l.rightPage
    ensures GoesRight(l, page) ==> r.rightPage == SetRightPage(l, page, l.globalPosition.Width() / 2.0).rightPage
    ensures !GoesRight(l, page) ==> r.leftPage == SetLeftPage(l, page, l.globalPosition.Width() / 2.0).leftPage
    ensures !IsFilled(r) ==> r.scrollArea == l.scrollArea
    ensures IsFilled(r) ==>
              && Contains(r.scrollArea, r.leftPage.value.globalRect)
              && Contains(r.scrollArea, r.rightPage.value.globalRect)
              && forall c :: Contains(c, r.leftPage.value.globalRect) && Contains(c, r.rightPage.value.globalRect)
                             ==> Contains(c, r.scrollArea)
  {
    var layoutWidth := l.globalPosition.Width() / 2.0;
    var placed := if GoesRight(l, page) then SetRightPage(l, page, layoutWidth) else SetLeftPage(l, page, layoutWidth);
    InitScrollArea(placed)
  }

  /** A page sent right lies in the right half of a well-formed slot; in a
      spread it touches the spine. */
  lemma RightPageInRightHalf(l: DoublePageLayout, page: Page)
    requires Sized(page) && l.globalPosition.IsValid() && GoesRight(l, page)
    ensures var p := Add(l, page).rightPage.value;
            && Contains(RightHalf(l.globalPosition), p.globalRect)
            && (l.isSpread ==> p.globalRect.left == RightHalf(l.globalPosition).left && p.horizontalAlign == Left)
  {
    var pw := l.globalPosition.Width() / 2.0;
    SetRightPageInRightHalf(l, page, pw);
    assert Add(l, page).rightPage == SetRightPage(l, page, pw).rightPage;
  }

  /** `setRightPage` at half the slot's width, as `add` calls it. */
  lemma SetRightPageInRightHalf(l: DoublePageLayout, page: Page, pw: real)
    requires Sized(page) && l.globalPosition.IsValid() && pw == l.globalPosition.Width() / 2.0
    ensures var p := SetRightPage(l, page, pw).rightPage.value;
            && Contains(RightHalf(l.globalPosition), p.globalRect)
            && (l.isSpread ==> p.globalRect.left == RightHalf(l.globalPosition).left && p.horizontalAlign == Left)
  {
    var gp := l.globalPosition;
    FitScaleFits(pw, gp.Height(), page.width as real, page.height as real);
    var p := SetRightPage(l, page, pw).rightPage.value;
    assert p.ScaledWidth() == page.width as real * p.baseScale;
    assert p.ScaledHeight() == page.height as real * p.baseScale;
  }


  /** A page sent left lies in the left half of a well-formed slot; in a
      spread it touches the spine. */
  lemma LeftPageInLeftHalf(l: DoublePageLayout, page: Page)
    requires Sized(page) && l.globalPosition.IsValid() && !GoesRight(l, page)
    ensures var p := Add(l, page).leftPage.value;
            && Contains(LeftHalf(l.globalPosition), p.globalRect)
            && (l.isSpread ==> p.globalRect.right == LeftHalf(l.globalPosition).right && p.horizontalAlign == Right)
  {
    var pw := l.globalPosition.Width() / 2.0;
    SetLeftPageInLeftHalf(l, page, pw);
    assert Add(l, page).leftPage == SetLeftPage(l, page, pw).leftPage;
  }

  /** `setLeftPage` at half the slot's width, as `add` calls it. */
  lemma SetLeftPageInLeftHalf(l: DoublePageLayout, page: Page, pw: real)
    requires Sized(page) && l.globalPosition.IsValid() && pw == l.globalPosition.Width() / 2.0
    ensures var p := SetLeftPage(l, page, pw).leftPage.value;
            && Contains(LeftHalf(l.globalPosition), p.globalRect)
            && (l.isSpread ==> p.globalRect.right == LeftHalf(l.globalPosition).right && p.horizontalAlign == Right)
  {
    var gp := l.globalPosition;
    FitScaleFits(pw, gp.Height(), page.width as real, page.height as real);
    var p := SetLeftPage(l, page, pw).leftPage.value;
    assert p.ScaledWidth() == page.width as real * p.baseScale;
    assert p.ScaledHeight() == page.height as real * p.baseScale;
  }


  /** Whether `slot` holds `target`. `replace` compares page objects by
      reference. `getPage` builds a new `Page` on every call, but `layout`
      fetches each page once and the layout keeps that object (placing it
      only updates its fields), so the model identifies a page by its
      index. A `Page` from another `getPage` call for the same index is
      never matched by the source, but is matched here. */
  predicate HoldsPage(slot: Option<Page>, target: Page)
  {
    slot.Some? && slot.value.index == target.index
  }

  /** `replace`: the slot holding `targetPage`, the left one first, takes
      `newPage`. The scroll area is not refreshed and nothing else
      changes. */
  function Replace(l: DoublePageLayout, targetPage: Page, newPage: Option<Page>): (r: DoublePageLayout)
    ensures r == l.(leftPage := r.leftPage, rightPage := r.rightPage)
    ensures HoldsPage(l.leftPage, targetPage) ==> r == l.(leftPage := newPage)
    ensures !HoldsPage(l.leftPage, targetPage) && HoldsPage(l.rightPage, targetPage) ==> r == l.(rightPage := newPage)
    ensures r.leftPage == l.leftPage || r.rightPage == l.rightPage
    ensures r.leftPage != l.leftPage ==> HoldsPage(l.leftPage, targetPage) && r.leftPage == newPage
    ensures r.rightPage != l.rightPage ==>
              !HoldsPage(l.leftPage, targetPage) && HoldsPage(l.rightPage, targetPage) && r.rightPage == newPage
    ensures HoldsPage(l.leftPage, targetPage) || HoldsPage(l.rightPage, targetPage) ==>
              (newPage.Some? ==> HoldsPage(r.leftPage, newPage.value) || HoldsPage(r.rightPage, newPage.value))
              && (newPage.None? ==> r.leftPage.None? || r.rightPage.None?)
  {
    if HoldsPage(l.leftPage, targetPage) then l.(leftPage := newPage)
    else if HoldsPage(l.rightPage, targetPage) then l.(rightPage := newPage)
    else l
  }

  /** `remove` (`PageLayout.remove`): replace the page by nothing. */
  function Remove(l: DoublePageLayout, page: Page): (r: DoublePageLayout)
    ensures !HoldsPage(l.leftPage, page) && !HoldsPage(l.rightPage, page) ==> r == l
    ensures HoldsPage(l.leftPage, page) ==> r.leftPage.None? && r.rightPage == l.rightPage
    ensures !HoldsPage(l.leftPage, page) && HoldsPage(l.rightPage, page) ==> r.rightPage.None? && r.leftPage == l.leftPage
    ensures r == l.(leftPage := r.leftPage, rightPage := r.rightPage)
    ensures HoldsPage(l.leftPage, page) || HoldsPage(l.rightPage, page) ==> !IsFilled(r) && Pages(r) == []
  {
    Replace(l, page, None)
  }

  /** Removing a page just added empties the slot `add` chose and leaves
      the other slot, the flags and the placement as they were, provided
      the other slot did not already hold that page. */
  lemma RemoveUndoesAdd(l: DoublePageLayout, page: Page)
    requires Sized(page)
    ensures var r := Remove(Add(l, page), page);
            && r.index == l.index && r.isSpread == l.isSpread && r.isFlip == l.isFlip
            && r.globalPosition == l.globalPosition
            && (GoesRight(l, page) && !HoldsPage(l.leftPage, page) ==>
                  r.rightPage.None? && r.leftPage == l.leftPage)
            && (!GoesRight(l, page) ==> r.leftPage.None? && r.rightPage == l.rightPage)
  {
  }

  /** `flip`: with both pages present, swap their rectangles, realign them
      in a spread, and toggle the flip flag; otherwise do nothing. */
  function Flip(l: DoublePageLayout): (r: DoublePageLayout)
    ensures !IsFilled(l) ==> r == l
    ensures IsFilled(l) ==> IsFilled(r) && r.isFlip == !l.isFlip
  {
    match (l.rightPage, l.leftPage)
    case (Some(even), Some(odd)) =>
      var odd1 := odd.(globalRect := even.globalRect);
      var even1 := even.(globalRect := odd.globalRect);
      var odd2 := if l.isSpread then odd1.(horizontalAlign := Left) else odd1;
      var even2 := if l.isSpread then even1.(horizontalAlign := Right) else even1;
      l.(leftPage := Some(odd2), rightPage := Some(even2), isFlip := !l.isFlip)
    case _ => l
  }

  /** Flipping swaps the two rectangles, reverses the page order, and moves
      the key page to the other slot. */
  lemma FlipSwaps(l: DoublePageLayout)
    requires IsFilled(l)
    ensures var r := Flip(l);
            && r.leftPage.value.globalRect == l.rightPage.value.globalRect
            && r.rightPage.value.globalRect == l.leftPage.value.globalRect
            && r.leftPage.value.index == l.leftPage.value.index
            && r.rightPage.value.index == l.rightPage.value.index
            && Pages(r)[0].index == Pages(l)[1].index && Pages(r)[1].index == Pages(l)[0].index
            && KeyPage(r) == (if l.isFlip then r.rightPage else r.leftPage)
  {
  }

  /** Flipping twice puts both rectangles and the flag back; outside a
      spread it restores the layout exactly. */
  lemma FlipTwice(l: DoublePageLayout)
    ensures var r := Flip(Flip(l));
            && r.isFlip == l.isFlip
            && (IsFilled(l) ==> r.leftPage.value.globalRect == l.leftPage.value.globalRect
                                && r.rightPage.value.globalRect == l.rightPage.value.globalRect)
            && (!l.isSpread ==> r == l)
  {
  }
}

=== FILE: focus_helper.dfy ===
/** `FocusHelper`: zoom to a rectangle. Focusing builds an animation from
    the current position and scale to the scale that fits the rectangle
    into the view and the position that centres it there. */
module FocusHelpers {
  import opened Numerics
  import opened Wrappers
  import opened Rectangles
  import opened BookPages
  import opened ViewContexts

  /** How long a focus animation runs, in milliseconds. */
  const FOCUS_DURATION_MILLIS: int := 200

  /** The priority a focus animation runs at. */
  const FOCUS_PRIORITY: int := -1

  /** `Animation.Translate`: move the view's top-left corner. */
  datatype Translate = Translate(startX: real, startY: real, destX: real, destY: real)

  /** `Animation.Scale`: zoom from one scale to another, about an optional
      focus point. */
  datatype ScaleChange = ScaleChange(fromScale: real, toScale: real, focusX: Option<real>, focusY: Option<real>)

  /** An `Animation` without its start time and end callback. */
  datatype Animation = Animation(translate: Option<Translate>, scale: Option<ScaleChange>,
                                 durationMillis: int, priority: int)

  /** What `focus` needs: a rectangle and a view with a size, since the
      target scale divides by the first and is divided by. */
  predicate Focusable(vc: ViewContext, focusRect: Rectangle)
  {
    && focusRect.Width() > 0.0 && focusRect.Height() > 0.0
    && vc.viewWidth > 0.0 && vc.viewHeight > 0.0
  }

  /** `focus`: the animation to `focusRect`. It starts where the view is
      now, at its current scale, ends at the scale that fits the rectangle
      into the view, and moves the view so that the slack left around the
      scaled rectangle is shared equally on either side. */
  function Focus(vc: ViewContext, focusRect: Rectangle): (a: Animation)
    requires Focusable(vc, focusRect)
    ensures a.translate.Some? && a.scale.Some?
    ensures a.translate.value.startX == vc.currentX && a.translate.value.startY == vc.currentY
    ensures a.scale.value.fromScale == vc.currentScale
    ensures a.scale.value.focusX.None? && a.scale.value.focusY.None?
    ensures a.durationMillis == FOCUS_DURATION_MILLIS && a.priority == FOCUS_PRIORITY
  {
    var scale := FitScale(vc.viewWidth, vc.viewHeight, focusRect.Width(), focusRect.Height());
    FitScaleIsPositive(vc.viewWidth, vc.viewHeight, focusRect.Width(), focusRect.Height());
    var paddingLeft := (vc.viewWidth - focusRect.Width() * scale) / 2.0;
    var paddingTop := (vc.viewHeight - focusRect.Height() * scale) / 2.0;
    Animation(Some(Translate(vc.currentX, vc.currentY, focusRect.left - paddingLeft / scale,
                             focusRect.top - paddingTop / scale)),
              Some(ScaleChange(vc.currentScale, scale, None, None)),
              FOCUS_DURATION_MILLIS, FOCUS_PRIORITY)
  }

  /** The target scale is the largest at which the rectangle fits the
      view: the scaled rectangle fits on both axes and fills one. */
  lemma FocusScaleFits(vc: ViewContext, focusRect: Rectangle)
    requires Focusable(vc, focusRect)
    ensures var s := Focus(vc, focusRect).scale.value.toScale;
            && s > 0.0
            && focusRect.Width() * s <= vc.viewWidth && focusRect.Height() * s <= vc.viewHeight
            && (focusRect.Width() * s == vc.viewWidth || focusRect.Height() * s == vc.viewHeight)
  {
    FitScaleFits(vc.viewWidth, vc.viewHeight, focusRect.Width(), focusRect.Height());
    FitScaleIsPositive(vc.viewWidth, vc.viewHeight, focusRect.Width(), focusRect.Height());
  }

  /** The destination centres the rectangle: half a viewport, at the target
      scale, past the destination is the rectangle's centre. */
  lemma FocusCentres(vc: ViewContext, focusRect: Rectangle)
    requires Focusable(vc, focusRect)
    ensures var a := Focus(vc, focusRect);
            var s := a.scale.value.toScale;
            && a.translate.value.destX + vc.viewWidth / s / 2.0 == focusRect.CenterX()
            && a.translate.value.destY + vc.viewHeight / s / 2.0 == focusRect.CenterY()
  {
    var a := Focus(vc, focusRect);
    var s := a.scale.value.toScale;
    FitScaleIsPositive(vc.viewWidth, vc.viewHeight, focusRect.Width(), focusRect.Height());
    AxisCentres(focusRect.left, focusRect.Width(), vc.viewWidth, s);
    AxisCentres(focusRect.top, focusRect.Height(), vc.viewHeight, s);
  }

  /** One axis of the centring: starting `((view - extent * s) / 2) / s`
      before `first`, half the view at scale `s` reaches the middle of
      `[first, first + extent]`. */
  lemma AxisCentres(first: real, extent: real, view: real, s: real)
    requires s > 0.0
    ensures (first - ((view - extent * s) / 2.0) / s) + view / s / 2.0 == first + extent / 2.0
  {
    calc {
      ((view - extent * s) / 2.0) / s;
      (view / s - extent) / 2.0;
    }
  }

  /** Once the animation has run — the view at the target scale, moved to
      the destination with its viewport applied — the viewport shows the
      whole rectangle and has the same centre. */
  lemma FocusShowsRect(vc: ViewContext, focusRect: Rectangle)
    requires Focusable(vc, focusRect)
    ensures var a := Focus(vc, focusRect);
            var r := OffsetTo(vc.(currentScale := a.scale.value.toScale),
                              a.translate.value.destX, a.translate.value.destY, None, true);
            && Contains(r.viewport, focusRect)
            && r.viewport.CenterX() == focusRect.CenterX()
            && r.viewport.CenterY() == focusRect.CenterY()
  {
    var a := Focus(vc, focusRect);
    var s := a.scale.value.toScale;
    var t := a.translate.value;
    FocusScaleFits(vc, focusRect);
    FocusCentres(vc, focusRect);
    var moved := vc.(currentScale := s);
    OffsetToPlacesViewport(moved, t.destX, t.destY);
    var v := OffsetTo(moved, t.destX, t.destY, None, true).viewport;
    AxisCovers(focusRect.left, focusRect.Width(), vc.viewWidth, s, v.left, v.Width());
    AxisCovers(focusRect.top, focusRect.Height(), vc.viewHeight, s, v.top, v.Height());
  }

  /** One axis of the cover: a span `view / s` long whose middle is the
      middle of `[first, first + extent]`, with `extent * s <= view`, holds
      it. */
  lemma AxisCovers(first: real, extent: real, view: real, s: real, lo: real, len: real)
    requires s > 0.0 && extent * s <= view
    requires len == view / s && lo + len / 2.0 == first + extent / 2.0
    ensures lo <= first && first + extent <= lo + len
  {
    assert extent <= len by {
      assert extent * s <= len * s;
      if extent > len {
        MulStrictReal(len, extent, s);
      }
    }
  }
}

=== FILE: layout_manager.dfy ===
/** `LayoutManager`: the strip of layouts the view scrolls over. It looks
    layouts up by index, creating and placing each on first use and caching
    it; collects the layouts around the viewport; finds neighbours; and
    tells when the viewport has run past either end of the strip. */
module LayoutManagers {
  import opened Numerics
  import opened Wrappers
  import opened Rectangles
  import opened ViewContexts
  import opened PageLayouts
  import PLM = PageLayoutManagers
  import Ltr = HorizontalLtrLayoutManager
  import Rtl = HorizontalRtlLayoutManager
  import Vertical = VerticalLayoutManager

  datatype Strip = HorizontalLtr | HorizontalRtl | VerticalStrip

  datatype Side = ToLeft | ToRight | ToTop | ToBottom

  datatype LayoutManager = LayoutManager(
    strip: Strip,
    pageLayoutManager: PLM.PageLayoutManager,
    adapter: PLM.PageAdapter,
    viewWidth: int,
    viewHeight: int,
    caches: map<int, PageLayout>)

  /** The number of layouts in the strip: the book's first page is in
      layout 0, its last page in the last layout, and every page in
      between in a layout below the count. */
  function Count(lm: LayoutManager): (n: int)
    ensures lm.adapter.pageCount >= 1 ==>
              && PLM.CalcPageLayoutIndex(lm.pageLayoutManager, 0) == 0
              && PLM.CalcPageLayoutIndex(lm.pageLayoutManager, lm.adapter.pageCount - 1) == n - 1
    ensures forall p :: 0 <= p < lm.adapter.pageCount ==> 0 <= PLM.CalcPageLayoutIndex(lm.pageLayoutManager, p) < n
  {
    PLM.GetCount(lm.pageLayoutManager, lm.adapter.pageCount)
  }

  /** The view has a size: the index calculations divide by it. */
  predicate ViewSized(vc: ViewContext)
  {
    vc.viewWidth != 0.0 && vc.viewHeight != 0.0
  }

  function Place(strip: Strip, vc: ViewContext, index: int): Rectangle
  {
    match strip
    case HorizontalLtr => Ltr.Place(vc, index)
    case HorizontalRtl => Rtl.Place(vc, index)
    case VerticalStrip => Vertical.Place(vc, index)
  }

  /** `layout`: give a layout its place on the strip; the right-to-left
      strip flips it as well. */
  function StripLayout(strip: Strip, index: int, l: PageLayout, vc: ViewContext): (r: PageLayout)
    ensures GlobalPosition(r) == Place(strip, vc, index) && Index(r) == Index(l)
    ensures IsFilled(r) == IsFilled(l)
  {
    var placed := WithGlobalPosition(l, Place(strip, vc, index));
    if strip == HorizontalRtl then Flip(placed) else placed
  }

  /** The right-to-left strip flips a layout before any page is in it, so
      the flip changes nothing and the pages added afterwards go unflipped. */
  lemma RtlFlipsEmptyLayout(lm: LayoutManager, vc: ViewContext, index: int)
    ensures var created := PLM.CreatePageLayout(lm.pageLayoutManager, index);
            && StripLayout(HorizontalRtl, index, created, vc) == WithGlobalPosition(created, Place(HorizontalRtl, vc, index))
            && (created.Double? ==> !StripLayout(HorizontalRtl, index, created, vc).double.isFlip)
  {
  }

  /** `currentPageLayoutIndex`: the layout under the viewport's centre,
      along the strip's axis. */
  function CurrentPageLayoutIndex(strip: Strip, vc: ViewContext): (i: int)
    requires ViewSized(vc)
    ensures i >= 0
    ensures strip != VerticalStrip ==> i as real <= AbsR(vc.viewport.CenterX() / vc.viewWidth) < i as real + 1.0
    ensures strip == VerticalStrip ==> i as real <= AbsR(vc.viewport.CenterY() / vc.viewHeight) < i as real + 1.0
  {
    match strip
    case HorizontalLtr => Ltr.CurrentPageLayoutIndex(vc)
    case HorizontalRtl => Rtl.CurrentPageLayoutIndex(vc)
    case VerticalStrip => Vertical.CurrentPageLayoutIndex(vc)
  }

  /** `calcFirstVisiblePageLayoutIndex`: the layout at the viewport's
      leading edge: its left edge on the left-to-right strip, its right
      edge on the right-to-left one, its top edge on the vertical one. */
  function CalcFirstVisiblePageLayoutIndex(strip: Strip, vc: ViewContext): (i: int)
    requires ViewSized(vc)
    ensures strip == HorizontalLtr && vc.viewWidth > 0.0 && vc.viewport.left >= 0.0 ==>
              Place(strip, vc, i).left <= vc.viewport.left < Place(strip, vc, i).right
    ensures strip == HorizontalRtl && vc.viewWidth > 0.0 && vc.viewport.right <= 0.0 ==>
              Place(strip, vc, i).left - vc.viewWidth < vc.viewport.right <= Place(strip, vc, i).left
    ensures strip == VerticalStrip && vc.viewHeight > 0.0 && vc.viewport.top >= 0.0 ==>
              Place(strip, vc, i).top <= vc.viewport.top < Place(strip, vc, i).bottom
  {
    match strip
    case HorizontalLtr => Ltr.CalcFirstVisiblePageLayoutIndex(vc)
    case HorizontalRtl => Rtl.CalcFirstVisiblePageLayoutIndex(vc)
    case VerticalStrip => Vertical.CalcFirstVisiblePageLayoutIndex(vc)
  }

  /** `calcLastVisiblePageLayoutIndex`: the layout at the viewport's
      trailing edge, for a viewport one view long. */
  function CalcLastVisiblePageLayoutIndex(strip: Strip, vc: ViewContext): (i: int)
    requires ViewSized(vc)
    ensures strip == HorizontalLtr && vc.viewWidth > 0.0 && vc.viewport.left >= 0.0 ==>
              Place(strip, vc, i).left - vc.viewWidth < vc.viewport.left <= Place(strip, vc, i).left
    ensures strip == HorizontalRtl && vc.viewWidth > 0.0 && vc.viewport.right <= 0.0 ==>
              Place(strip, vc, i).right <= vc.viewport.right < Place(strip, vc, i).right + vc.viewWidth
    ensures strip == VerticalStrip && vc.viewHeight > 0.0 && vc.viewport.top >= 0.0 ==>
              Place(strip, vc, i).top - vc.viewHeight < vc.viewport.top <= Place(strip, vc, i).top
  {
    match strip
    case HorizontalLtr => Ltr.CalcLastVisiblePageLayoutIndex(vc)
    case HorizontalRtl => Rtl.CalcLastVisiblePageLayoutIndex(vc)
    case VerticalStrip => Vertical.CalcLastVisiblePageLayoutIndex(vc)
  }

  /** Every cached layout sits at its own index, inside the strip. */
  predicate CacheIndexed(lm: LayoutManager)
  {
    forall i :: i in lm.caches ==> 0 <= i < Count(lm) && Index(lm.caches[i]) == i
  }

  /** Every cached layout has the place the strip gives its index. */
  predicate CachePlaced(lm: LayoutManager, vc: ViewContext)
  {
    forall i :: i in lm.caches ==> GlobalPosition(lm.caches[i]) == Place(lm.strip, vc, i)
  }

  datatype Lookup = Lookup(layout: Option<PageLayout>, manager: LayoutManager)

  /** `getPageLayout`: nothing outside `0 .. Count - 1`; otherwise the
      cached layout, or a new one placed on the strip and cached. */
  function GetPageLayout(lm: LayoutManager, index: int, vc: ViewContext): (r: Lookup)
    ensures r.layout.None? <==> index < 0 || index >= Count(lm)
    ensures r.layout.None? ==> r.manager == lm
    ensures r.layout.Some? ==> r.manager == lm.(caches := lm.caches[index := r.layout.value])
    ensures r.layout.Some? && index in lm.caches ==> r.layout.value == lm.caches[index]
    ensures r.layout.Some? && index !in lm.caches ==>
              && Index(r.layout.value) == index && !IsFilled(r.layout.value)
              && GlobalPosition(r.layout.value) == Place(lm.strip, vc, index)
    ensures CacheIndexed(lm) ==> CacheIndexed(r.manager) && (r.layout.Some? ==> Index(r.layout.value) == index)
    ensures CachePlaced(lm, vc) ==>
              CachePlaced(r.manager, vc) && (r.layout.Some? ==> GlobalPosition(r.layout.value) == Place(lm.strip, vc, index))
  {
    if index < 0 || index >= Count(lm) then Lookup(None, lm)
    else
      var pageLayout := if index in lm.caches then lm.caches[index]
                        else StripLayout(lm.strip, index, PLM.CreatePageLayout(lm.pageLayoutManager, index), vc);
      Lookup(Some(pageLayout), lm.(caches := lm.caches[index := pageLayout]))
  }

  /** Looking the same index up twice gives the same layout and leaves the
      cache as the first lookup left it. */
  lemma GetPageLayoutIdempotent(lm: LayoutManager, index: int, vc: ViewContext)
    ensures var first := GetPageLayout(lm, index, vc);
            GetPageLayout(first.manager, index, vc) == first
  {
  }

  /** `leftPageLayout` and friends: the neighbouring index on `side`, if
      the strip runs that way and has a layout there. */
  function NeighbourIndex(strip: Strip, side: Side, currentIndex: int, count: int): Option<int>
  {
    match (strip, side)
    case (HorizontalLtr, ToLeft) => Ltr.LeftIndex(currentIndex)
    case (HorizontalLtr, ToRight) => Ltr.RightIndex(currentIndex, count)
    case (HorizontalRtl, ToLeft) => Rtl.LeftIndex(currentIndex, count)
    case (HorizontalRtl, ToRight) => Rtl.RightIndex(currentIndex)
    case (VerticalStrip, ToTop) => Vertical.TopIndex(currentIndex)
    case (VerticalStrip, ToBottom) => Vertical.BottomIndex(currentIndex, count)
    case _ => None
  }

  /** A neighbour on a side lies against that side of the current layout,
      and inside the strip. */
  lemma NeighbourSitsOnThatSide(strip: Strip, side: Side, vc: ViewContext, currentIndex: int, count: int)
    requires NeighbourIndex(strip, side, currentIndex, count).Some?
    ensures var n := NeighbourIndex(strip, side, currentIndex, count).value;
            && (currentIndex >= 0 ==> n >= 0) && (currentIndex < count ==> n < count)
            && (side == ToLeft ==> Place(strip, vc, n).right == Place(strip, vc, currentIndex).left)
            && (side == ToRight ==> Place(strip, vc, n).left == Place(strip, vc, currentIndex).right)
            && (side == ToTop ==> Place(strip, vc, n).bottom == Place(strip, vc, currentIndex).top)
            && (side == ToBottom ==> Place(strip, vc, n).top == Place(strip, vc, currentIndex).bottom)
  {
    var n := NeighbourIndex(strip, side, currentIndex, count).value;
    match strip
    case HorizontalLtr => Ltr.PlacementsAbut(vc, n); Ltr.PlacementsAbut(vc, currentIndex);
    case HorizontalRtl => Rtl.PlacementsAbut(vc, n); Rtl.PlacementsAbut(vc, currentIndex);
    case VerticalStrip => Vertical.PlacementsAbut(vc, n); Vertical.PlacementsAbut(vc, currentIndex);
  }

  /** The neighbour of `base` (or of the current layout when there is no
      base) on `side`. */
  function NeighbourPageLayout(lm: LayoutManager, vc: ViewContext, base: Option<PageLayout>, side: Side): (r: Lookup)
    requires ViewSized(vc)
    ensures var current := if base.Some? then Index(base.value) else CurrentPageLayoutIndex(lm.strip, vc);
            var n := NeighbourIndex(lm.strip, side, current, Count(lm));
            && (n.None? ==> r == Lookup(None, lm))
            && (n.Some? ==> r == GetPageLayout(lm, n.value, vc))
  {
    var currentIndex := if base.Some? then Index(base.value) else CurrentPageLayoutIndex(lm.strip, vc);
    match NeighbourIndex(lm.strip, side, currentIndex, Count(lm))
    case None => Lookup(None, lm)
    case Some(i) => GetPageLayout(lm, i, vc)
  }

  datatype Collected = Collected(layouts: seq<PageLayout>, manager: LayoutManager)

  /** The layout a first lookup of `index` creates, places and fills. */
  function FreshLayout(strip: Strip, m: PLM.PageLayoutManager, adapter: PLM.PageAdapter, vc: ViewContext, index: int): (l: PageLayout)
    requires PLM.PagesSized(adapter)
    ensures Index(l) == index && GlobalPosition(l) == Place(strip, vc, index)
  {
    PLM.Layout(m, adapter, StripLayout(strip, index, PLM.CreatePageLayout(m, index), vc), index)
  }

  /** `l` holds every page the page-layout manager assigns to `index`. */
  predicate HoldsItsPages(m: PLM.PageLayoutManager, l: PageLayout, index: int)
  {
    forall p :: PLM.CalcFirstPageIndex(m, index) <= p <= PLM.CalcLastPageIndex(m, index) ==> Holds(l, p)
  }

  /** A freshly filled layout holds the pages of its index, on every strip. */
  lemma FreshLayoutHoldsItsPages(strip: Strip, m: PLM.PageLayoutManager, adapter: PLM.PageAdapter, vc: ViewContext, index: int)
    requires PLM.PagesSized(adapter) && index >= 0
    ensures var l := FreshLayout(strip, m, adapter, vc, index);
            && HoldsItsPages(m, l, index)
            && (PLM.CalcFirstPageIndex(m, index) < PLM.CalcLastPageIndex(m, index) ==> IsFilled(l))
  {
    var created := PLM.CreatePageLayout(m, index);
    assert StripLayout(strip, index, created, vc) == WithGlobalPosition(created, Place(strip, vc, index));
    PLM.LayoutHoldsItsPages(m, adapter, index, Place(strip, vc, index));
  }

  /** One step of `obtainVisiblePageLayout`: look the layout up and fill it
      with its pages when it is not yet filled; the cached object is filled
      in place, so the cache holds the filled layout. */
  method ObtainFilled(lm: LayoutManager, vc: ViewContext, index: int) returns (r: Lookup)
    requires PLM.PagesSized(lm.adapter) && CacheIndexed(lm)
    requires 0 <= index < Count(lm)
    ensures r.layout.Some? && Index(r.layout.value) == index
    ensures r.manager == lm.(caches := lm.caches[index := r.layout.value])
    ensures index in lm.caches && IsFilled(lm.caches[index]) ==> r.layout.value == lm.caches[index]
    ensures index !in lm.caches ==>
              && GlobalPosition(r.layout.value) == Place(lm.strip, vc, index)
              && HoldsItsPages(lm.pageLayoutManager, r.layout.value, index)
    ensures CacheIndexed(r.manager)
    ensures CachePlaced(lm, vc) ==>
              CachePlaced(r.manager, vc) && GlobalPosition(r.layout.value) == Place(lm.strip, vc, index)
  {
    var look := GetPageLayout(lm, index, vc);
    var pageLayout := look.layout.value;
    var filled := pageLayout;
    if !IsFilled(pageLayout) {
      filled := PLM.Layout(lm.pageLayoutManager, lm.adapter, pageLayout, index);
    }
    FreshLayoutHoldsItsPages(lm.strip, lm.pageLayoutManager, lm.adapter, vc, index);
    r := Lookup(Some(filled), lm.(caches := lm.caches[index := filled]));
  }

  /** The index range `obtainVisiblePageLayout` walks: the visible layouts
      widened by `offsetScreenPageLimit` on each side, clamped to the strip. */
  function VisibleRange(lm: LayoutManager, vc: ViewContext, offsetScreenPageLimit: int): (r: (int, int))
    requires ViewSized(vc)
    ensures r.0 >= 0 && r.1 <= Count(lm) - 1
  {
    var first := CalcFirstVisiblePageLayoutIndex(lm.strip, vc);
    var last := CalcLastVisiblePageLayoutIndex(lm.strip, vc);
    var startIndex := MaxInt(0, MinInt(last, first) - offsetScreenPageLimit);
    var endIndex := MinInt(MaxInt(last, first) + offsetScreenPageLimit, Count(lm) - 1);
    (startIndex, endIndex)
  }

  /** An index is walked exactly when it is a layout of the strip and lies
      within `offsetScreenPageLimit` of the visible indices. */
  lemma VisibleRangeIsClampedWindow(lm: LayoutManager, vc: ViewContext, offsetScreenPageLimit: int, i: int)
    requires ViewSized(vc)
    ensures var r := VisibleRange(lm, vc, offsetScreenPageLimit);
            var first := CalcFirstVisiblePageLayoutIndex(lm.strip, vc);
            var last := CalcLastVisiblePageLayoutIndex(lm.strip, vc);
            r.0 <= i <= r.1 <==>
              && 0 <= i < Count(lm)
              && MinInt(first, last) - offsetScreenPageLimit <= i <= MaxInt(first, last) + offsetScreenPageLimit
  {
  }

  /** The cache holds `l` for index `j`. */
  predicate CachedAt(caches: map<int, PageLayout>, j: int, l: PageLayout)
  {
    j in caches && caches[j] == l
  }

  /** The state of the loop of `obtainVisiblePageLayout` once the indices
      `first .. i - 1` are collected from the cache of `lm`. */
  ghost predicate Collecting(lm: LayoutManager, vc: ViewContext, first: int, i: int, layouts: seq<PageLayout>, manager: LayoutManager)
  {
    && |layouts| == i - first
    && CacheIndexed(manager) && manager == lm.(caches := manager.caches)
    && (forall k :: 0 <= k < |layouts| ==> CachedAt(manager.caches, first + k, layouts[k]))
    && (forall j :: j in manager.caches ==> j in lm.caches || first <= j < i)
    && (forall j :: j in lm.caches && (j < first || i <= j) ==>
          j in manager.caches && manager.caches[j] == lm.caches[j])
    && (forall j :: j in manager.caches && j !in lm.caches ==>
          HoldsItsPages(lm.pageLayoutManager, manager.caches[j], j))
    && (CachePlaced(lm, vc) ==> CachePlaced(manager, vc))
  }

  /** Collecting one more index, with the layout `ObtainFilled` hands back,
      keeps the loop state. */
  lemma CollectingStep(lm: LayoutManager, vc: ViewContext, first: int, i: int, layouts: seq<PageLayout>,
                       manager: LayoutManager, step: Lookup)
    requires first <= i && Collecting(lm, vc, first, i, layouts, manager)
    requires step.layout.Some? && step.manager == manager.(caches := manager.caches[i := step.layout.value])
    requires CacheIndexed(step.manager)
    requires i !in manager.caches ==> HoldsItsPages(manager.pageLayoutManager, step.layout.value, i)
    requires CachePlaced(manager, vc) ==> CachePlaced(step.manager, vc)
    ensures Collecting(lm, vc, first, i + 1, layouts + [step.layout.value], step.manager)
  {
    var v := step.layout.value;
    var layouts' := layouts + [v];
    var caches' := step.manager.caches;
    forall k | 0 <= k < |layouts'|
      ensures CachedAt(caches', first + k, layouts'[k])
    {
      if k < |layouts| {
        assert layouts'[k] == layouts[k];
      }
    }
    assert manager.pageLayoutManager == lm.pageLayoutManager;
    forall j | j in caches' && j !in lm.caches
      ensures HoldsItsPages(lm.pageLayoutManager, caches'[j], j)
    {
      if j == i {
        assert i !in manager.caches;
      } else {
        assert caches'[j] == manager.caches[j];
      }
    }
    forall j | j in lm.caches && (j < first || i + 1 <= j)
      ensures j in caches' && caches'[j] == lm.caches[j]
    {
      assert j != i;
    }
  }

  /** The loop of `obtainVisiblePageLayout` over `first .. last`: the
      layouts in ascending index order, each the one the cache now holds
      for its index; entries outside the range are untouched; a layout not
      cached before holds the pages of its index; and with a well-placed
      cache every layout sits where the strip puts its index. */
  method CollectLayouts(lm: LayoutManager, vc: ViewContext, first: int, last: int)
    returns (layouts: seq<PageLayout>, manager: LayoutManager)
    requires PLM.PagesSized(lm.adapter) && CacheIndexed(lm)
    requires 0 <= first && last < Count(lm)
    ensures |layouts| == (if first <= last then last - first + 1 else 0)
    ensures forall k :: 0 <= k < |layouts| ==> Index(layouts[k]) == first + k
    ensures forall k :: 0 <= k < |layouts| ==> CachedAt(manager.caches, first + k, layouts[k])
    ensures forall k :: 0 <= k < |layouts| && first + k !in lm.caches ==>
              HoldsItsPages(lm.pageLayoutManager, layouts[k], first + k)
    ensures forall i :: i in lm.caches && (i < first || last < i) ==>
              i in manager.caches && manager.caches[i] == lm.caches[i]
    ensures CacheIndexed(manager) && manager == lm.(caches := manager.caches)
    ensures CachePlaced(lm, vc) ==>
              && CachePlaced(manager, vc)
              && forall k :: 0 <= k < |layouts| ==> GlobalPosition(layouts[k]) == Place(lm.strip, vc, first + k)
  {
    layouts, manager := [], lm;
    var i := first;
    while i <= last
      invariant first <= i <= (if first <= last then last + 1 else first)
      invariant Collecting(lm, vc, first, i, layouts, manager)
    {
      var step := ObtainFilled(manager, vc, i);
      CollectingStep(lm, vc, first, i, layouts, manager, step);
      layouts := layouts + [step.layout.value];
      manager := step.manager;
      i := i + 1;
    }
    assert Collecting(lm, vc, first, i, layouts, manager);
    forall k | 0 <= k < |layouts|
      ensures Index(layouts[k]) == first + k
      ensures first + k !in lm.caches ==> HoldsItsPages(lm.pageLayoutManager, layouts[k], first + k)
      ensures CachePlaced(lm, vc) ==> GlobalPosition(layouts[k]) == Place(lm.strip, vc, first + k)
    {
      assert CachedAt(manager.caches, first + k, layouts[k]);
    }
  }

  /** `obtainVisiblePageLayout`: collect the layouts of the visible range. */
  method ObtainVisiblePageLayout(lm: LayoutManager, vc: ViewContext, offsetScreenPageLimit: int)
    returns (layouts: seq<PageLayout>, manager: LayoutManager)
    requires ViewSized(vc) && PLM.PagesSized(lm.adapter) && CacheIndexed(lm)
    ensures var range := VisibleRange(lm, vc, offsetScreenPageLimit);
            && |layouts| == (if range.0 <= range.1 then range.1 - range.0 + 1 else 0)
            && (forall k :: 0 <= k < |layouts| ==> Index(layouts[k]) == range.0 + k)
            && (forall k :: 0 <= k < |layouts| && range.0 + k !in lm.caches ==>
                  HoldsItsPages(lm.pageLayoutManager, layouts[k], range.0 + k))
            && (CachePlaced(lm, vc) ==>
                  forall k :: 0 <= k < |layouts| ==> GlobalPosition(layouts[k]) == Place(lm.strip, vc, range.0 + k))
    ensures CacheIndexed(manager) && (CachePlaced(lm, vc) ==> CachePlaced(manager, vc))
  {
    var range := VisibleRange(lm, vc, offsetScreenPageLimit);
    layouts, manager := CollectLayouts(lm, vc, range.0, range.1);
  }

  /** Every layout the viewport touches is collected when it exists and
      the viewport is no larger than the view and lies on the strip. */
  lemma VisibleLayoutsCollected(lm: LayoutManager, vc: ViewContext, offsetScreenPageLimit: int, index: int)
    requires ViewSized(vc) && vc.viewWidth > 0.0 && vc.viewHeight > 0.0
    requires offsetScreenPageLimit >= 0 && 0 <= index < Count(lm)
    requires vc.viewport.Width() <= vc.viewWidth && vc.viewport.Height() <= vc.viewHeight
    requires lm.strip == HorizontalLtr ==> vc.viewport.left >= 0.0
    requires lm.strip == HorizontalRtl ==> vc.viewport.right <= 0.0
    requires lm.strip == VerticalStrip ==> vc.viewport.top >= 0.0
    requires lm.strip != VerticalStrip ==>
               Place(lm.strip, vc, index).left < vc.viewport.right && vc.viewport.left < Place(lm.strip, vc, index).right
    requires lm.strip == VerticalStrip ==>
               Place(lm.strip, vc, index).top < vc.viewport.bottom && vc.viewport.top < Place(lm.strip, vc, index).bottom
    ensures VisibleRange(lm, vc, offsetScreenPageLimit).0 <= index <= VisibleRange(lm, vc, offsetScreenPageLimit).1
  {
    match lm.strip
    case HorizontalLtr => Ltr.VisibleRangeCoversViewport(vc, index);
    case HorizontalRtl => Rtl.VisibleRangeCoversViewport(vc, index);
    case VerticalStrip => Vertical.VisibleRangeCoversViewport(vc, index);
  }

  function FirstPageLayout(lm: LayoutManager, vc: ViewContext): (r: Lookup)
    ensures r.layout.Some? <==> Count(lm) > 0
  {
    GetPageLayout(lm, 0, vc)
  }

  function LastPageLayout(lm: LayoutManager, vc: ViewContext): (r: Lookup)
    ensures r.layout.Some? <==> Count(lm) > 0
    ensures CacheIndexed(lm) && r.layout.Some? ==> Index(r.layout.value) == Count(lm) - 1
  {
    GetPageLayout(lm, Count(lm) - 1, vc)
  }

  datatype Verdict = Verdict(overScrolled: bool, manager: LayoutManager)

  /** `isOverScrolled`: moving by `dx` (`dy` on the vertical strip) while
      the viewport already sticks out past that end of the strip. The
      right-to-left strip does not define it. */
  function IsOverScrolled(lm: LayoutManager, vc: ViewContext, dx: real, dy: real): (r: Verdict)
    requires lm.strip != HorizontalRtl
    ensures lm.strip == HorizontalLtr && dx == 0.0 ==> !r.overScrolled
    ensures lm.strip == VerticalStrip && dy == 0.0 ==> !r.overScrolled
    ensures CachePlaced(lm, vc) ==> CachePlaced(r.manager, vc)
    ensures CachePlaced(lm, vc) && lm.strip == HorizontalLtr ==>
              (r.overScrolled <==> Count(lm) > 0 && ((dx < 0.0 && vc.viewport.left < 0.0)
                                                    || (dx > 0.0 && vc.viewport.right > Place(lm.strip, vc, Count(lm) - 1).right)))
    ensures CachePlaced(lm, vc) && lm.strip == VerticalStrip ==>
              (r.overScrolled <==> Count(lm) > 0 && ((dy < 0.0 && vc.viewport.top < 0.0)
                                                    || (dy > 0.0 && vc.viewport.bottom > Place(lm.strip, vc, Count(lm) - 1).bottom)))
  {
    var first := FirstPageLayout(lm, vc);
    var last := LastPageLayout(first.manager, vc);
    var over :=
      if lm.strip == HorizontalLtr then
        || (dx < 0.0 && first.layout.Some? && vc.viewport.left < GlobalPosition(first.layout.value).left)
        || (dx > 0.0 && last.layout.Some? && vc.viewport.right > GlobalPosition(last.layout.value).right)
      else
        || (dy < 0.0 && first.layout.Some? && vc.viewport.top < GlobalPosition(first.layout.value).top)
        || (dy > 0.0 && last.layout.Some? && vc.viewport.bottom > GlobalPosition(last.layout.value).bottom);
    Verdict(over, last.manager)
  }

  datatype Init = Init(manager: LayoutManager, viewContext: ViewContext)

  /** `initWith`: remember the view size, scroll to the strip's start and
      make the cross axis strict. */
  function InitWith(lm: LayoutManager, vc: ViewContext): (r: Init)
    requires vc.currentScale != 0.0
    ensures r.manager == lm.(viewWidth := RoundToInt(vc.viewWidth), viewHeight := RoundToInt(vc.viewHeight))
    ensures lm.strip != VerticalStrip ==>
              r.viewContext.scrollPolicyHorizontal == SCROLL_POLICY_UNLIMITED
              && r.viewContext.scrollPolicyVertical == SCROLL_POLICY_STRICT_SCROLL_AREA
    ensures lm.strip == VerticalStrip ==>
              r.viewContext.scrollPolicyHorizontal == SCROLL_POLICY_STRICT_SCROLL_AREA
              && r.viewContext.scrollPolicyVertical == SCROLL_POLICY_UNLIMITED
    ensures r.viewContext.currentScale == vc.currentScale
    ensures r.viewContext.viewWidth == vc.viewWidth && r.viewContext.viewHeight == vc.viewHeight
  {
    var manager := lm.(viewWidth := RoundToInt(vc.viewWidth), viewHeight := RoundToInt(vc.viewHeight));
    var initialScrollX := match lm.strip
      case HorizontalLtr => Ltr.INITIAL_SCROLL_X
      case HorizontalRtl => Rtl.InitialScrollX(manager.viewWidth)
      case VerticalStrip => Vertical.INITIAL_SCROLL_X;
    var initialScrollY := match lm.strip
      case HorizontalLtr => Ltr.INITIAL_SCROLL_Y
      case HorizontalRtl => Rtl.INITIAL_SCROLL_Y
      case VerticalStrip => Vertical.INITIAL_SCROLL_Y;
    var moved := OffsetTo(vc, initialScrollX, initialScrollY, None, true);
    var policies := if lm.strip == VerticalStrip then (SCROLL_POLICY_STRICT_SCROLL_AREA, SCROLL_POLICY_UNLIMITED)
                    else (SCROLL_POLICY_UNLIMITED, SCROLL_POLICY_STRICT_SCROLL_AREA);
    Init(manager, SetScrollableAxis(moved, policies.0, policies.1))
  }

  /** At scale 1 with a whole-pixel view, every strip starts with the
      viewport exactly over layout 0, which is then the current layout. */
  lemma InitShowsFirstLayout(lm: LayoutManager, vc: ViewContext, width: int, height: int)
    requires vc.currentScale == 1.0 && width > 0 && height > 0
    requires vc.viewWidth == width as real && vc.viewHeight == height as real
    ensures var r := InitWith(lm, vc).viewContext;
            && r.viewport == Place(lm.strip, vc, 0)
            && CurrentPageLayoutIndex(lm.strip, r) == 0
  {
    var r := InitWith(lm, vc).viewContext;
    OffsetToPlacesViewport(vc, if lm.strip == HorizontalRtl then -(width as real) else 0.0, 0.0);
    assert RoundToInt(width as real) == width;
    assert r.viewport.Width() == width as real && r.viewport.Height() == height as real;
    match lm.strip
    case HorizontalLtr =>
      HalfOverWhole(r.viewport.CenterX(), r.viewWidth);
    case HorizontalRtl =>
      HalfOverWhole(r.viewport.CenterX(), r.viewWidth);
    case VerticalStrip =>
      HalfOverWhole(r.viewport.CenterY(), r.viewHeight);
  }

  /** A centre half a view from the origin is half a layout in. */
  lemma HalfOverWhole(c: real, w: real)
    requires w > 0.0 && (c == w / 2.0 || c == -(w / 2.0))
    ensures Floor(AbsR(c / w)) == 0
  {
    if c == w / 2.0 {
      assert c / w == 0.5;
    } else {
      assert c / w == -0.5;
    }
  }
}

=== FILE: numerics.dfy ===
/** Arithmetic shared by the model: Kotlin's truncating `Int` division,
    `floor`/`ceil` on Float (modelled as exact reals), integer ceiling
    division as used by the tiling script, and min/max. */
module Numerics {

  /** Kotlin `a / b` on `Int`: the quotient truncated toward zero. */
  function TruncDiv(a: int, b: int): (q: int)
    requires b > 0
    ensures 0 <= a ==> q * b <= a < q * b + b
    ensures a < 0 ==> q * b - b < a <= q * b
  {
    if a >= 0 then a / b else -((-a) / b)
  }

  /** Kotlin `a % b` on `Int`: the remainder takes the sign of `a`. */
  function TruncRem(a: int, b: int): (r: int)
    requires b > 0
    ensures a == TruncDiv(a, b) * b + r
    ensures 0 <= a ==> 0 <= r < b
    ensures a < 0 ==> -b < r <= 0
  {
    a - TruncDiv(a, b) * b
  }

  /** Integer ceiling of the exact quotient `n / d`, for either sign of `d`. */
  function CeilDiv(n: int, d: int): (q: int)
    requires d != 0
    ensures d > 0 ==> (q - 1) * d < n <= q * d
    ensures d < 0 ==> q * d <= n < (q - 1) * d
  {
    if d > 0 then (n + d - 1) / d else (-n - d - 1) / (-d)
  }

  /** `floor` of a Float, modelled on exact reals. */
  function Floor(x: real): (k: int)
    ensures k as real <= x < k as real + 1.0
  {
    x.Floor
  }

  /** `ceil` of a Float, modelled on exact reals. */
  function Ceil(x: real): (k: int)
    ensures k as real - 1.0 < x <= k as real
  {
    -((-x).Floor)
  }

  /** Kotlin `roundToInt` on a Float: halves round up. */
  function RoundToInt(x: real): (k: int)
    ensures k as real - 0.5 <= x < k as real + 0.5
  {
    Floor(x + 0.5)
  }

  function Abs(k: int): (a: nat)
    ensures a == k || a == -k
  {
    if k < 0 then -k else k
  }

  function AbsR(x: real): (a: real)
    ensures a >= 0.0 && (a == x || a == -x)
  {
    if x < 0.0 then -x else x
  }

  /** `min` and `max` on Floats. */
  function Min(a: real, b: real): (m: real)
    ensures m <= a && m <= b && (m == a || m == b)
  {
    if a <= b then a else b
  }

  function Max(a: real, b: real): (m: real)
    ensures a <= m && b <= m && (m == a || m == b)
  {
    if a >= b then a else b
  }

  /** The `Int` overloads of `min` and `max`, used where the source works
      on integers (Python ints, Kotlin `Int`). */
  function MinInt(a: int, b: int): (m: int)
    ensures m <= a && m <= b && (m == a || m == b)
  {
    if a <= b then a else b
  }

  function MaxInt(a: int, b: int): (m: int)
    ensures a <= m && b <= m && (m == a || m == b)
  {
    if a >= b then a else b
  }

  /** Row-major index arithmetic: position `y * c + x` of a grid with `c`
      columns decomposes back into column `x` and row `y`. */
  lemma RowMajorDivMod(x: int, y: int, c: int)
    requires 0 <= x < c && 0 <= y
    ensures (y * c + x) / c == y && (y * c + x) % c == x
  {
    var i := y * c + x;
    var q, r := i / c, i % c;
    assert q * c + r == i;
    assert (q - y) * c == x - r by {
      assert q * c - y * c == (q - y) * c;
    }
    if q > y {
      MulAtLeastOnce(q - y, c);
    } else if q < y {
      MulAtLeastOnce(y - q, c);
    }
  }

  /** Floor division brackets its dividend. */
  lemma DivBounds(n: int, d: int)
    requires d > 0
    ensures (n / d) * d <= n < (n / d) * d + d
  {
    assert n == (n / d) * d + n % d;
  }

  lemma MulMonotone(a: int, b: int, c: int)
    requires a <= b && c >= 0
    ensures a * c <= b * c
  {
    assert b * c - a * c == (b - a) * c;
  }

  /** Cell `(x, y)` of a `rows` by `cols` grid numbered row by row lies
      inside the numbering. */
  lemma GridIndexInRange(x: int, y: int, cols: int, rows: int)
    requires 0 <= x < cols && 0 <= y < rows
    ensures 0 <= y * cols + x < rows * cols
  {
    MulMonotone(y, rows - 1, cols);
    assert (rows - 1) * cols + cols == rows * cols;
  }

  /** The converse: entry `i` of the numbering is a cell of the grid. */
  lemma GridCellOfIndex(i: int, cols: int, rows: int)
    requires 0 <= i < rows * cols && cols > 0
    ensures 0 <= i % cols < cols && 0 <= i / cols < rows
  {
    DivBounds(i, cols);
    if i / cols >= rows {
      MulMonotone(rows, i / cols, cols);
    }
  }

  /** `floor(n / 2.0)` on a Double is the floor (Euclidean) half of `n`. */
  lemma FloorHalf(n: int)
    ensures Floor(n as real / 2.0) == n / 2
  {
    var q := n / 2;
    assert q as real <= n as real / 2.0 < q as real + 1.0;
  }

  /** Multiplying by a non-negative real keeps order. */
  lemma MulMonotoneReal(a: real, b: real, c: real)
    requires a <= b && c >= 0.0
    ensures a * c <= b * c
  {
    assert b * c - a * c == (b - a) * c;
  }

  /** Multiplying by a positive real keeps strict order. */
  lemma MulStrictReal(a: real, b: real, c: real)
    requires a < b && c > 0.0
    ensures a * c < b * c
  {
    assert b * c - a * c == (b - a) * c;
  }

  /** Dividing by a positive real keeps order. */
  lemma DivMonotoneReal(a: real, b: real, d: real)
    requires a <= b && d > 0.0
    ensures a / d <= b / d
  {
  }

  /** Kotlin's `a % 2 == 0` tests evenness for either sign of `a`, so
      consecutive integers alternate. */
  lemma TruncRemParity(a: int)
    ensures TruncRem(a, 2) == 0 <==> a % 2 == 0
    ensures TruncRem(a + 1, 2) == 0 <==> TruncRem(a, 2) != 0
  {
    if a < 0 {
      assert TruncDiv(a, 2) == -((-a) / 2);
    }
    if a + 1 < 0 {
      assert TruncDiv(a + 1, 2) == -((-(a + 1)) / 2);
    }
  }

  /** A non-zero real divided by itself is one; the solver does not always
      see this when the divisor is a compound term. */
  lemma DivSelf(x: real)
    requires x != 0.0
    ensures x / x == 1.0
  {
  }

  /** A positive factor can be cancelled from a strict inequality. */
  lemma MulStrictCancel(x: real, y: real, w: real)
    requires w > 0.0 && x * w < y * w
    ensures x < y
  {
    if x >= y {
      MulMonotoneReal(y, x, w);
    }
  }

  /** The cell `[k * w, k * w + w]` of a grid of pitch `w` that meets the
      open interval `(a, b)`, at most one pitch long, has an index between
      the floor and ceiling of `a / w`, and between those of `b / w` less
      one. */
  lemma CellMeetsInterval(a: real, b: real, w: real, k: int)
    requires w > 0.0 && b - a <= w
    requires k as real * w < b && a < k as real * w + w
    ensures Floor(a / w) <= k <= Ceil(a / w)
    ensures Floor(b / w) - 1 <= k <= Ceil(b / w) - 1
  {
    var qa, qb := a / w, b / w;
    assert qa * w == a && qb * w == b;
    assert (qa + 1.0) * w == a + w;
    assert (k as real + 1.0) * w == k as real * w + w;
    assert (k as real + 2.0) * w == k as real * w + w + w;
    MulStrictCancel(k as real, qa + 1.0, w);
    MulStrictCancel(qa, k as real + 1.0, w);
    MulStrictCancel(k as real, qb, w);
    MulStrictCancel(qb, k as real + 2.0, w);
  }

  /** On a grid of pitch `w`, `x` lies in the cell that starts at
      `Floor(x / w)` pitches and in the one that ends at `Ceil(x / w)`. */
  lemma GridCellOfPoint(x: real, w: real)
    ensures w > 0.0 ==> w * Floor(x / w) as real <= x < w * Floor(x / w) as real + w
    ensures w > 0.0 ==> w * Ceil(x / w) as real - w < x <= w * Ceil(x / w) as real
  {
    if w > 0.0 {
      FloorCell(x, w);
      CeilCell(x, w);
    }
  }

  lemma FloorCell(x: real, w: real)
    requires w > 0.0
    ensures w * Floor(x / w) as real <= x < w * Floor(x / w) as real + w
  {
    DivMulCancel(x, w);
    ScaledBetween(Floor(x / w) as real, x / w, Floor(x / w) as real + 1.0, w);
    assert x < w * (Floor(x / w) as real + 1.0);
  }

  lemma CeilCell(x: real, w: real)
    requires w > 0.0
    ensures w * Ceil(x / w) as real - w < x <= w * Ceil(x / w) as real
  {
    DivMulCancel(x, w);
    ScaledBetween(Ceil(x / w) as real - 1.0, x / w, Ceil(x / w) as real, w);
    assert w * (Ceil(x / w) as real - 1.0) == w * Ceil(x / w) as real - w;
  }

  lemma DivMulCancel(x: real, w: real)
    requires w != 0.0
    ensures x / w * w == x
  {
  }

  /** Scaling `lo <= q` and `q < hi` (or the strict and weak forms swapped)
      by a positive `w`. */
  lemma ScaledBetween(lo: real, q: real, hi: real, w: real)
    requires w > 0.0
    ensures lo <= q ==> w * lo <= q * w
    ensures q < hi ==> q * w < w * hi
    ensures lo < q ==> w * lo < q * w
    ensures q <= hi ==> q * w <= w * hi
  {
    if lo <= q { MulMonotoneReal(lo, q, w); }
    if q < hi { MulStrictReal(q, hi, w); }
    if lo < q { MulStrictReal(lo, q, w); }
    if q <= hi { MulMonotoneReal(q, hi, w); }
  }

  lemma MulAtLeastOnce(k: int, c: int)
    requires k >= 1 && c > 0
    ensures k * c >= c
  {
    assert k * c == (k - 1) * c + c;
  }
}

/** The optional and error-carrying results the Kotlin and Python code
    express with `null` and exceptions. */
module Wrappers {

  datatype Option<+T> = None | Some(value: T)

  datatype Result<+T, +E> = Ok(value: T) | Err(error: E)
}

=== FILE: page_layout.dfy ===
/** `PageLayout`: one slot of the strip, holding either one page or a
    double-page spread. Kotlin's abstract class becomes a sum type. */
module PageLayouts {
  import opened Wrappers
  import opened Rectangles
  import opened BookPages
  import S = SinglePageLayouts
  import D = DoublePageLayouts

  datatype PageLayout =
    | Single(index: int, single: S.SinglePageLayout)
    | Double(double: D.DoublePageLayout)

  /** The layout's position in the strip. */
  function Index(l: PageLayout): int
  {
    match l
    case Single(index, _) => index
    case Double(d) => d.index
  }

  function GlobalPosition(l: PageLayout): Rectangle
  {
    match l
    case Single(_, s) => s.globalPosition
    case Double(d) => d.globalPosition
  }

  /** The strip managers set the slot's rectangle; nothing else changes. */
  function WithGlobalPosition(l: PageLayout, r: Rectangle): (m: PageLayout)
    ensures GlobalPosition(m) == r && Index(m) == Index(l)
    ensures m.Single? == l.Single? && Pages(m) == Pages(l)
    ensures m.Double? ==> m.double == l.double.(globalPosition := r)
  {
    match l
    case Single(i, s) => Single(i, s.(globalPosition := r))
    case Double(d) => Double(d.(globalPosition := r))
  }

  predicate IsFilled(l: PageLayout)
  {
    match l
    case Single(_, s) => S.IsFilled(s)
    case Double(d) => D.IsFilled(d)
  }

  function Pages(l: PageLayout): (ps: seq<Page>)
    ensures ps == [] <==> !IsFilled(l)
  {
    match l
    case Single(_, s) => S.Pages(s)
    case Double(d) => D.Pages(d)
  }

  /** Whether some slot of the layout holds the page numbered `pageIndex`. */
  predicate Holds(l: PageLayout, pageIndex: int)
  {
    match l
    case Single(_, s) => s.page.Some? && s.page.value.index == pageIndex
    case Double(d) =>
      || (d.leftPage.Some? && d.leftPage.value.index == pageIndex)
      || (d.rightPage.Some? && d.rightPage.value.index == pageIndex)
  }

  /** `add`: the page goes into the layout, which stays where it is. */
  function Add(l: PageLayout, page: Page): (m: PageLayout)
    requires Sized(page)
    ensures Holds(m, page.index)
    ensures Index(m) == Index(l) && GlobalPosition(m) == GlobalPosition(l) && m.Single? == l.Single?
    ensures m.Double? ==> m.double.isFlip == l.double.isFlip && m.double.isSpread == l.double.isSpread
  {
    match l
    case Single(i, s) => Single(i, S.Add(s, page))
    case Double(d) => Double(D.Add(d, page))
  }

  /** `flip`: only a double layout flips; the base class returns itself. */
  function Flip(l: PageLayout): (m: PageLayout)
    ensures Index(m) == Index(l) && GlobalPosition(m) == GlobalPosition(l) && m.Single? == l.Single?
    ensures !IsFilled(l) || l.Single? ==> m == l
    ensures IsFilled(l) && l.Double? ==> m.double.isFlip == !l.double.isFlip
  {
    match l
    case Single(_, _) => l
    case Double(d) => Double(D.Flip(d))
  }
}

=== FILE: page_layout_managers.dfy ===
/** The page layout managers: how many layouts ("spreads") a book of
    `pageCount` pages needs, which layout shows a page, and which pages a
    layout shows. Page and layout indices are Kotlin `Int`s; `/` and `%`
    truncate and `floor(x / 2.0)` goes through a Double. */

/** One page per layout. */
module SinglePageLayoutManager {

  /** `calcLastPageIndex`: a layout's last page has the layout's own index. */
  function CalcLastPageIndex(pageLayoutIndex: int): (p: int)
    ensures p == pageLayoutIndex
  {
    pageLayoutIndex
  }

  /** `calcFirstPageIndex`: a layout starts and ends with the same page. */
  function CalcFirstPageIndex(pageLayoutIndex: int): (p: int)
    ensures p == CalcLastPageIndex(pageLayoutIndex)
  {
    pageLayoutIndex
  }

  /** `calcPageLayoutIndex`: the layout found for a page shows exactly that
      page. */
  function CalcPageLayoutIndex(pageIndex: int): (i: int)
    ensures CalcFirstPageIndex(i) == pageIndex && CalcLastPageIndex(i) == pageIndex
  {
    pageIndex
  }

  /** `getCount`: every page of the book has a layout below the count, and
      every layout below the count shows a page of the book. */
  function GetCount(pageCount: int): (n: int)
    ensures forall p :: 0 <= p < pageCount ==> 0 <= CalcPageLayoutIndex(p) < n
    ensures forall i :: 0 <= i < n ==> 0 <= CalcFirstPageIndex(i) < pageCount
  {
    pageCount
  }

  /** Every layout shows one page, and the page a layout starts with is the
      page it was looked up for, and back. */
  lemma OnePagePerLayout(pageIndex: int, pageLayoutIndex: int)
    ensures CalcFirstPageIndex(pageLayoutIndex) == CalcLastPageIndex(pageLayoutIndex)
    ensures CalcFirstPageIndex(CalcPageLayoutIndex(pageIndex)) == pageIndex
    ensures CalcPageLayoutIndex(CalcFirstPageIndex(pageLayoutIndex)) == pageLayoutIndex
  {
  }

  /** Each page of a book lands in one of its layouts. */
  lemma PagesInRange(pageCount: int, pageIndex: int)
    requires 0 <= pageIndex < pageCount
    ensures 0 <= CalcPageLayoutIndex(pageIndex) < GetCount(pageCount)
  {
  }
}

/** Two pages per layout; with `startOneSide` the first page (the cover)
    stands alone in layout 0. */
module DoublePageLayoutManager {
  import opened Numerics

  function GetCount(startOneSide: bool, pageCount: int): (n: int)
    ensures startOneSide && pageCount >= -1 ==> n == CeilDiv(pageCount + 1, 2)
    ensures !startOneSide && pageCount >= 0 ==> n == CeilDiv(pageCount, 2)
  {
    var total := if startOneSide then pageCount + 1 else pageCount;
    TruncDiv(total, 2) + TruncRem(total, 2)
  }

  function CalcPageLayoutIndex(startOneSide: bool, pageIndex: int): (i: int)
    ensures i == (if startOneSide then (pageIndex + 1) / 2 else pageIndex / 2)
  {
    var index := if startOneSide then pageIndex + 1 else pageIndex;
    FloorHalf(index);
    Floor(index as real / 2.0)
  }

  /** `calcFirstPageIndex`: the first page of a layout belongs to it and,
      from layout 1 on, the page before it to the previous layout. */
  function CalcFirstPageIndex(startOneSide: bool, pageLayoutIndex: int): (p: int)
    ensures pageLayoutIndex >= 0 ==> p >= 0 && CalcPageLayoutIndex(startOneSide, p) == pageLayoutIndex
    ensures pageLayoutIndex >= 1 ==> CalcPageLayoutIndex(startOneSide, p - 1) == pageLayoutIndex - 1
  {
    if startOneSide then
      if pageLayoutIndex < 2 then pageLayoutIndex else (pageLayoutIndex - 1) * 2 + 1
    else pageLayoutIndex * 2
  }

  /** `calcLastPageIndex`: the last page of a layout belongs to it and the
      page after it to the next layout. */
  function CalcLastPageIndex(startOneSide: bool, pageLayoutIndex: int): (p: int)
    ensures pageLayoutIndex >= 0 ==>
              && CalcPageLayoutIndex(startOneSide, p) == pageLayoutIndex
              && CalcPageLayoutIndex(startOneSide, p + 1) == pageLayoutIndex + 1
  {
    if startOneSide then
      if pageLayoutIndex == 0 then 0
      else if pageLayoutIndex == 1 then 2
      else pageLayoutIndex * 2
    else CalcFirstPageIndex(startOneSide, pageLayoutIndex) + 1
  }

  /** The layouts a page belongs to: page `p` lies in layout `i`'s range
      exactly when `i` is the layout computed for `p`. */
  lemma PageInLayoutIff(startOneSide: bool, pageIndex: int, pageLayoutIndex: int)
    requires pageIndex >= 0 && pageLayoutIndex >= 0
    ensures CalcFirstPageIndex(startOneSide, pageLayoutIndex) <= pageIndex
              <= CalcLastPageIndex(startOneSide, pageLayoutIndex)
            <==> CalcPageLayoutIndex(startOneSide, pageIndex) == pageLayoutIndex
  {
  }

  /** The pages of each layout: `2i, 2i+1`, or with the cover alone first,
      page 0, then pages 1-2, then `2i-1, 2i`. */
  lemma LayoutSpan(startOneSide: bool, pageLayoutIndex: int)
    requires pageLayoutIndex >= 0
    ensures !startOneSide ==> CalcFirstPageIndex(startOneSide, pageLayoutIndex) == 2 * pageLayoutIndex
                              && CalcLastPageIndex(startOneSide, pageLayoutIndex) == 2 * pageLayoutIndex + 1
    ensures startOneSide && pageLayoutIndex == 0 ==>
              CalcFirstPageIndex(startOneSide, 0) == 0 && CalcLastPageIndex(startOneSide, 0) == 0
    ensures startOneSide && pageLayoutIndex >= 1 ==>
              CalcFirstPageIndex(startOneSide, pageLayoutIndex) == 2 * pageLayoutIndex - 1
              && CalcLastPageIndex(startOneSide, pageLayoutIndex) == 2 * pageLayoutIndex
  {
  }

  /** A book of `pageCount` pages fills layouts `0 .. GetCount - 1`: its
      first page is in layout 0 and its last page in the last layout. */
  lemma LayoutsCoverBook(startOneSide: bool, pageCount: int)
    requires pageCount >= 1
    ensures CalcPageLayoutIndex(startOneSide, 0) == 0
    ensures CalcPageLayoutIndex(startOneSide, pageCount - 1) == GetCount(startOneSide, pageCount) - 1
  {
  }
}

/** The cover-first double layout as its own class: layout 0 is a blank
    slot (page -1) beside the cover. */
module DoublePageStartOneSideLayoutManager {
  import opened Numerics
  import DoublePageLayoutManager

  function GetCount(pageCount: int): (n: int)
    ensures pageCount >= -1 ==> n == CeilDiv(pageCount + 1, 2)
  {
    var total := pageCount + 1;
    TruncDiv(total, 2) + TruncRem(total, 2)
  }

  function CalcPageLayoutIndex(pageIndex: int): (i: int)
    ensures i == (pageIndex + 1) / 2
  {
    FloorHalf(pageIndex + 1);
    Floor((pageIndex + 1) as real / 2.0)
  }

  /** `calcFirstPageIndex`: the first slot of a layout belongs to it and the
      slot before it to the previous layout; layout 0 starts with the blank
      slot -1. */
  function CalcFirstPageIndex(pageLayoutIndex: int): (p: int)
    ensures pageLayoutIndex >= 0 ==>
              && CalcPageLayoutIndex(p) == pageLayoutIndex
              && CalcPageLayoutIndex(p - 1) == pageLayoutIndex - 1
  {
    if pageLayoutIndex == 0 then -1
    else if pageLayoutIndex == 1 then 1
    else (pageLayoutIndex - 1) * 2 + 1
  }

  /** `calcLastPageIndex`: the last page of a layout belongs to it and the
      page after it to the next layout. */
  function CalcLastPageIndex(pageLayoutIndex: int): (p: int)
    ensures pageLayoutIndex >= 0 ==>
              && CalcPageLayoutIndex(p) == pageLayoutIndex
              && CalcPageLayoutIndex(p + 1) == pageLayoutIndex + 1
  {
    if pageLayoutIndex == 0 then 0
    else if pageLayoutIndex == 1 then 2
    else pageLayoutIndex * 2
  }

  /** Every layout spans two consecutive indices; layout 0 is the blank
      slot -1 and the cover 0. */
  lemma TwoSlotsPerLayout(pageLayoutIndex: int)
    ensures CalcLastPageIndex(pageLayoutIndex) - CalcFirstPageIndex(pageLayoutIndex) == 1
    ensures CalcFirstPageIndex(0) == -1 && CalcLastPageIndex(0) == 0
  {
  }

  /** Page `p` lies in layout `i`'s range exactly when `i` is `p`'s layout. */
  lemma PageInLayoutIff(pageIndex: int, pageLayoutIndex: int)
    requires pageIndex >= 0 && pageLayoutIndex >= 0
    ensures CalcFirstPageIndex(pageLayoutIndex) <= pageIndex <= CalcLastPageIndex(pageLayoutIndex)
            <==> CalcPageLayoutIndex(pageIndex) == pageLayoutIndex
  {
  }

  /** This class and the `startOneSide` mode of the general double manager
      agree everywhere except on the first slot of layout 0. */
  lemma AgreesWithStartOneSideMode(pageCount: int, pageIndex: int, pageLayoutIndex: int)
    requires pageLayoutIndex >= 0
    ensures GetCount(pageCount) == DoublePageLayoutManager.GetCount(true, pageCount)
    ensures CalcPageLayoutIndex(pageIndex) == DoublePageLayoutManager.CalcPageLayoutIndex(true, pageIndex)
    ensures CalcLastPageIndex(pageLayoutIndex) == DoublePageLayoutManager.CalcLastPageIndex(true, pageLayoutIndex)
    ensures CalcFirstPageIndex(pageLayoutIndex) == DoublePageLayoutManager.CalcFirstPageIndex(true, pageLayoutIndex)
            <==> pageLayoutIndex != 0
  {
  }
}

/** `PageLayoutManager`: the three managers behind one type, the page
    adapter that supplies pages, and `layout`, which fills a layout with
    the pages its index selects. */
module PageLayoutManagers {
  import opened Rectangles
  import opened Numerics
  import opened BookPages
  import opened PageLayouts
  import S = SinglePageLayouts
  import D = DoublePageLayouts
  import SinglePageLayoutManager
  import DoublePageLayoutManager
  import DoublePageStartOneSideLayoutManager

  datatype PageLayoutManager =
    | SinglePage
    | DoublePage(isSpread: bool, startOneSide: bool)
    | DoublePageStartOneSide(isSpread: bool)

  /** `PageAdapter`: the page count and the size of the page at each index,
      as supplied by the application. */
  datatype PageAdapter = PageAdapter(pageCount: int, pageWidth: int -> int, pageHeight: int -> int)

  /** `getPage`: a fresh page of the size the adapter reports. */
  function GetPage(adapter: PageAdapter, index: int): (p: Page)
    ensures p.index == index && p.width == adapter.pageWidth(index) && p.height == adapter.pageHeight(index)
  {
    NewPage(index, adapter.pageWidth(index), adapter.pageHeight(index))
  }

  /** Every page the adapter can hand out has a real size. */
  ghost predicate PagesSized(adapter: PageAdapter)
  {
    forall i :: adapter.pageWidth(i) > 0 && adapter.pageHeight(i) > 0
  }

  function GetCount(m: PageLayoutManager, pageCount: int): int
  {
    match m
    case SinglePage => SinglePageLayoutManager.GetCount(pageCount)
    case DoublePage(_, startOneSide) => DoublePageLayoutManager.GetCount(startOneSide, pageCount)
    case DoublePageStartOneSide(_) => DoublePageStartOneSideLayoutManager.GetCount(pageCount)
  }

  function CalcPageLayoutIndex(m: PageLayoutManager, pageIndex: int): int
  {
    match m
    case SinglePage => SinglePageLayoutManager.CalcPageLayoutIndex(pageIndex)
    case DoublePage(_, startOneSide) => DoublePageLayoutManager.CalcPageLayoutIndex(startOneSide, pageIndex)
    case DoublePageStartOneSide(_) => DoublePageStartOneSideLayoutManager.CalcPageLayoutIndex(pageIndex)
  }

  function CalcFirstPageIndex(m: PageLayoutManager, pageLayoutIndex: int): int
  {
    match m
    case SinglePage => SinglePageLayoutManager.CalcFirstPageIndex(pageLayoutIndex)
    case DoublePage(_, startOneSide) => DoublePageLayoutManager.CalcFirstPageIndex(startOneSide, pageLayoutIndex)
    case DoublePageStartOneSide(_) => DoublePageStartOneSideLayoutManager.CalcFirstPageIndex(pageLayoutIndex)
  }

  function CalcLastPageIndex(m: PageLayoutManager, pageLayoutIndex: int): int
  {
    match m
    case SinglePage => SinglePageLayoutManager.CalcLastPageIndex(pageLayoutIndex)
    case DoublePage(_, startOneSide) => DoublePageLayoutManager.CalcLastPageIndex(startOneSide, pageLayoutIndex)
    case DoublePageStartOneSide(_) => DoublePageStartOneSideLayoutManager.CalcLastPageIndex(pageLayoutIndex)
  }

  /** `createPageLayout`: an empty layout of the manager's kind. */
  function CreatePageLayout(m: PageLayoutManager, index: int): (l: PageLayout)
    ensures Index(l) == index && !IsFilled(l) && Pages(l) == []
    ensures l.Single? <==> m.SinglePage?
    ensures l.Double? ==> !l.double.isFlip && l.double.leftPage.None? && l.double.rightPage.None?
  {
    match m
    case SinglePage => Single(index, S.Empty())
    case DoublePage(isSpread, _) => Double(D.Empty(index, isSpread))
    case DoublePageStartOneSide(isSpread) => Double(D.Empty(index, isSpread))
  }

  /** Add the pages `first .. last`, in that order. A double layout keeps the
      last two: consecutive pages alternate between its two slots. */
  function AddPages(adapter: PageAdapter, l: PageLayout, first: int, last: int): (m: PageLayout)
    requires PagesSized(adapter)
    decreases last - first
    ensures Index(m) == Index(l) && GlobalPosition(m) == GlobalPosition(l) && m.Single? == l.Single?
    ensures m.Double? ==> m.double.isFlip == l.double.isFlip
    ensures first > last ==> m == l
    ensures first <= last ==> Holds(m, last)
    ensures first < last && m.Double? ==> Holds(m, last - 1)
  {
    if first > last then l
    else
      var next := Add(l, GetPage(adapter, first));
      TruncRemParity(first + if l.Double? && l.double.isFlip then 1 else 0);
      if first + 1 <= last then
        AddPages(adapter, next, first + 1, last)
      else
        next
  }

  /** `layout`: fill the layout with the pages of its index. */
  function Layout(m: PageLayoutManager, adapter: PageAdapter, l: PageLayout, index: int): (r: PageLayout)
    requires PagesSized(adapter)
    ensures Index(r) == Index(l) && GlobalPosition(r) == GlobalPosition(l) && r.Single? == l.Single?
  {
    AddPages(adapter, l, CalcFirstPageIndex(m, index), CalcLastPageIndex(m, index))
  }

  /** Every manager gives a layout one or two consecutive page indices. */
  lemma SpanIsOneOrTwo(m: PageLayoutManager, index: int)
    requires index >= 0
    ensures 0 <= CalcLastPageIndex(m, index) - CalcFirstPageIndex(m, index) <= 1
  {
    match m
    case SinglePage =>
    case DoublePage(_, startOneSide) => DoublePageLayoutManager.LayoutSpan(startOneSide, index);
    case DoublePageStartOneSide(_) => DoublePageStartOneSideLayoutManager.TwoSlotsPerLayout(index);
  }

  /** Adding one or two consecutive pages leaves each of them in the
      layout; two pages fill a double layout. */
  lemma AddPagesSpan(adapter: PageAdapter, l: PageLayout, first: int, last: int)
    requires PagesSized(adapter) && first <= last <= first + 1
    requires l.Single? ==> first == last
    ensures var r := AddPages(adapter, l, first, last);
            && (forall p :: first <= p <= last ==> Holds(r, p))
            && (first < last ==> IsFilled(r))
  {
    var r := AddPages(adapter, l, first, last);
    if first < last {
      assert Holds(r, last) && Holds(r, last - 1);
    }
  }

  /** After `layout`, a new layout, wherever it was placed, holds every
      page its index selects, and a double layout given two pages is
      filled. */
  lemma LayoutHoldsItsPages(m: PageLayoutManager, adapter: PageAdapter, index: int, position: Rectangle)
    requires PagesSized(adapter) && index >= 0
    ensures var r := Layout(m, adapter, WithGlobalPosition(CreatePageLayout(m, index), position), index);
            && Index(r) == index
            && (forall p :: CalcFirstPageIndex(m, index) <= p <= CalcLastPageIndex(m, index) ==> Holds(r, p))
            && (CalcFirstPageIndex(m, index) < CalcLastPageIndex(m, index) ==> IsFilled(r))
  {
    SpanIsOneOrTwo(m, index);
    AddPagesSpan(adapter, WithGlobalPosition(CreatePageLayout(m, index), position),
                 CalcFirstPageIndex(m, index), CalcLastPageIndex(m, index));
  }

  /** In a double layout without the cover alone, layout `i` shows page
      `2i` on the right and page `2i + 1` on the left. */
  lemma DoubleLayoutPairsPages(isSpread: bool, adapter: PageAdapter, index: int, position: Rectangle)
    requires PagesSized(adapter) && index >= 0
    ensures var m := DoublePage(isSpread, false);
            var r := Layout(m, adapter, WithGlobalPosition(CreatePageLayout(m, index), position), index);
            && r.double.rightPage.value.index == 2 * index
            && r.double.leftPage.value.index == 2 * index + 1
  {
    var m := DoublePage(isSpread, false);
    var l := WithGlobalPosition(CreatePageLayout(m, index), position);
    DoublePageLayoutManager.LayoutSpan(false, index);
    TruncRemParity(2 * index);
    var even, odd := GetPage(adapter, 2 * index), GetPage(adapter, 2 * index + 1);
    var l1 := Add(l, even);
    assert D.GoesRight(l.double, even);
    assert !D.GoesRight(l1.double, odd);
    assert AddPages(adapter, l1, 2 * index + 1, 2 * index + 1) == Add(l1, odd);
    assert AddPages(adapter, l, 2 * index, 2 * index + 1) == AddPages(adapter, l1, 2 * index + 1, 2 * index + 1);
  }
}

=== FILE: pages.dfy ===
/** `Page`: one page of the book as the layouts see it — its pixel size,
    the scale that fits it into its slot, the global rectangle it occupies
    and the alignment its content layers follow. */
module BookPages {
  import opened Numerics
  import opened Rectangles

  datatype HorizontalAlign = Center | Left | Right

  datatype VerticalAlign = Middle | Top | Bottom

  datatype Page = Page(
    index: int,
    width: int,
    height: int,
    horizontalAlign: HorizontalAlign,
    verticalAlign: VerticalAlign,
    baseScale: real,
    globalRect: Rectangle,
    contentSrc: Rectangle,
    displayProjection: Rectangle)
  {
    function ScaledWidth(): real { width as real * baseScale }

    function ScaledHeight(): real { height as real * baseScale }
  }

  /** A new page: centred, unscaled, nowhere yet. */
  function NewPage(index: int, width: int, height: int): (p: Page)
    ensures p.index == index && p.width == width && p.height == height
    ensures p.horizontalAlign == Center && p.verticalAlign == Middle && p.baseScale == 1.0
  {
    var zero := Rectangle(0.0, 0.0, 0.0, 0.0);
    Page(index, width, height, Center, Middle, 1.0, zero, zero, zero)
  }

  /** A page with a real size; the fit below divides by it. */
  predicate Sized(p: Page)
  {
    p.width > 0 && p.height > 0
  }

  /** The largest scale at which a `contentWidth` x `contentHeight` picture
      fits a `boxWidth` x `boxHeight` box: `min(boxW / w, boxH / h)`. */
  function FitScale(boxWidth: real, boxHeight: real, contentWidth: real, contentHeight: real): (s: real)
    requires contentWidth > 0.0 && contentHeight > 0.0
    ensures s == boxWidth / contentWidth || s == boxHeight / contentHeight
    ensures s <= boxWidth / contentWidth && s <= boxHeight / contentHeight
  {
    Min(boxWidth / contentWidth, boxHeight / contentHeight)
  }

  /** The fitted picture fits the box and fills it along one axis. */
  lemma FitScaleFits(boxWidth: real, boxHeight: real, contentWidth: real, contentHeight: real)
    requires contentWidth > 0.0 && contentHeight > 0.0
    ensures var s := FitScale(boxWidth, boxHeight, contentWidth, contentHeight);
            && contentWidth * s <= boxWidth && contentHeight * s <= boxHeight
            && (contentWidth * s == boxWidth || contentHeight * s == boxHeight)
  {
    var s := FitScale(boxWidth, boxHeight, contentWidth, contentHeight);
    var sw, sh := boxWidth / contentWidth, boxHeight / contentHeight;
    assert contentWidth * sw == boxWidth;
    assert contentHeight * sh == boxHeight;
    if s == sw {
      assert contentHeight * s <= contentHeight * sh;
    } else {
      assert contentWidth * s <= contentWidth * sw;
    }
  }

  /** The fit of a sized picture into a sized box is a positive scale. */
  lemma FitScaleIsPositive(boxWidth: real, boxHeight: real, contentWidth: real, contentHeight: real)
    requires boxWidth > 0.0 && boxHeight > 0.0 && contentWidth > 0.0 && contentHeight > 0.0
    ensures FitScale(boxWidth, boxHeight, contentWidth, contentHeight) > 0.0
  {
    var s := FitScale(boxWidth, boxHeight, contentWidth, contentHeight);
    if s == boxWidth / contentWidth {
      MulStrictCancel(0.0, s, contentWidth);
    } else {
      MulStrictCancel(0.0, s, contentHeight);
    }
  }
}

=== FILE: rectangle.dfy ===
/** `Rectangle`: an axis-aligned rectangle of Float edges (modelled as exact
    reals) with the closed-interval intersection test, the nullable
    intersection (`and`) and bounding box (`or`), translation and
    normalisation used throughout the viewer. */
module Rectangles {
  import opened Numerics
  import opened Wrappers

  datatype Rectangle = Rectangle(left: real, top: real, right: real, bottom: real) {

    function Width(): real { right - left }

    function Height(): real { bottom - top }

    function CenterX(): real { left + Width() / 2.0 }

    function CenterY(): real { top + Height() / 2.0 }

    function Area(): real { Width() * Height() }

    /** Edges in order: `left <= right` and `top <= bottom`. */
    predicate IsValid() { left <= right && top <= bottom }

    /** The closed point set of the rectangle. */
    predicate HasPoint(x: real, y: real) { left <= x <= right && top <= y <= bottom }
  }

  /** `offset`: translate by `(dx, dy)`. */
  function Offset(r: Rectangle, dx: real, dy: real): (o: Rectangle)
    ensures o.Width() == r.Width() && o.Height() == r.Height()
    ensures o.left == r.left + dx && o.top == r.top + dy
    ensures forall x, y :: r.HasPoint(x, y) <==> o.HasPoint(x + dx, y + dy)
  {
    Rectangle(r.left + dx, r.top + dy, r.right + dx, r.bottom + dy)
  }

  /** `intersect`: false as soon as one rectangle lies strictly beyond an edge
      of the other; touching edges therefore intersect. */
  predicate Intersect(a: Rectangle, b: Rectangle)
  {
    if a.left > b.right then false
    else if a.right < b.left then false
    else if a.top > b.bottom then false
    else if a.bottom < b.top then false
    else true
  }

  /** `contains`: `b` lies within `a`, edges included. */
  predicate Contains(a: Rectangle, b: Rectangle)
  {
    a.left <= b.left && a.right >= b.right && a.top <= b.top && a.bottom >= b.bottom
  }

  /** `relativeBy`: coordinates of `r` in a frame whose origin is the
      top-left corner of `base`. */
  function RelativeBy(r: Rectangle, base: Rectangle): (o: Rectangle)
    ensures o.Width() == r.Width() && o.Height() == r.Height()
    ensures Offset(o, base.left, base.top) == r
  {
    Offset(r, -base.left, -base.top)
  }

  /** `and`: `null` when the rectangles do not intersect, otherwise their
      overlap. */
  function And(a: Rectangle, b: Rectangle): (r: Option<Rectangle>)
    ensures r.None? <==> !Intersect(a, b)
    ensures r.Some? && a.IsValid() && b.IsValid() ==>
              r.value.IsValid() && Contains(a, r.value) && Contains(b, r.value)
  {
    if !Intersect(a, b) then None
    else Some(Rectangle(Max(a.left, b.left), Max(a.top, b.top), Min(a.right, b.right), Min(a.bottom, b.bottom)))
  }

  /** `or`: `null` when the rectangles do not intersect, otherwise their
      bounding box. */
  function Or(a: Rectangle, b: Rectangle): (r: Option<Rectangle>)
    ensures r.None? <==> !Intersect(a, b)
    ensures r.Some? ==> Contains(r.value, a) && Contains(r.value, b)
    ensures r.Some? ==> forall c :: Contains(c, a) && Contains(c, b) ==> Contains(c, r.value)
  {
    if !Intersect(a, b) then None
    else Some(Rectangle(Min(a.left, b.left), Min(a.top, b.top), Max(a.right, b.right), Max(a.bottom, b.bottom)))
  }

  /** `validate`: swap the edges of an axis whose edges are out of order. */
  function Validate(r: Rectangle): (v: Rectangle)
    ensures v.IsValid()
    ensures {v.left, v.right} == {r.left, r.right} && {v.top, v.bottom} == {r.top, r.bottom}
    ensures r.IsValid() ==> v == r
  {
    var (l, rt) := if r.left > r.right then (r.right, r.left) else (r.left, r.right);
    var (t, b) := if r.top > r.bottom then (r.bottom, r.top) else (r.top, r.bottom);
    Rectangle(l, t, rt, b)
  }

  /** `jaccardIndex`: overlap area over union area; `None` stands for the
      non-finite Float quotient when the union area is zero. */
  function JaccardIndex(a: Rectangle, b: Rectangle): (j: Option<real>)
    ensures !Intersect(a, b) ==> j == Some(0.0)
  {
    if !Intersect(a, b) then Some(0.0)
    else
      var overlap := match And(a, b) case Some(o) => o.Area() case None => 0.0;
      var union := (a.Area() + b.Area()) - overlap;
      if union == 0.0 then None else Some(overlap / union)
  }

  lemma IntersectSymmetric(a: Rectangle, b: Rectangle)
    ensures Intersect(a, b) <==> Intersect(b, a)
  {
  }

  /** Touching edges count as intersecting. */
  lemma TouchingRectanglesIntersect(a: Rectangle, b: Rectangle)
    requires a.IsValid() && b.IsValid()
    requires a.right == b.left && a.top <= b.bottom && b.top <= a.bottom
    ensures Intersect(a, b)
  {
  }

  /** Two valid rectangles intersect exactly when they share a point. */
  lemma IntersectIffCommonPoint(a: Rectangle, b: Rectangle)
    requires a.IsValid() && b.IsValid()
    ensures Intersect(a, b) <==> exists x, y :: a.HasPoint(x, y) && b.HasPoint(x, y)
  {
    if Intersect(a, b) {
      var x, y := Max(a.left, b.left), Max(a.top, b.top);
      assert a.HasPoint(x, y) && b.HasPoint(x, y);
    }
  }

  /** The overlap of two valid rectangles holds exactly their common points. */
  lemma AndIsCommonPart(a: Rectangle, b: Rectangle, x: real, y: real)
    requires a.IsValid() && b.IsValid() && Intersect(a, b)
    ensures And(a, b).value.HasPoint(x, y) <==> a.HasPoint(x, y) && b.HasPoint(x, y)
  {
  }

  lemma AndSymmetric(a: Rectangle, b: Rectangle)
    ensures And(a, b) == And(b, a)
  {
  }

  lemma ContainsReflexive(a: Rectangle)
    ensures Contains(a, a)
  {
  }

  lemma ContainsTransitive(a: Rectangle, b: Rectangle, c: Rectangle)
    requires Contains(a, b) && Contains(b, c)
    ensures Contains(a, c)
  {
  }

  lemma ValidateIdempotent(r: Rectangle)
    ensures Validate(Validate(r)) == Validate(r)
  {
  }

  lemma MulLe(w1: real, h1: real, w2: real, h2: real)
    requires 0.0 <= w1 <= w2 && 0.0 <= h1 <= h2
    ensures 0.0 <= w1 * h1 <= w2 * h2
  {
    assert w1 * h1 <= w2 * h1;
    assert w2 * h1 <= w2 * h2;
  }

  /** The overlap area never exceeds either rectangle's area. */
  lemma {:induction false} OverlapAreaBounded(a: Rectangle, b: Rectangle)
    requires a.IsValid() && b.IsValid() && Intersect(a, b)
    ensures 0.0 <= And(a, b).value.Area() <= a.Area()
    ensures And(a, b).value.Area() <= b.Area()
  {
    var o := And(a, b).value;
    MulLe(o.Width(), o.Height(), a.Width(), a.Height());
    MulLe(o.Width(), o.Height(), b.Width(), b.Height());
    MulLe(0.0, 0.0, o.Width(), o.Height());
  }

  lemma RatioAtMostOne(o: real, u: real)
    requires 0.0 <= o <= u && u > 0.0
    ensures 0.0 <= o / u <= 1.0
  {
    assert (o / u) * u == o;
  }

  /** For valid rectangles the index is a ratio in `[0, 1]`, and it is
      non-finite exactly when both rectangles have zero area. */
  lemma {:induction false} JaccardIndexRange(a: Rectangle, b: Rectangle)
    requires a.IsValid() && b.IsValid()
    ensures JaccardIndex(a, b).None? <==> Intersect(a, b) && a.Area() == 0.0 && b.Area() == 0.0
    ensures JaccardIndex(a, b).Some? ==> 0.0 <= JaccardIndex(a, b).value <= 1.0
  {
    MulLe(0.0, 0.0, a.Width(), a.Height());
    MulLe(0.0, 0.0, b.Width(), b.Height());
    if Intersect(a, b) {
      var o := And(a, b).value.Area();
      OverlapAreaBounded(a, b);
      var union := (a.Area() + b.Area()) - o;
      assert union >= a.Area() && union >= b.Area();
      if union > 0.0 {
        RatioAtMostOne(o, union);
      }
    }
  }

  lemma {:induction false} JaccardIndexSymmetric(a: Rectangle, b: Rectangle)
    ensures JaccardIndex(a, b) == JaccardIndex(b, a)
  {
    AndSymmetric(a, b);
    IntersectSymmetric(a, b);
  }

  /** A rectangle of positive area overlaps itself completely. */
  lemma {:induction false} JaccardIndexSelf(a: Rectangle)
    requires a.IsValid() && a.Area() > 0.0
    ensures JaccardIndex(a, a) == Some(1.0)
  {
    assert And(a, a) == Some(a);
    var x := a.Area();
    assert (x + x) - x == x;
    assert x / x == 1.0;
  }
}

=== FILE: sequences.dfy ===
/** Order-preserving selection from a sequence, the shape of the
    `forEach { if (…) add(…) }` loops of the viewer. */
module Sequences {

  /** The elements of `s` satisfying `p`, in their original order. */
  function Filter<T(!new)>(s: seq<T>, p: T -> bool): (r: seq<T>)
    ensures |r| <= |s|
    ensures forall x :: x in r <==> x in s && p(x)
    ensures forall i :: 0 <= i < |r| ==> p(r[i])
    ensures r == [] <==> forall x :: x in s ==> !p(x)
  {
    if s == [] then []
    else if p(s[0]) then [s[0]] + Filter(s[1..], p)
    else Filter(s[1..], p)
  }

  /** Selection keeps everything when everything qualifies. */
  lemma {:induction false} FilterAll<T(!new)>(s: seq<T>, p: T -> bool)
    requires forall x :: x in s ==> p(x)
    ensures Filter(s, p) == s
  {
    if s != [] {
      assert s[0] in s;
      assert forall x :: x in s[1..] ==> x in s;
      FilterAll(s[1..], p);
    }
  }
}

=== FILE: single_page_layout.dfy ===
/** `SinglePageLayout`: a layout slot holding one page, fitted to the slot
    and centred in it. Its scroll area is the page; zooming in widens the
    scroll area around its centre. */
module SinglePageLayouts {
  import opened Numerics
  import opened Wrappers
  import opened Rectangles
  import opened BookPages

  datatype SinglePageLayout = SinglePageLayout(globalPosition: Rectangle, scrollArea: Rectangle, page: Option<Page>)

  function Empty(): (l: SinglePageLayout)
    ensures !IsFilled(l) && Pages(l) == []
  {
    SinglePageLayout(Rectangle(0.0, 0.0, 0.0, 0.0), Rectangle(0.0, 0.0, 0.0, 0.0), None)
  }

  predicate IsFilled(l: SinglePageLayout)
  {
    l.page.Some?
  }

  function Pages(l: SinglePageLayout): (ps: seq<Page>)
    ensures |ps| <= 1
    ensures ps != [] <==> IsFilled(l)
  {
    match l.page
    case None => []
    case Some(p) => [p]
  }

  /** `initScrollArea`: the scroll area becomes the page's rectangle, when
      there is a page. */
  function InitScrollArea(l: SinglePageLayout): (r: SinglePageLayout)
    ensures r.globalPosition == l.globalPosition && r.page == l.page
    ensures l.page.Some? ==> r.scrollArea == l.page.value.globalRect
    ensures l.page.None? ==> r == l
  {
    match l.page
    case None => l
    case Some(p) => l.(scrollArea := p.globalRect)
  }

  /** `add`: fit the page into the slot, centre it, store it and reset the
      scroll area to it. */
  function Add(l: SinglePageLayout, page: Page): (r: SinglePageLayout)
    requires Sized(page)
    ensures IsFilled(r) && r.globalPosition == l.globalPosition
    ensures var p := r.page.value;
            && p.index == page.index && p.width == page.width && p.height == page.height
            && p.baseScale == FitScale(l.globalPosition.Width(), l.globalPosition.Height(),
                                       page.width as real, page.height as real)
            && r.scrollArea == p.globalRect
            && p.globalRect.Width() == p.ScaledWidth() && p.globalRect.Height() == p.ScaledHeight()
            && p.globalRect.left - l.globalPosition.left == l.globalPosition.right - p.globalRect.right
            && p.globalRect.top - l.globalPosition.top == l.globalPosition.bottom - p.globalRect.bottom
  {
    var gp := l.globalPosition;
    var baseScale := FitScale(gp.Width(), gp.Height(), page.width as real, page.height as real);
    var scaled := page.(baseScale := baseScale);
    var paddingHorizontal := gp.Width() - scaled.ScaledWidth();
    var paddingVertical := gp.Height() - scaled.ScaledHeight();
    var paddingLeft := paddingHorizontal / 2.0;
    var paddingRight := paddingHorizontal - paddingLeft;
    var paddingTop := paddingVertical / 2.0;
    var paddingBottom := paddingVertical - paddingTop;
    var placed := scaled.(globalRect := Rectangle(gp.left + paddingLeft, gp.top + paddingTop,
                                                  gp.right - paddingRight, gp.bottom - paddingBottom));
    InitScrollArea(l.(page := Some(placed)))
  }

  /** A page added to a well-formed slot lies inside it and touches two
      opposite sides. */
  lemma AddedPageFitsSlot(l: SinglePageLayout, page: Page)
    requires Sized(page) && l.globalPosition.IsValid()
    ensures var p := Add(l, page).page.value;
            && Contains(l.globalPosition, p.globalRect)
            && (p.globalRect.Width() == l.globalPosition.Width() || p.globalRect.Height() == l.globalPosition.Height())
  {
    var gp := l.globalPosition;
    FitScaleFits(gp.Width(), gp.Height(), page.width as real, page.height as real);
    var p := Add(l, page).page.value;
    assert p.globalRect.Width() == page.width as real * p.baseScale;
    assert p.globalRect.Height() == page.height as real * p.baseScale;
  }

  /** `calcScrollArea`: at `scale` the scroll area grows on each side by half
      of what zooming adds to its size, and never shrinks. */
  function CalcScrollArea(l: SinglePageLayout, scale: real): (r: Rectangle)
    ensures r.CenterX() == l.scrollArea.CenterX() && r.CenterY() == l.scrollArea.CenterY()
    ensures Contains(r, l.scrollArea)
  {
    var a := l.scrollArea;
    var marginHorizontal := Max(a.Width() * scale - a.Width(), 0.0);
    var marginVertical := Max(a.Height() * scale - a.Height(), 0.0);
    Rectangle(a.left - marginHorizontal / 2.0, a.top - marginVertical / 2.0,
              a.right + marginHorizontal / 2.0, a.bottom + marginVertical / 2.0)
  }

  /** At or below scale 1 the scroll area is the page itself; above it, a
      well-formed scroll area grows to the zoomed size. */
  lemma ScrollAreaAtScale(l: SinglePageLayout, scale: real)
    requires l.scrollArea.IsValid()
    ensures scale <= 1.0 ==> CalcScrollArea(l, scale) == l.scrollArea
    ensures scale >= 1.0 ==> CalcScrollArea(l, scale).Width() == l.scrollArea.Width() * scale
                             && CalcScrollArea(l, scale).Height() == l.scrollArea.Height() * scale
  {
    var w, h := l.scrollArea.Width(), l.scrollArea.Height();
    if scale <= 1.0 {
      MulMonotoneReal(scale, 1.0, w);
      MulMonotoneReal(scale, 1.0, h);
    } else {
      MulMonotoneReal(1.0, scale, w);
      MulMonotoneReal(1.0, scale, h);
    }
  }
}

=== FILE: strip_layout_managers.dfy ===
/** The strip managers: where layout `i` sits on the global plane, which
    layout is the current one, which layouts the viewport can see and
    which index a neighbour has. Layouts are one view in size, laid out
    left to right, right to left (at negative x) or top to bottom. */

/** Layouts left to right, starting at x = 0. */
module HorizontalLtrLayoutManager {
  import opened Numerics
  import opened Wrappers
  import opened Rectangles
  import opened ViewContexts

  const INITIAL_SCROLL_X: real := 0.0
  const INITIAL_SCROLL_Y: real := 0.0

  /** `layout`: layout `index` is the view-sized box `index` views right
      of the origin. */
  function Place(vc: ViewContext, index: int): (r: Rectangle)
    ensures r.Width() == vc.viewWidth && r.Height() == vc.viewHeight
    ensures r.top == 0.0 && r.left == vc.viewWidth * index as real
  {
    var positionLeft := vc.viewWidth * index as real;
    Rectangle(positionLeft, 0.0, positionLeft + vc.viewWidth, vc.viewHeight)
  }

  /** The boxes start at the origin, are one view in size and abut. */
  lemma PlacementsAbut(vc: ViewContext, index: int)
    ensures Place(vc, 0).left == 0.0 && Place(vc, 0).top == 0.0
    ensures Place(vc, index).Width() == vc.viewWidth && Place(vc, index).Height() == vc.viewHeight
    ensures Place(vc, index).right == Place(vc, index + 1).left
  {
  }

  /** `currentPageLayoutIndex`: the layout under the viewport's centre,
      as a truncated `abs` of a Float. */
  function CurrentPageLayoutIndex(vc: ViewContext): (i: int)
    requires vc.viewWidth != 0.0
    ensures i >= 0 && i as real <= AbsR(vc.viewport.CenterX() / vc.viewWidth) < i as real + 1.0
  {
    Floor(AbsR(vc.viewport.CenterX() / vc.viewWidth))
  }

  /** `leftPageLayout`: the previous index, none before the first. */
  function LeftIndex(currentIndex: int): (r: Option<int>)
    ensures r.None? <==> currentIndex <= 0
  {
    if currentIndex - 1 < 0 then None else Some(currentIndex - 1)
  }

  /** `rightPageLayout`: the next index, none past the last. */
  function RightIndex(currentIndex: int, count: int): (r: Option<int>)
    ensures r.None? <==> currentIndex + 1 >= count
  {
    if currentIndex + 1 >= count then None else Some(currentIndex + 1)
  }

  /** Going left then right, or right then left, comes back. */
  lemma NeighboursInverse(currentIndex: int, count: int)
    requires 0 <= currentIndex < count
    ensures LeftIndex(currentIndex).Some? ==> RightIndex(LeftIndex(currentIndex).value, count) == Some(currentIndex)
    ensures RightIndex(currentIndex, count).Some? ==> LeftIndex(RightIndex(currentIndex, count).value) == Some(currentIndex)
  {
  }

  /** `calcFirstVisiblePageLayoutIndex`: on the strip, the layout whose box
      holds the viewport's left edge. */
  function CalcFirstVisiblePageLayoutIndex(vc: ViewContext): (i: int)
    requires vc.viewWidth != 0.0
    ensures vc.viewWidth > 0.0 && vc.viewport.left >= 0.0 ==>
              i >= 0 && Place(vc, i).left <= vc.viewport.left < Place(vc, i).right
  {
    GridCellOfPoint(vc.viewport.left, vc.viewWidth);
    Abs(Floor(vc.viewport.left / vc.viewWidth))
  }

  /** `calcLastVisiblePageLayoutIndex`: on the strip, the first layout whose
      left edge is at or right of the viewport's left edge, which is the
      layout holding the right edge of a viewport one view wide. */
  function CalcLastVisiblePageLayoutIndex(vc: ViewContext): (i: int)
    requires vc.viewWidth != 0.0
    ensures vc.viewWidth > 0.0 && vc.viewport.left >= 0.0 ==>
              i >= 0 && Place(vc, i).left - vc.viewWidth < vc.viewport.left <= Place(vc, i).left
  {
    GridCellOfPoint(vc.viewport.left, vc.viewWidth);
    Abs(Ceil(vc.viewport.left / vc.viewWidth))
  }

  /** A viewport on the strip no wider than the view sees only layouts
      between the first and the last visible index. */
  lemma VisibleRangeCoversViewport(vc: ViewContext, index: int)
    requires vc.viewWidth > 0.0 && vc.viewport.left >= 0.0
    requires vc.viewport.Width() <= vc.viewWidth
    requires Place(vc, index).left < vc.viewport.right && vc.viewport.left < Place(vc, index).right
    ensures CalcFirstVisiblePageLayoutIndex(vc) <= index <= CalcLastVisiblePageLayoutIndex(vc)
  {
    assert Place(vc, index).left == index as real * vc.viewWidth;
    CellMeetsInterval(vc.viewport.left, vc.viewport.right, vc.viewWidth, index);
  }
}

/** Layouts right to left, layout 0 just left of x = 0; each layout is
    flipped so that its pages read right to left too. */
module HorizontalRtlLayoutManager {
  import opened Numerics
  import opened Wrappers
  import opened Rectangles
  import opened ViewContexts
  import HorizontalLtrLayoutManager

  /** `initialScrollX`: one view left of the origin, over layout 0. */
  function InitialScrollX(viewWidth: int): (x: real)
    ensures forall vc: ViewContext :: vc.viewWidth == viewWidth as real ==> x == Place(vc, 0).left
  {
    -(viewWidth as real)
  }

  const INITIAL_SCROLL_Y: real := 0.0

  /** `layout`: layout `index` is the view-sized box `index + 1` views left
      of the origin. */
  function Place(vc: ViewContext, index: int): (r: Rectangle)
    ensures r.Width() == vc.viewWidth && r.Height() == vc.viewHeight
    ensures r.top == 0.0 && r.right == -(vc.viewWidth * index as real)
  {
    var positionLeft := vc.viewWidth * -(index + 1) as real;
    Rectangle(positionLeft, 0.0, positionLeft + vc.viewWidth, vc.viewHeight)
  }

  /** The boxes end at the origin, are one view in size and abut, each to
      the left of its predecessor. */
  lemma PlacementsAbut(vc: ViewContext, index: int)
    ensures Place(vc, 0).right == 0.0 && Place(vc, 0).top == 0.0
    ensures Place(vc, index).Width() == vc.viewWidth && Place(vc, index).Height() == vc.viewHeight
    ensures Place(vc, index + 1).right == Place(vc, index).left
  {
  }

  /** A 1080 by 2048 view: layout 0 spans x in [-1080, 0] and layout 1
      spans [-2160, -1080], and the initial scroll puts the viewport's
      left edge on layout 0's. */
  lemma PortraitPhoneScenario(vc: ViewContext)
    requires vc.viewWidth == 1080.0 && vc.viewHeight == 2048.0
    ensures Place(vc, 0) == Rectangle(-1080.0, 0.0, 0.0, 2048.0)
    ensures Place(vc, 1) == Rectangle(-2160.0, 0.0, -1080.0, 2048.0)
    ensures InitialScrollX(1080) == Place(vc, 0).left
  {
  }

  function CurrentPageLayoutIndex(vc: ViewContext): (i: int)
    requires vc.viewWidth != 0.0
    ensures i >= 0 && i as real <= AbsR(vc.viewport.CenterX() / vc.viewWidth) < i as real + 1.0
  {
    Floor(AbsR(vc.viewport.CenterX() / vc.viewWidth))
  }

  /** `leftPageLayout`: the next index (further left), none past the last. */
  function LeftIndex(currentIndex: int, count: int): (r: Option<int>)
    ensures r.None? <==> currentIndex + 1 >= count
  {
    if currentIndex + 1 >= count then None else Some(currentIndex + 1)
  }

  /** `rightPageLayout`: the previous index, none before the first. */
  function RightIndex(currentIndex: int): (r: Option<int>)
    ensures r.None? <==> currentIndex <= 0
  {
    if currentIndex - 1 < 0 then None else Some(currentIndex - 1)
  }

  /** Left here is right in the left-to-right strip, and the other way
      round. */
  lemma MirrorsLeftToRight(currentIndex: int, count: int)
    ensures LeftIndex(currentIndex, count) == HorizontalLtrLayoutManager.RightIndex(currentIndex, count)
    ensures RightIndex(currentIndex) == HorizontalLtrLayoutManager.LeftIndex(currentIndex)
  {
  }

  /** `calcLastVisiblePageLayoutIndex`: left of the origin, the layout
      whose box holds the viewport's right edge. */
  function CalcLastVisiblePageLayoutIndex(vc: ViewContext): (i: int)
    requires vc.viewWidth != 0.0
    ensures vc.viewWidth > 0.0 && vc.viewport.right <= 0.0 ==>
              i >= 0 && Place(vc, i).right <= vc.viewport.right < Place(vc, i).right + vc.viewWidth
  {
    GridCellOfPoint(vc.viewport.right, vc.viewWidth);
    Abs(Floor(vc.viewport.right / vc.viewWidth))
  }

  /** `calcFirstVisiblePageLayoutIndex`: left of the origin, the layout
      whose left edge is the first at or right of the viewport's right
      edge; -1 when that edge is the origin. */
  function CalcFirstVisiblePageLayoutIndex(vc: ViewContext): (i: int)
    requires vc.viewWidth != 0.0
    ensures vc.viewWidth > 0.0 && vc.viewport.right <= 0.0 ==>
              i >= -1 && Place(vc, i).left - vc.viewWidth < vc.viewport.right <= Place(vc, i).left
  {
    GridCellOfPoint(vc.viewport.right, vc.viewWidth);
    Abs(Ceil(vc.viewport.right / vc.viewWidth)) - 1
  }

  /** A viewport left of the origin no wider than the view sees only
      layouts between the first and the last visible index. */
  lemma VisibleRangeCoversViewport(vc: ViewContext, index: int)
    requires vc.viewWidth > 0.0 && vc.viewport.right <= 0.0
    requires vc.viewport.Width() <= vc.viewWidth
    requires Place(vc, index).left < vc.viewport.right && vc.viewport.left < Place(vc, index).right
    ensures CalcFirstVisiblePageLayoutIndex(vc) <= index <= CalcLastVisiblePageLayoutIndex(vc)
  {
    var w, q := vc.viewWidth, vc.viewport.right / vc.viewWidth;
    assert q * w == vc.viewport.right;
    assert (-(index + 1)) as real * w == w * -(index + 1) as real;
    CellMeetsInterval(vc.viewport.left, vc.viewport.right, w, -(index + 1));
  }
}

/** Layouts top to bottom, starting at y = 0. */
module VerticalLayoutManager {
  import opened Numerics
  import opened Wrappers
  import opened Rectangles
  import opened ViewContexts

  const INITIAL_SCROLL_X: real := 0.0
  const INITIAL_SCROLL_Y: real := 0.0

  /** `layout`: layout `index` is the view-sized box `index` views below
      the origin. */
  function Place(vc: ViewContext, index: int): (r: Rectangle)
    ensures r.Width() == vc.viewWidth && r.Height() == vc.viewHeight
    ensures r.left == 0.0 && r.top == vc.viewHeight * index as real
  {
    var positionTop := vc.viewHeight * index as real;
    Rectangle(0.0, positionTop, vc.viewWidth, positionTop + vc.viewHeight)
  }

  lemma PlacementsAbut(vc: ViewContext, index: int)
    ensures Place(vc, 0).left == 0.0 && Place(vc, 0).top == 0.0
    ensures Place(vc, index).Width() == vc.viewWidth && Place(vc, index).Height() == vc.viewHeight
    ensures Place(vc, index).bottom == Place(vc, index + 1).top
  {
  }

  function CurrentPageLayoutIndex(vc: ViewContext): (i: int)
    requires vc.viewHeight != 0.0
    ensures i >= 0 && i as real <= AbsR(vc.viewport.CenterY() / vc.viewHeight) < i as real + 1.0
  {
    Floor(AbsR(vc.viewport.CenterY() / vc.viewHeight))
  }

  /** `topPageLayout`: the previous index, none before the first. */
  function TopIndex(currentIndex: int): (r: Option<int>)
    ensures r.None? <==> currentIndex <= 0
  {
    if currentIndex - 1 < 0 then None else Some(currentIndex - 1)
  }

  /** `bottomPageLayout`: the next index, none past the last. */
  function BottomIndex(currentIndex: int, count: int): (r: Option<int>)
    ensures r.None? <==> currentIndex + 1 >= count
  {
    if currentIndex + 1 >= count then None else Some(currentIndex + 1)
  }

  lemma NeighboursInverse(currentIndex: int, count: int)
    requires 0 <= currentIndex < count
    ensures TopIndex(currentIndex).Some? ==> BottomIndex(TopIndex(currentIndex).value, count) == Some(currentIndex)
    ensures BottomIndex(currentIndex, count).Some? ==> TopIndex(BottomIndex(currentIndex, count).value) == Some(currentIndex)
  {
  }

  /** `calcFirstVisiblePageLayoutIndex`: on the strip, the layout whose box
      holds the viewport's top edge. */
  function CalcFirstVisiblePageLayoutIndex(vc: ViewContext): (i: int)
    requires vc.viewHeight != 0.0
    ensures vc.viewHeight > 0.0 && vc.viewport.top >= 0.0 ==>
              i >= 0 && Place(vc, i).top <= vc.viewport.top < Place(vc, i).bottom
  {
    GridCellOfPoint(vc.viewport.top, vc.viewHeight);
    Abs(Floor(vc.viewport.top / vc.viewHeight))
  }

  /** `calcLastVisiblePageLayoutIndex`: on the strip, the first layout whose
      top edge is at or below the viewport's top edge. */
  function CalcLastVisiblePageLayoutIndex(vc: ViewContext): (i: int)
    requires vc.viewHeight != 0.0
    ensures vc.viewHeight > 0.0 && vc.viewport.top >= 0.0 ==>
              i >= 0 && Place(vc, i).top - vc.viewHeight < vc.viewport.top <= Place(vc, i).top
  {
    GridCellOfPoint(vc.viewport.top, vc.viewHeight);
    Abs(Ceil(vc.viewport.top / vc.viewHeight))
  }

  lemma VisibleRangeCoversViewport(vc: ViewContext, index: int)
    requires vc.viewHeight > 0.0 && vc.viewport.top >= 0.0
    requires vc.viewport.Height() <= vc.viewHeight
    requires Place(vc, index).top < vc.viewport.bottom && vc.viewport.top < Place(vc, index).bottom
    ensures CalcFirstVisiblePageLayoutIndex(vc) <= index <= CalcLastVisiblePageLayoutIndex(vc)
  {
    assert Place(vc, index).top == index as real * vc.viewHeight;
    CellMeetsInterval(vc.viewport.top, vc.viewport.bottom, vc.viewHeight, index);
  }
}

=== FILE: tiled_bitmap_layer.dfy ===
/** `TiledBitmapLayer`: a content layer that draws a large picture as tiles,
    together with the older `TiledSource` copy it is declared beside (tiles
    carry only an index and a position there). Per frame the layer picks
    the tiles meeting the visible part of the content, draws the cached
    ones once the scale reaches its threshold, asks for the missing ones
    and evicts every cached tile that is no longer visible. */
module TiledBitmapLayer {
  import opened Numerics
  import opened Wrappers
  import opened Rectangles
  import opened Sequences
  import TiledSources

  datatype Tile = Tile(index: int, position: Rectangle)

  datatype TiledSource = TiledSource(
    sourceWidth: real,
    sourceHeight: real,
    colCount: int,
    rowCount: int,
    tileList: seq<Tile>)

  /** `TiledSource.build` of this copy; the checks, their order and the grid
      are the same as in the newer class. */
  function Build(sourceWidth: real, sourceHeight: real, tileWidth: real, tileHeight: real,
                 strideHorizontal: real, strideVertical: real): (r: Result<TiledSource, TiledSources.BuildError>)
    requires strideHorizontal != 0.0 && strideVertical != 0.0
    ensures r.Err? <==> (sourceWidth < tileWidth || sourceHeight < tileHeight
                         || strideHorizontal > tileWidth || strideVertical > tileHeight)
    ensures r.Ok? ==> r.value.colCount == Ceil(sourceWidth / strideHorizontal)
                      && r.value.rowCount == Ceil(sourceHeight / strideVertical)
  {
    if sourceWidth < tileWidth then Err(TiledSources.TileWidthTooLarge)
    else if sourceHeight < tileHeight then Err(TiledSources.TileHeightTooLarge)
    else if strideHorizontal > tileWidth then Err(TiledSources.StrideHorizontalTooLarge)
    else if strideVertical > tileHeight then Err(TiledSources.StrideVerticalTooLarge)
    else
      var g := TiledSources.Geometry(sourceWidth, sourceHeight, tileWidth, tileHeight, strideHorizontal, strideVertical);
      var colCount := Ceil(sourceWidth / strideHorizontal);
      var rowCount := Ceil(sourceHeight / strideVertical);
      var tiles := if colCount <= 0 || rowCount <= 0 then []
                   else seq(rowCount * colCount, i requires 0 <= i < rowCount * colCount =>
                              Tile(i, TiledSources.TilePosition(g, i % colCount, i / colCount)));
      Ok(TiledSource(sourceWidth, sourceHeight, colCount, rowCount, tiles))
  }

  /** The tile of this copy that a tile of the newer class corresponds to. */
  function Forget(t: TiledSources.Tile): Tile
  {
    Tile(t.index, t.position)
  }

  /** The two copies of `build` agree: same errors, same grid, and each tile
      here is the newer tile without its column and row. */
  lemma SameAsTiledSource(sourceWidth: real, sourceHeight: real, tileWidth: real, tileHeight: real,
                          strideHorizontal: real, strideVertical: real)
    requires strideHorizontal != 0.0 && strideVertical != 0.0
    ensures var w := Build(sourceWidth, sourceHeight, tileWidth, tileHeight, strideHorizontal, strideVertical);
            var k := TiledSources.Build(sourceWidth, sourceHeight, tileWidth, tileHeight, strideHorizontal, strideVertical);
            && (w.Err? <==> k.Err?)
            && (w.Err? ==> w.error == k.error)
            && (w.Ok? ==>
                  && w.value.sourceWidth == k.value.sourceWidth && w.value.sourceHeight == k.value.sourceHeight
                  && w.value.colCount == k.value.colCount && w.value.rowCount == k.value.rowCount
                  && |w.value.tileList| == |k.value.tileList|
                  && forall i :: 0 <= i < |w.value.tileList| ==> w.value.tileList[i] == Forget(k.value.tileList[i]))
  {
    var g := TiledSources.Geometry(sourceWidth, sourceHeight, tileWidth, tileHeight, strideHorizontal, strideVertical);
    var k := TiledSources.Build(sourceWidth, sourceHeight, tileWidth, tileHeight, strideHorizontal, strideVertical);
    if k.Ok? {
      TiledSources.BuildTiles(g);
    }
  }

  /** Tiles are shown individually from this scale on. */
  const DEFAULT_SCALE_SHOW_TILE_THRESHOLD: real := 3.0

  /** The layer's own state: its tile grid, the scale threshold and the
      cache of decoded tiles (`null` entries are tiles still loading). */
  datatype Layer<B> = Layer(tiledSource: TiledSource, scaleThreshold: real, cacheBin: map<Tile, Option<B>>)

  function NewLayer<B>(tiledSource: TiledSource): (l: Layer<B>)
    ensures l.scaleThreshold == DEFAULT_SCALE_SHOW_TILE_THRESHOLD && l.cacheBin == map[]
  {
    Layer(tiledSource, DEFAULT_SCALE_SHOW_TILE_THRESHOLD, map[])
  }

  /** `cacheBin[tile]` is a bitmap. */
  predicate HasBitmap<B>(cacheBin: map<Tile, Option<B>>, t: Tile)
  {
    t in cacheBin && cacheBin[t].Some?
  }

  /** What one `onDraw` decides: its return value, the tiles it selected,
      the tiles it asked the subclass to load, and the cache it leaves. */
  datatype DrawOutcome<B> = DrawOutcome(
    allTilesShown: bool,
    displayTileList: seq<Tile>,
    requested: seq<Tile>,
    cacheBin: map<Tile, Option<B>>)

  /** `onDraw` for the visible content rectangle `contentSrc` at the view
      context's `currentScale`; `pagePresent` is whether the layer is bound
      to a page. */
  function OnDraw<B>(layer: Layer<B>, pagePresent: bool, contentSrc: Rectangle, currentScale: real): (o: DrawOutcome<B>)
    ensures !pagePresent ==> !o.allTilesShown && o.cacheBin == layer.cacheBin && o.requested == []
    ensures pagePresent ==>
              forall t :: t in o.displayTileList <==>
                t in layer.tiledSource.tileList && Intersect(t.position, contentSrc)
    ensures pagePresent ==> forall t :: t in o.cacheBin <==> t in layer.cacheBin && t in o.displayTileList
    ensures forall t :: t in o.cacheBin ==> t in layer.cacheBin && o.cacheBin[t] == layer.cacheBin[t]
    ensures pagePresent && currentScale < layer.scaleThreshold ==> o.allTilesShown && o.requested == []
    ensures pagePresent && currentScale >= layer.scaleThreshold ==>
              && (o.allTilesShown <==> forall t :: t in o.displayTileList ==> HasBitmap(layer.cacheBin, t))
              && (forall t :: t in o.requested <==> t in o.displayTileList && !HasBitmap(layer.cacheBin, t))
  {
    if !pagePresent then DrawOutcome(false, [], [], layer.cacheBin)
    else
      var display := Filter(layer.tiledSource.tileList, (t: Tile) => Intersect(t.position, contentSrc));
      var kept := map t | t in layer.cacheBin && t in display :: layer.cacheBin[t];
      if currentScale >= layer.scaleThreshold then
        var missing := Filter(display, (t: Tile) => !HasBitmap(layer.cacheBin, t));
        DrawOutcome(missing == [], display, missing, kept)
      else
        DrawOutcome(true, display, [], kept)
  }

  /** `onRecycled`: every cached bitmap is released and the cache emptied. */
  function OnRecycled<B>(layer: Layer<B>): (l: Layer<B>)
    ensures l.tiledSource == layer.tiledSource && l.scaleThreshold == layer.scaleThreshold
    ensures forall t :: !HasBitmap(l.cacheBin, t)
  {
    layer.(cacheBin := map[])
  }

  /** The cache after a frame, as the layer's next state. */
  function AfterDraw<B>(layer: Layer<B>, pagePresent: bool, contentSrc: Rectangle, currentScale: real): Layer<B>
  {
    layer.(cacheBin := OnDraw(layer, pagePresent, contentSrc, currentScale).cacheBin)
  }

  /** A frame evicts nothing from a cache that holds only tiles it shows. */
  lemma DrawKeepsVisibleCache<B>(layer: Layer<B>, pagePresent: bool, contentSrc: Rectangle, currentScale: real)
    requires pagePresent ==> forall t :: t in layer.cacheBin ==> t in layer.tiledSource.tileList && Intersect(t.position, contentSrc)
    ensures OnDraw(layer, pagePresent, contentSrc, currentScale).cacheBin == layer.cacheBin
  {
    var o := OnDraw(layer, pagePresent, contentSrc, currentScale);
    if pagePresent {
      forall t | t in layer.cacheBin
        ensures t in o.cacheBin
      {
        assert t in o.displayTileList;
      }
    }
  }

  /** Drawing the same frame again evicts nothing more. */
  lemma RedrawKeepsCache<B>(layer: Layer<B>, pagePresent: bool, contentSrc: Rectangle, currentScale: real)
    ensures var l1 := AfterDraw(layer, pagePresent, contentSrc, currentScale);
            OnDraw(l1, pagePresent, contentSrc, currentScale).cacheBin == l1.cacheBin
  {
    var o1 := OnDraw(layer, pagePresent, contentSrc, currentScale);
    var l1 := layer.(cacheBin := o1.cacheBin);
    if pagePresent {
      assert forall t :: t in l1.cacheBin ==> t in o1.displayTileList;
    }
    DrawKeepsVisibleCache(l1, pagePresent, contentSrc, currentScale);
  }

  /** Drawing the same frame again reaches the same verdict. */
  lemma RedrawSameVerdict<B>(layer: Layer<B>, pagePresent: bool, contentSrc: Rectangle, currentScale: real)
    ensures var l1 := AfterDraw(layer, pagePresent, contentSrc, currentScale);
            OnDraw(l1, pagePresent, contentSrc, currentScale).allTilesShown
            == OnDraw(layer, pagePresent, contentSrc, currentScale).allTilesShown
  {
    var o1 := OnDraw(layer, pagePresent, contentSrc, currentScale);
    var l1 := layer.(cacheBin := o1.cacheBin);
    var o2 := OnDraw(l1, pagePresent, contentSrc, currentScale);
    if pagePresent && currentScale >= layer.scaleThreshold {
      assert o2.displayTileList == o1.displayTileList;
      assert forall t :: t in o1.displayTileList ==> HasBitmap(l1.cacheBin, t) == HasBitmap(layer.cacheBin, t);
    }
  }

  /** Right after `onRecycled`, a frame at or above the threshold shows all
      its tiles only when none is visible, and asks for every visible one. */
  lemma RecycledLayerRequestsEveryVisibleTile<B>(layer: Layer<B>, contentSrc: Rectangle, currentScale: real)
    requires currentScale >= layer.scaleThreshold
    ensures var o := OnDraw(OnRecycled(layer), true, contentSrc, currentScale);
            && (o.allTilesShown <==> o.displayTileList == [])
            && o.requested == o.displayTileList
  {
    var l := OnRecycled(layer);
    var o := OnDraw(l, true, contentSrc, currentScale);
    FilterAll(o.displayTileList, (t: Tile) => !HasBitmap(l.cacheBin, t));
    if o.displayTileList != [] {
      assert o.displayTileList[0] in o.displayTileList;
    }
  }

  /** `project`: a tile rectangle relative to `contentSrc` is scaled by the
      ratio of the display projection to `contentSrc` and moved to the
      projection's origin. */
  function Project(tilePosition: Rectangle, contentSrc: Rectangle, displayProjection: Rectangle): (r: Rectangle)
    requires contentSrc.Width() != 0.0 && contentSrc.Height() != 0.0
  {
    var widthRatio := displayProjection.Width() / contentSrc.Width();
    var heightRatio := displayProjection.Height() / contentSrc.Height();
    Offset(Rectangle(tilePosition.left * widthRatio, tilePosition.top * heightRatio,
                     tilePosition.right * widthRatio, tilePosition.bottom * heightRatio),
           displayProjection.left, displayProjection.top)
  }

  /** Where `drawTiles` puts a tile on the screen. */
  function TileDestination(tile: Tile, contentSrc: Rectangle, displayProjection: Rectangle): Rectangle
    requires contentSrc.Width() != 0.0 && contentSrc.Height() != 0.0
  {
    Project(RelativeBy(tile.position, contentSrc), contentSrc, displayProjection)
  }

  /** A tile covering exactly the visible content is drawn exactly over the
      display projection. */
  lemma VisibleContentFillsProjection(contentSrc: Rectangle, displayProjection: Rectangle, index: int)
    requires contentSrc.Width() != 0.0 && contentSrc.Height() != 0.0
    ensures TileDestination(Tile(index, contentSrc), contentSrc, displayProjection) == displayProjection
  {
    var w := displayProjection.Width() / contentSrc.Width();
    var h := displayProjection.Height() / contentSrc.Height();
    assert contentSrc.Width() * w == displayProjection.Width();
    assert contentSrc.Height() * h == displayProjection.Height();
  }

  /** The frame of `build_isCorrect1`: 1000 x 2000 in 256-pixel tiles is a
      4 x 8 grid whose right column is clamped to 1000 and last row to 2000. */
  lemma DefaultStridesScenario()
    ensures var r := Build(1000.0, 2000.0, 256.0, 256.0, 256.0, 256.0);
            && r.Ok? && r.value.colCount == 4 && r.value.rowCount == 8
            && |r.value.tileList| == 32
            && r.value.tileList[3].position == Rectangle(768.0, 0.0, 1000.0, 256.0)
            && r.value.tileList[31].position == Rectangle(768.0, 1792.0, 1000.0, 2000.0)
  {
    var r := Build(1000.0, 2000.0, 256.0, 256.0, 256.0, 256.0);
    assert Ceil(1000.0 / 256.0) == 4;
    assert Ceil(2000.0 / 256.0) == 8;
    assert r.value.tileList[3].position == TiledSources.TilePosition(
      TiledSources.Geometry(1000.0, 2000.0, 256.0, 256.0, 256.0, 256.0), 3, 0);
    assert r.value.tileList[31].position == TiledSources.TilePosition(
      TiledSources.Geometry(1000.0, 2000.0, 256.0, 256.0, 256.0, 256.0), 3, 7);
  }

  /** The frame of `build_isCorrect2`: a stride of 250 keeps the 4 x 8 grid
      but starts the last column at 750 and the last row at 1750. */
  lemma NarrowStrideScenario()
    ensures var r := Build(1000.0, 2000.0, 256.0, 256.0, 250.0, 250.0);
            && r.Ok? && r.value.colCount == 4 && r.value.rowCount == 8
            && |r.value.tileList| == 32
            && r.value.tileList[3].position == Rectangle(750.0, 0.0, 1000.0, 256.0)
            && r.value.tileList[31].position == Rectangle(750.0, 1750.0, 1000.0, 2000.0)
  {
    var r := Build(1000.0, 2000.0, 256.0, 256.0, 250.0, 250.0);
    assert Ceil(1000.0 / 250.0) == 4;
    assert Ceil(2000.0 / 250.0) == 8;
    assert r.value.tileList[3].position == TiledSources.TilePosition(
      TiledSources.Geometry(1000.0, 2000.0, 256.0, 256.0, 250.0, 250.0), 3, 0);
    assert r.value.tileList[31].position == TiledSources.TilePosition(
      TiledSources.Geometry(1000.0, 2000.0, 256.0, 256.0, 250.0, 250.0), 3, 7);
  }

  /** The four refused builds of the same test class. */
  lemma RefusedScenarios()
    ensures Build(1000.0, 2000.0, 1001.0, 256.0, 1001.0, 256.0) == Err(TiledSources.TileWidthTooLarge)
    ensures Build(1000.0, 2000.0, 256.0, 2001.0, 256.0, 2001.0) == Err(TiledSources.TileHeightTooLarge)
    ensures Build(1000.0, 2000.0, 256.0, 256.0, 256.1, 256.0) == Err(TiledSources.StrideHorizontalTooLarge)
    ensures Build(1000.0, 2000.0, 256.0, 256.0, 256.0, 256.1) == Err(TiledSources.StrideVerticalTooLarge)
  {
  }
}

=== FILE: tiled_bitmap_maker.dfy ===
/** The tiling geometry of the `tiled_bitmap_maker` script: an image of
    `width` x `height` pixels is cut into a row-major grid of crop boxes
    of `tileWidth` x `tileHeight`, started every `strideHorizontal` /
    `strideVertical` pixels and clamped to the image's right and bottom
    edges. All quantities are Python integers. */
module TiledBitmapMaker {
  import opened Numerics
  import opened Wrappers

  /** A crop box `(left, top, right, bottom)` as handed to the image codec. */
  datatype Box = Box(left: int, top: int, right: int, bottom: int)

  /** The planned grid: image size, grid shape and the boxes in row-major order. */
  datatype TiledSource = TiledSource(
    sourceWidth: int,
    sourceHeight: int,
    colCount: int,
    rowCount: int,
    tileList: seq<Box>)

  /** The failed `assert`s of `build`, in the order they are checked, and the
      `ZeroDivisionError` raised when a stride is zero. */
  datatype BuildError =
    | TileWidthNotSmaller
    | TileHeightNotSmaller
    | StrideHorizontalTooLarge
    | StrideVerticalTooLarge
    | ZeroStride

  /** The parameters `build` receives besides the image. */
  datatype Geometry = Geometry(
    width: int,
    height: int,
    tileWidth: int,
    tileHeight: int,
    strideHorizontal: int,
    strideVertical: int)

  /** Default of both `--tile_width` and `--tile_height`. */
  const DEFAULT_TILE_SIZE: int := 256

  /** The command-line flags that reach the geometry; an unset stride is `None`. */
  datatype Flags = Flags(
    tileWidth: int,
    tileHeight: int,
    strideHorizontal: Option<int>,
    strideVertical: Option<int>)

  const DEFAULT_FLAGS: Flags := Flags(DEFAULT_TILE_SIZE, DEFAULT_TILE_SIZE, None, None)

  /** The crop box of column `x`, row `y`, clamped to the image. */
  function TileBox(g: Geometry, x: int, y: int): Box
  {
    var left := x * g.strideHorizontal;
    var top := y * g.strideVertical;
    Box(left, top, MinInt(left + g.tileWidth, g.width), MinInt(top + g.tileHeight, g.height))
  }

  /** Reference definition of the tile list: entry `i` is the box of column
      `i % colCount` and row `i / colCount`; an empty range gives no tiles. */
  function TileList(g: Geometry, colCount: int, rowCount: int): seq<Box>
  {
    if colCount <= 0 || rowCount <= 0 then []
    else seq(rowCount * colCount, i requires 0 <= i < rowCount * colCount =>
               TileBox(g, i % colCount, i / colCount))
  }

  predicate ValidGeometry(g: Geometry)
  {
    && g.width > g.tileWidth
    && g.height > g.tileHeight
    && g.strideHorizontal <= g.tileWidth
    && g.strideVertical <= g.tileHeight
    && g.strideHorizontal != 0
    && g.strideVertical != 0
  }

  /** `build`: validation, grid shape and the tile list. */
  function Build(width: nat, height: nat, tileWidth: int, tileHeight: int,
                 strideHorizontal: int, strideVertical: int): (r: Result<TiledSource, BuildError>)
    ensures r.Err? <==> !ValidGeometry(Geometry(width, height, tileWidth, tileHeight, strideHorizontal, strideVertical))
    ensures r == Err(TileWidthNotSmaller) <==> width <= tileWidth
    ensures r == Err(TileHeightNotSmaller) <==> width > tileWidth && height <= tileHeight
    ensures r == Err(StrideHorizontalTooLarge) <==>
              width > tileWidth && height > tileHeight && strideHorizontal > tileWidth
    ensures r == Err(StrideVerticalTooLarge) <==>
              width > tileWidth && height > tileHeight && strideHorizontal <= tileWidth
              && strideVertical > tileHeight
    ensures r.Ok? ==>
              && r.value.sourceWidth == width && r.value.sourceHeight == height
              && r.value.colCount == CeilDiv(width, strideHorizontal)
              && r.value.rowCount == CeilDiv(height, strideVertical)
              && |r.value.tileList| ==
                 (if r.value.colCount > 0 && r.value.rowCount > 0
                  then r.value.colCount * r.value.rowCount else 0)
  {
    if !(width > tileWidth) then Err(TileWidthNotSmaller)
    else if !(height > tileHeight) then Err(TileHeightNotSmaller)
    else if !(strideHorizontal <= tileWidth) then Err(StrideHorizontalTooLarge)
    else if !(strideVertical <= tileHeight) then Err(StrideVerticalTooLarge)
    else if strideHorizontal == 0 || strideVertical == 0 then Err(ZeroStride)
    else
      var g := Geometry(width, height, tileWidth, tileHeight, strideHorizontal, strideVertical);
      var colCount := CeilDiv(width, strideHorizontal);
      var rowCount := CeilDiv(height, strideVertical);
      Ok(TiledSource(width, height, colCount, rowCount, TileList(g, colCount, rowCount)))
  }

  /** The nested `for y` / `for x` loops of `build`, appending one box per
      iteration, compute exactly the reference tile list. */
  method BuildTileList(g: Geometry, colCount: int, rowCount: int) returns (tiles: seq<Box>)
    ensures tiles == TileList(g, colCount, rowCount)
  {
    tiles := [];
    var y := 0;
    while y < rowCount
      invariant 0 <= y
      invariant rowCount > 0 ==> y <= rowCount
      invariant rowCount <= 0 ==> y == 0
      invariant colCount <= 0 ==> tiles == []
      invariant colCount > 0 ==> |tiles| == y * colCount
      invariant colCount > 0 ==>
                  forall i :: 0 <= i < |tiles| ==> tiles[i] == TileBox(g, i % colCount, i / colCount)
    {
      var x := 0;
      while x < colCount
        invariant 0 <= x
        invariant colCount > 0 ==> x <= colCount
        invariant colCount <= 0 ==> tiles == []
        invariant colCount > 0 ==> |tiles| == y * colCount + x
        invariant colCount > 0 ==>
                    forall i :: 0 <= i < |tiles| ==> tiles[i] == TileBox(g, i % colCount, i / colCount)
      {
        RowMajorDivMod(x, y, colCount);
        tiles := tiles + [TileBox(g, x, y)];
        x := x + 1;
      }
      y := y + 1;
    }
    if colCount > 0 && rowCount > 0 {
      var spec := TileList(g, colCount, rowCount);
      assert |tiles| == |spec|;
      assert forall i :: 0 <= i < |tiles| ==> tiles[i] == spec[i];
    }
  }

  /** The stride actually used: an unset stride defaults to the tile size. */
  function EffectiveStride(flag: Option<int>, tileSize: int): (s: int)
    ensures flag.Some? ==> s == flag.value
    ensures flag.None? ==> s == tileSize
  {
    match flag
    case Some(v) => v
    case None => tileSize
  }

  /** The call `main` makes once the image is open. */
  function BuildFromFlags(width: nat, height: nat, flags: Flags): Result<TiledSource, BuildError>
  {
    Build(width, height, flags.tileWidth, flags.tileHeight,
          EffectiveStride(flags.strideHorizontal, flags.tileWidth),
          EffectiveStride(flags.strideVertical, flags.tileHeight))
  }

  predicate InBox(b: Box, px: int, py: int)
  {
    b.left <= px < b.right && b.top <= py < b.bottom
  }

  /** Column `x`, row `y` of a grid whose last column and row start inside
      the image gives a non-empty box inside the image. */
  lemma {:induction false} TileBoxInImage(g: Geometry, colCount: int, rowCount: int, x: int, y: int)
    requires 0 < g.strideHorizontal <= g.tileWidth && 0 < g.strideVertical <= g.tileHeight
    requires (colCount - 1) * g.strideHorizontal < g.width
    requires (rowCount - 1) * g.strideVertical < g.height
    requires 0 <= x < colCount && 0 <= y < rowCount
    ensures var b := TileBox(g, x, y);
            0 <= b.left < b.right <= g.width && 0 <= b.top < b.bottom <= g.height
  {
    MulMonotone(x, colCount - 1, g.strideHorizontal);
    MulMonotone(y, rowCount - 1, g.strideVertical);
    MulMonotone(0, x, g.strideHorizontal);
    MulMonotone(0, y, g.strideVertical);
  }

  /** The tile list of a successful build, restated over its geometry. */
  lemma BuildTiles(width: nat, height: nat, tileWidth: int, tileHeight: int,
                   strideHorizontal: int, strideVertical: int)
    requires Build(width, height, tileWidth, tileHeight, strideHorizontal, strideVertical).Ok?
    ensures var s := Build(width, height, tileWidth, tileHeight, strideHorizontal, strideVertical).value;
            var g := Geometry(width, height, tileWidth, tileHeight, strideHorizontal, strideVertical);
            && ValidGeometry(g)
            && s.tileList == TileList(g, s.colCount, s.rowCount)
  {
  }

  /** Row-major order: entry `y * colCount + x` is the box of column `x`,
      row `y`, starting at `(x * strideHorizontal, y * strideVertical)`
      and clamped to the image. */
  lemma {:induction false} TileAt(width: nat, height: nat, tileWidth: int, tileHeight: int,
                                  strideHorizontal: int, strideVertical: int, x: int, y: int)
    requires Build(width, height, tileWidth, tileHeight, strideHorizontal, strideVertical).Ok?
    requires var s := Build(width, height, tileWidth, tileHeight, strideHorizontal, strideVertical).value;
             0 <= x < s.colCount && 0 <= y < s.rowCount
    ensures var s := Build(width, height, tileWidth, tileHeight, strideHorizontal, strideVertical).value;
            && y * s.colCount + x < |s.tileList|
            && s.tileList[y * s.colCount + x] ==
               Box(x * strideHorizontal, y * strideVertical,
                   MinInt(x * strideHorizontal + tileWidth, width),
                   MinInt(y * strideVertical + tileHeight, height))
  {
    var s := Build(width, height, tileWidth, tileHeight, strideHorizontal, strideVertical).value;
    var g := Geometry(width, height, tileWidth, tileHeight, strideHorizontal, strideVertical);
    BuildTiles(width, height, tileWidth, tileHeight, strideHorizontal, strideVertical);
    var cols, rows := s.colCount, s.rowCount;
    RowMajorDivMod(x, y, cols);
    MulMonotone(y, rows - 1, cols);
    var i := y * cols + x;
    assert i < rows * cols by {
      assert (rows - 1) * cols + cols == rows * cols;
    }
    assert s.tileList[i] == TileBox(g, i % cols, i / cols);
  }

  /** Every box of a grid whose last column and row start inside the image
      lies inside the image and is non-empty. */
  lemma {:induction false} TileListInImage(g: Geometry, colCount: int, rowCount: int)
    requires 0 < g.strideHorizontal <= g.tileWidth && 0 < g.strideVertical <= g.tileHeight
    requires (colCount - 1) * g.strideHorizontal < g.width
    requires (rowCount - 1) * g.strideVertical < g.height
    ensures forall b :: b in TileList(g, colCount, rowCount) ==>
              0 <= b.left < b.right <= g.width && 0 <= b.top < b.bottom <= g.height
  {
    var tiles := TileList(g, colCount, rowCount);
    forall i | 0 <= i < |tiles|
      ensures 0 <= tiles[i].left < tiles[i].right <= g.width && 0 <= tiles[i].top < tiles[i].bottom <= g.height
    {
      GridCellOfIndex(i, colCount, rowCount);
      TileBoxInImage(g, colCount, rowCount, i % colCount, i / colCount);
    }
  }

  /** Every planned box lies inside the image and is non-empty. */
  lemma {:induction false} TilesWithinImage(width: nat, height: nat, tileWidth: int, tileHeight: int,
                                            strideHorizontal: int, strideVertical: int)
    requires Build(width, height, tileWidth, tileHeight, strideHorizontal, strideVertical).Ok?
    ensures var s := Build(width, height, tileWidth, tileHeight, strideHorizontal, strideVertical).value;
            forall b :: b in s.tileList ==>
              0 <= b.left < b.right <= width && 0 <= b.top < b.bottom <= height
  {
    var s := Build(width, height, tileWidth, tileHeight, strideHorizontal, strideVertical).value;
    var g := Geometry(width, height, tileWidth, tileHeight, strideHorizontal, strideVertical);
    BuildTiles(width, height, tileWidth, tileHeight, strideHorizontal, strideVertical);
    if s.colCount > 0 && s.rowCount > 0 {
      // a non-empty grid over a non-empty image means both strides are positive
      assert strideHorizontal > 0 && strideVertical > 0;
      TileListInImage(g, s.colCount, s.rowCount);
    }
  }

  /** Pixel `(px, py)` of the image lies in the box of column
      `px / strideHorizontal`, row `py / strideVertical`. */
  lemma {:induction false} TileBoxHoldsPixel(g: Geometry, px: int, py: int)
    requires 0 < g.strideHorizontal <= g.tileWidth && 0 < g.strideVertical <= g.tileHeight
    requires 0 <= px < g.width && 0 <= py < g.height
    ensures InBox(TileBox(g, px / g.strideHorizontal, py / g.strideVertical), px, py)
  {
    DivBounds(px, g.strideHorizontal);
    DivBounds(py, g.strideVertical);
  }

  /** The column (row) of a pixel is one of the `CeilDiv(size, stride)`
      columns (rows). */
  lemma {:induction false} PixelCellInGrid(p: int, size: int, stride: int)
    requires stride > 0 && 0 <= p < size
    ensures 0 <= p / stride < CeilDiv(size, stride)
  {
    var n := CeilDiv(size, stride);
    DivBounds(p, stride);
    if p / stride >= n {
      MulMonotone(n, p / stride, stride);
    }
  }

  /** With positive strides no larger than the tiles, every pixel of the
      image lies in some box. */
  lemma {:induction false} TilesCoverImage(width: nat, height: nat, tileWidth: int, tileHeight: int,
                                           strideHorizontal: int, strideVertical: int, px: int, py: int)
    requires Build(width, height, tileWidth, tileHeight, strideHorizontal, strideVertical).Ok?
    requires strideHorizontal > 0 && strideVertical > 0
    requires 0 <= px < width && 0 <= py < height
    ensures var s := Build(width, height, tileWidth, tileHeight, strideHorizontal, strideVertical).value;
            exists i :: 0 <= i < |s.tileList| && InBox(s.tileList[i], px, py)
  {
    var s := Build(width, height, tileWidth, tileHeight, strideHorizontal, strideVertical).value;
    var g := Geometry(width, height, tileWidth, tileHeight, strideHorizontal, strideVertical);
    var x, y := px / strideHorizontal, py / strideVertical;
    PixelCellInGrid(px, width, strideHorizontal);
    PixelCellInGrid(py, height, strideVertical);
    TileAt(width, height, tileWidth, tileHeight, strideHorizontal, strideVertical, x, y);
    TileBoxHoldsPixel(g, px, py);
    var i := y * s.colCount + x;
    assert InBox(s.tileList[i], px, py);
  }

  /** A negative stride passes every check of `build` and yields an empty
      grid: the ceiling of a positive size over a negative stride is not
      positive, so the loops never run. */
  lemma NegativeStrideGivesNoTiles(width: nat, height: nat, tileWidth: int, tileHeight: int,
                                   strideHorizontal: int, strideVertical: int)
    requires ValidGeometry(Geometry(width, height, tileWidth, tileHeight, strideHorizontal, strideVertical))
    requires strideHorizontal < 0 || strideVertical < 0
    ensures var r := Build(width, height, tileWidth, tileHeight, strideHorizontal, strideVertical);
            r.Ok? && r.value.tileList == []
  {
  }

  /** Unset strides default to the tile size, so the stride checks always
      pass and the grid is accepted exactly when the image is strictly
      larger than a non-zero tile on both axes. */
  lemma UnsetStridesDefaultToTileSize(width: nat, height: nat, flags: Flags)
    requires flags.strideHorizontal.None? && flags.strideVertical.None?
    ensures var r := BuildFromFlags(width, height, flags);
            && r != Err(StrideHorizontalTooLarge) && r != Err(StrideVerticalTooLarge)
            && (r.Ok? <==> width > flags.tileWidth && height > flags.tileHeight
                           && flags.tileWidth != 0 && flags.tileHeight != 0)
            && (r.Ok? ==> r.value.colCount == CeilDiv(width, flags.tileWidth)
                          && r.value.rowCount == CeilDiv(height, flags.tileHeight))
  {
  }

  /** With the default flags, neighbouring boxes of a row abut: each box
      ends where the next one starts. */
  lemma {:induction false} DefaultTilesAbut(width: nat, height: nat, x: int, y: int)
    requires width > DEFAULT_TILE_SIZE && height > DEFAULT_TILE_SIZE
    ensures var r := BuildFromFlags(width, height, DEFAULT_FLAGS);
            && r.Ok?
            && (0 <= x && x + 1 < r.value.colCount && 0 <= y < r.value.rowCount ==>
                  var i := y * r.value.colCount + x;
                  i + 1 < |r.value.tileList| && r.value.tileList[i].right == r.value.tileList[i + 1].left)
  {
    var d := DEFAULT_TILE_SIZE;
    var r := BuildFromFlags(width, height, DEFAULT_FLAGS);
    assert r == Build(width, height, d, d, d, d);
    var s := r.value;
    if 0 <= x && x + 1 < s.colCount && 0 <= y < s.rowCount {
      var cols := s.colCount;
      TileAt(width, height, d, d, d, d, x, y);
      TileAt(width, height, d, d, d, d, x + 1, y);
      var i := y * cols + x;
      // column x + 1 starts inside the image, so column x is not clamped
      assert (x + 1) * d < width;
      assert s.tileList[i].right == s.tileList[i + 1].left;
    }
  }

  /** A 600 x 400 image in 256-pixel tiles: three columns, two rows, the
      last column and row clamped. */
  lemma ScenarioClamped()
    ensures var r := Build(600, 400, 256, 256, 256, 256);
            && r.Ok? && r.value.colCount == 3 && r.value.rowCount == 2
            && |r.value.tileList| == 6
            && r.value.tileList[0] == Box(0, 0, 256, 256)
            && r.value.tileList[2] == Box(512, 0, 600, 256)
            && r.value.tileList[5] == Box(512, 256, 600, 400)
  {
  }

  /** Overlapping tiles: 100-pixel tiles every 50 pixels over 300 x 300. */
  lemma ScenarioOverlap()
    ensures var r := Build(300, 300, 100, 100, 50, 50);
            && r.Ok? && r.value.colCount == 6 && r.value.rowCount == 6
            && r.value.tileList[0] == Box(0, 0, 100, 100)
            && r.value.tileList[1] == Box(50, 0, 150, 100)
  {
  }
}

=== FILE: tiled_source.dfy ===
/** `TiledSource.build`: the grid of tiles the viewer fetches for a large
    image. Sizes and strides are Float in the source and exact reals here;
    the grid shape is the ceiling of size over stride. Unlike the tiling
    script, a tile exactly as large as the image is accepted. */
module TiledSources {
  import opened Numerics
  import opened Wrappers
  import opened Rectangles
  import TiledBitmapMaker

  /** One tile: its list index, its column `x` and row `y`, and its
      rectangle in source coordinates. */
  datatype Tile = Tile(index: int, x: int, y: int, position: Rectangle)

  datatype TiledSource = TiledSource(
    sourceWidth: real,
    sourceHeight: real,
    tileWidth: real,
    tileHeight: real,
    strideHorizontal: real,
    strideVertical: real,
    colCount: int,
    rowCount: int,
    tileList: seq<Tile>)

  /** The `IllegalArgumentException`s of `build`, in the order they are checked. */
  datatype BuildError =
    | TileWidthTooLarge
    | TileHeightTooLarge
    | StrideHorizontalTooLarge
    | StrideVerticalTooLarge

  datatype Geometry = Geometry(
    sourceWidth: real,
    sourceHeight: real,
    tileWidth: real,
    tileHeight: real,
    strideHorizontal: real,
    strideVertical: real)

  /** The rectangle of column `x`, row `y`, clamped to the source. */
  function TilePosition(g: Geometry, x: int, y: int): Rectangle
  {
    var left := x as real * g.strideHorizontal;
    var top := y as real * g.strideVertical;
    Rectangle(left, top, Min(left + g.tileWidth, g.sourceWidth), Min(top + g.tileHeight, g.sourceHeight))
  }

  /** Reference definition of the tile list: entry `i` is column `i % colCount`,
      row `i / colCount`, numbered `i`. */
  function TileList(g: Geometry, colCount: int, rowCount: int): seq<Tile>
  {
    if colCount <= 0 || rowCount <= 0 then []
    else seq(rowCount * colCount, i requires 0 <= i < rowCount * colCount =>
               Tile(i, i % colCount, i / colCount, TilePosition(g, i % colCount, i / colCount)))
  }

  predicate Accepted(g: Geometry)
  {
    && g.sourceWidth >= g.tileWidth
    && g.sourceHeight >= g.tileHeight
    && g.strideHorizontal <= g.tileWidth
    && g.strideVertical <= g.tileHeight
  }

  /** `TiledSource.build`. */
  function Build(sourceWidth: real, sourceHeight: real, tileWidth: real, tileHeight: real,
                 strideHorizontal: real, strideVertical: real): (r: Result<TiledSource, BuildError>)
    requires strideHorizontal != 0.0 && strideVertical != 0.0
    ensures r.Err? <==> !Accepted(Geometry(sourceWidth, sourceHeight, tileWidth, tileHeight, strideHorizontal, strideVertical))
    ensures r == Err(TileWidthTooLarge) <==> sourceWidth < tileWidth
    ensures r == Err(TileHeightTooLarge) <==> sourceWidth >= tileWidth && sourceHeight < tileHeight
    ensures r == Err(StrideHorizontalTooLarge) <==>
              sourceWidth >= tileWidth && sourceHeight >= tileHeight && strideHorizontal > tileWidth
    ensures r == Err(StrideVerticalTooLarge) <==>
              sourceWidth >= tileWidth && sourceHeight >= tileHeight && strideHorizontal <= tileWidth
              && strideVertical > tileHeight
    ensures r.Ok? ==>
              && r.value.sourceWidth == sourceWidth && r.value.sourceHeight == sourceHeight
              && r.value.tileWidth == tileWidth && r.value.tileHeight == tileHeight
              && r.value.strideHorizontal == strideHorizontal && r.value.strideVertical == strideVertical
              && r.value.colCount == Ceil(sourceWidth / strideHorizontal)
              && r.value.rowCount == Ceil(sourceHeight / strideVertical)
              && |r.value.tileList| ==
                 (if r.value.colCount > 0 && r.value.rowCount > 0
                  then r.value.colCount * r.value.rowCount else 0)
  {
    if sourceWidth < tileWidth then Err(TileWidthTooLarge)
    else if sourceHeight < tileHeight then Err(TileHeightTooLarge)
    else if strideHorizontal > tileWidth then Err(StrideHorizontalTooLarge)
    else if strideVertical > tileHeight then Err(StrideVerticalTooLarge)
    else
      var g := Geometry(sourceWidth, sourceHeight, tileWidth, tileHeight, strideHorizontal, strideVertical);
      var colCount := Ceil(sourceWidth / strideHorizontal);
      var rowCount := Ceil(sourceHeight / strideVertical);
      Ok(TiledSource(sourceWidth, sourceHeight, tileWidth, tileHeight, strideHorizontal, strideVertical,
                     colCount, rowCount, TileList(g, colCount, rowCount)))
  }

  /** `build` with its default arguments: strides equal to the tile size. */
  function BuildWithDefaultStrides(sourceWidth: real, sourceHeight: real, tileWidth: real, tileHeight: real)
    : Result<TiledSource, BuildError>
    requires tileWidth != 0.0 && tileHeight != 0.0
  {
    Build(sourceWidth, sourceHeight, tileWidth, tileHeight, tileWidth, tileHeight)
  }

  /** The nested loops of `build` with the running `index` counter compute
      the reference tile list. */
  method BuildTileList(g: Geometry, colCount: int, rowCount: int) returns (tiles: seq<Tile>)
    ensures tiles == TileList(g, colCount, rowCount)
  {
    tiles := [];
    var index := 0;
    var y := 0;
    while y < rowCount
      invariant 0 <= y
      invariant rowCount > 0 ==> y <= rowCount
      invariant rowCount <= 0 ==> y == 0
      invariant index == |tiles|
      invariant colCount <= 0 ==> tiles == []
      invariant colCount > 0 ==> |tiles| == y * colCount
      invariant colCount > 0 ==>
                  forall i :: 0 <= i < |tiles| ==>
                    tiles[i] == Tile(i, i % colCount, i / colCount, TilePosition(g, i % colCount, i / colCount))
    {
      var x := 0;
      while x < colCount
        invariant 0 <= x
        invariant colCount > 0 ==> x <= colCount
        invariant index == |tiles|
        invariant colCount <= 0 ==> tiles == []
        invariant colCount > 0 ==> |tiles| == y * colCount + x
        invariant colCount > 0 ==>
                    forall i :: 0 <= i < |tiles| ==>
                      tiles[i] == Tile(i, i % colCount, i / colCount, TilePosition(g, i % colCount, i / colCount))
      {
        RowMajorDivMod(x, y, colCount);
        tiles := tiles + [Tile(index, x, y, TilePosition(g, x, y))];
        index := index + 1;
        x := x + 1;
      }
      y := y + 1;
    }
    if colCount > 0 && rowCount > 0 {
      var spec := TileList(g, colCount, rowCount);
      assert |tiles| == |spec|;
      assert forall i :: 0 <= i < |tiles| ==> tiles[i] == spec[i];
    }
  }

  /** Every tile knows its place: `tileList[i]` has index `i`, and its column
      `x` and row `y` satisfy `i == y * colCount + x` inside the grid. */
  lemma {:induction false} TilesNumberedRowMajor(sourceWidth: real, sourceHeight: real, tileWidth: real,
                                                 tileHeight: real, strideHorizontal: real, strideVertical: real)
    requires strideHorizontal != 0.0 && strideVertical != 0.0
    requires Build(sourceWidth, sourceHeight, tileWidth, tileHeight, strideHorizontal, strideVertical).Ok?
    ensures var s := Build(sourceWidth, sourceHeight, tileWidth, tileHeight, strideHorizontal, strideVertical).value;
            forall i :: 0 <= i < |s.tileList| ==>
              && s.tileList[i].index == i
              && 0 <= s.tileList[i].x < s.colCount && 0 <= s.tileList[i].y < s.rowCount
              && s.tileList[i].y * s.colCount + s.tileList[i].x == i
  {
    var s := Build(sourceWidth, sourceHeight, tileWidth, tileHeight, strideHorizontal, strideVertical).value;
    var cols, rows := s.colCount, s.rowCount;
    forall i | 0 <= i < |s.tileList|
      ensures && s.tileList[i].index == i
              && 0 <= s.tileList[i].x < cols && 0 <= s.tileList[i].y < rows
              && s.tileList[i].y * cols + s.tileList[i].x == i
    {
      DivBounds(i, cols);
      var y := i / cols;
      if y >= rows {
        MulMonotone(rows, y, cols);
      }
      assert i == y * cols + i % cols;
    }
  }

  /** Tile `(x, y)` sits at list position `y * colCount + x` and starts at
      `(x * strideHorizontal, y * strideVertical)`, its far edges clamped
      to the source. */
  lemma TileAt(g: Geometry, x: int, y: int)
    requires g.strideHorizontal != 0.0 && g.strideVertical != 0.0
    requires Build(g.sourceWidth, g.sourceHeight, g.tileWidth, g.tileHeight, g.strideHorizontal, g.strideVertical).Ok?
    requires var s := Build(g.sourceWidth, g.sourceHeight, g.tileWidth, g.tileHeight, g.strideHorizontal, g.strideVertical).value;
             0 <= x < s.colCount && 0 <= y < s.rowCount
    ensures var s := Build(g.sourceWidth, g.sourceHeight, g.tileWidth, g.tileHeight, g.strideHorizontal, g.strideVertical).value;
            var left := x as real * g.strideHorizontal;
            var top := y as real * g.strideVertical;
            && y * s.colCount + x < |s.tileList|
            && s.tileList[y * s.colCount + x] ==
               Tile(y * s.colCount + x, x, y,
                    Rectangle(left, top, Min(left + g.tileWidth, g.sourceWidth), Min(top + g.tileHeight, g.sourceHeight)))
  {
    BuildTiles(g);
    TileOfList(g, Build(g.sourceWidth, g.sourceHeight, g.tileWidth, g.tileHeight, g.strideHorizontal, g.strideVertical).value, x, y);
  }

  lemma TileOfList(g: Geometry, s: TiledSource, x: int, y: int)
    requires s.tileList == TileList(g, s.colCount, s.rowCount)
    requires 0 <= x < s.colCount && 0 <= y < s.rowCount
    ensures var left := x as real * g.strideHorizontal;
            var top := y as real * g.strideVertical;
            && y * s.colCount + x < |s.tileList|
            && s.tileList[y * s.colCount + x] ==
               Tile(y * s.colCount + x, x, y,
                    Rectangle(left, top, Min(left + g.tileWidth, g.sourceWidth), Min(top + g.tileHeight, g.sourceHeight)))
  {
    TileListAt(g, s.colCount, s.rowCount, x, y);
  }

  /** An accepted build holds exactly the reference tile list. */
  lemma BuildTiles(g: Geometry)
    requires g.strideHorizontal != 0.0 && g.strideVertical != 0.0
    requires Build(g.sourceWidth, g.sourceHeight, g.tileWidth, g.tileHeight, g.strideHorizontal, g.strideVertical).Ok?
    ensures var s := Build(g.sourceWidth, g.sourceHeight, g.tileWidth, g.tileHeight, g.strideHorizontal, g.strideVertical).value;
            s.tileList == TileList(g, s.colCount, s.rowCount)
  {
  }

  lemma TileListAt(g: Geometry, cols: int, rows: int, x: int, y: int)
    requires 0 <= x < cols && 0 <= y < rows
    ensures y * cols + x < |TileList(g, cols, rows)|
    ensures TileList(g, cols, rows)[y * cols + x] == Tile(y * cols + x, x, y, TilePosition(g, x, y))
  {
    RowMajorDivMod(x, y, cols);
    GridIndexInRange(x, y, cols, rows);
  }

  /** Along one axis: a column below `Ceil(size / stride)` starts inside
      the source. */
  lemma StartInside(x: int, size: real, stride: real)
    requires stride > 0.0 && 0 <= x < Ceil(size / stride)
    ensures 0.0 <= x as real * stride < size
  {
    MulMonotoneReal(0.0, x as real, stride);
    MulStrictReal(x as real, size / stride, stride);
    assert (size / stride) * stride == size;
  }

  /** Along one axis: the slot `Floor(p / stride)` covers coordinate `p`. */
  lemma SlotCovers(p: real, size: real, tile: real, stride: real) returns (x: int)
    requires 0.0 < stride <= tile && 0.0 <= p < size
    ensures 0 <= x < Ceil(size / stride)
    ensures x as real * stride <= p < Min(x as real * stride + tile, size)
  {
    x := Floor(p / stride);
    assert (p / stride) * stride == p;
    assert (x as real + 1.0) * stride == x as real * stride + stride;
    MulMonotoneReal(x as real, p / stride, stride);
    MulStrictReal(p / stride, x as real + 1.0, stride);
    MulMonotoneReal(0.0, p / stride, stride);
    MulStrictReal(p / stride, size / stride, stride);
    assert (size / stride) * stride == size;
    assert p < x as real * stride + stride;
    assert p < x as real * stride + tile;
  }

  /** Entry `i` of the reference list is column `i % cols`, row `i / cols`,
      both inside the grid. */
  lemma TileListEntry(g: Geometry, cols: int, rows: int, i: int)
    requires 0 <= i < |TileList(g, cols, rows)|
    ensures 0 <= i % cols < cols && 0 <= i / cols < rows
    ensures TileList(g, cols, rows)[i] == Tile(i, i % cols, i / cols, TilePosition(g, i % cols, i / cols))
  {
    DivBounds(i, cols);
    if i / cols >= rows {
      MulMonotone(rows, i / cols, cols);
    }
  }

  /** A cell of the grid `build` computes is a non-empty rectangle inside
      the source. */
  lemma CellInside(g: Geometry, x: int, y: int)
    requires 0.0 < g.strideHorizontal <= g.tileWidth && 0.0 < g.strideVertical <= g.tileHeight
    requires 0 <= x < Ceil(g.sourceWidth / g.strideHorizontal) && 0 <= y < Ceil(g.sourceHeight / g.strideVertical)
    ensures var r := TilePosition(g, x, y);
            && 0.0 <= r.left < r.right <= g.sourceWidth
            && 0.0 <= r.top < r.bottom <= g.sourceHeight
  {
    StartInside(x, g.sourceWidth, g.strideHorizontal);
    StartInside(y, g.sourceHeight, g.strideVertical);
  }

  /** Over the grid shape `build` computes, every reference tile is a
      non-empty rectangle inside the source. */
  lemma TileListWithinSource(g: Geometry, cols: int, rows: int)
    requires 0.0 < g.strideHorizontal <= g.tileWidth && 0.0 < g.strideVertical <= g.tileHeight
    requires cols == Ceil(g.sourceWidth / g.strideHorizontal) && rows == Ceil(g.sourceHeight / g.strideVertical)
    ensures forall t :: t in TileList(g, cols, rows) ==>
              && 0.0 <= t.position.left < t.position.right <= g.sourceWidth
              && 0.0 <= t.position.top < t.position.bottom <= g.sourceHeight
  {
    var tiles := TileList(g, cols, rows);
    forall t | t in tiles
      ensures && 0.0 <= t.position.left < t.position.right <= g.sourceWidth
              && 0.0 <= t.position.top < t.position.bottom <= g.sourceHeight
    {
      var i :| 0 <= i < |tiles| && tiles[i] == t;
      TileListEntry(g, cols, rows, i);
      CellInside(g, i % cols, i / cols);
    }
  }

  /** With positive strides every tile is a non-empty rectangle inside the
      source. */
  lemma TilesWithinSource(g: Geometry)
    requires g.strideHorizontal > 0.0 && g.strideVertical > 0.0
    requires Build(g.sourceWidth, g.sourceHeight, g.tileWidth, g.tileHeight, g.strideHorizontal, g.strideVertical).Ok?
    ensures var s := Build(g.sourceWidth, g.sourceHeight, g.tileWidth, g.tileHeight, g.strideHorizontal, g.strideVertical).value;
            forall t :: t in s.tileList ==>
              && 0.0 <= t.position.left < t.position.right <= g.sourceWidth
              && 0.0 <= t.position.top < t.position.bottom <= g.sourceHeight
  {
    var s := Build(g.sourceWidth, g.sourceHeight, g.tileWidth, g.tileHeight, g.strideHorizontal, g.strideVertical).value;
    BuildTiles(g);
    TileListWithinSource(g, s.colCount, s.rowCount);
  }

  /** The cell holding a point of the source. */
  lemma CellCovers(g: Geometry, px: real, py: real) returns (x: int, y: int)
    requires 0.0 < g.strideHorizontal <= g.tileWidth && 0.0 < g.strideVertical <= g.tileHeight
    requires 0.0 <= px < g.sourceWidth && 0.0 <= py < g.sourceHeight
    ensures 0 <= x < Ceil(g.sourceWidth / g.strideHorizontal) && 0 <= y < Ceil(g.sourceHeight / g.strideVertical)
    ensures var r := TilePosition(g, x, y);
            r.left <= px < r.right && r.top <= py < r.bottom
  {
    x := SlotCovers(px, g.sourceWidth, g.tileWidth, g.strideHorizontal);
    y := SlotCovers(py, g.sourceHeight, g.tileHeight, g.strideVertical);
  }

  /** Over the grid shape `build` computes, every point of the source lies
      in some reference tile. */
  lemma TileListCoversSource(g: Geometry, cols: int, rows: int, px: real, py: real)
    requires 0.0 < g.strideHorizontal <= g.tileWidth && 0.0 < g.strideVertical <= g.tileHeight
    requires cols == Ceil(g.sourceWidth / g.strideHorizontal) && rows == Ceil(g.sourceHeight / g.strideVertical)
    requires 0.0 <= px < g.sourceWidth && 0.0 <= py < g.sourceHeight
    ensures exists t :: t in TileList(g, cols, rows) &&
              t.position.left <= px < t.position.right && t.position.top <= py < t.position.bottom
  {
    var x, y := CellCovers(g, px, py);
    TileListAt(g, cols, rows, x, y);
    assert TileList(g, cols, rows)[y * cols + x] in TileList(g, cols, rows);
  }

  /** With positive strides every point of the source lies in some tile,
      counting left and top edges in and right and bottom edges out. */
  lemma TilesCoverSource(g: Geometry, px: real, py: real)
    requires g.strideHorizontal > 0.0 && g.strideVertical > 0.0
    requires Build(g.sourceWidth, g.sourceHeight, g.tileWidth, g.tileHeight, g.strideHorizontal, g.strideVertical).Ok?
    requires 0.0 <= px < g.sourceWidth && 0.0 <= py < g.sourceHeight
    ensures var s := Build(g.sourceWidth, g.sourceHeight, g.tileWidth, g.tileHeight, g.strideHorizontal, g.strideVertical).value;
            exists t :: t in s.tileList &&
              t.position.left <= px < t.position.right && t.position.top <= py < t.position.bottom
  {
    var s := Build(g.sourceWidth, g.sourceHeight, g.tileWidth, g.tileHeight, g.strideHorizontal, g.strideVertical).value;
    BuildTiles(g);
    TileListCoversSource(g, s.colCount, s.rowCount, px, py);
  }

  /** The ceiling of an exact quotient of integers is the integer ceiling
      division of the tiling script. */
  lemma CeilOfRatio(n: int, d: int)
    requires d > 0
    ensures Ceil(n as real / d as real) == CeilDiv(n, d)
  {
    var q := CeilDiv(n, d);
    assert ((q - 1) * d) as real == (q - 1) as real * d as real;
    assert (q * d) as real == q as real * d as real;
    MulStrictReal((q - 1) as real, n as real / d as real, d as real) by {
      if (q - 1) as real >= n as real / d as real {
        MulMonotoneReal(n as real / d as real, (q - 1) as real, d as real);
      }
    }
    if q as real < n as real / d as real {
      MulStrictReal(q as real, n as real / d as real, d as real);
    }
  }

  /** The viewer geometry of an integer script geometry. */
  function FromScript(pg: TiledBitmapMaker.Geometry): (g: Geometry)
    ensures g.strideHorizontal == pg.strideHorizontal as real && g.strideVertical == pg.strideVertical as real
  {
    Geometry(pg.width as real, pg.height as real, pg.tileWidth as real, pg.tileHeight as real,
             pg.strideHorizontal as real, pg.strideVertical as real)
  }

  /** The rectangle of a script crop box. */
  function BoxRectangle(b: TiledBitmapMaker.Box): Rectangle
  {
    Rectangle(b.left as real, b.top as real, b.right as real, b.bottom as real)
  }

  lemma CellAgrees(pg: TiledBitmapMaker.Geometry, x: int, y: int)
    ensures TilePosition(FromScript(pg), x, y) == BoxRectangle(TiledBitmapMaker.TileBox(pg, x, y))
  {
    assert (x * pg.strideHorizontal) as real == x as real * pg.strideHorizontal as real;
    assert (y * pg.strideVertical) as real == y as real * pg.strideVertical as real;
  }

  lemma TileListAgrees(pg: TiledBitmapMaker.Geometry, cols: int, rows: int)
    ensures |TileList(FromScript(pg), cols, rows)| == |TiledBitmapMaker.TileList(pg, cols, rows)|
    ensures forall i :: 0 <= i < |TiledBitmapMaker.TileList(pg, cols, rows)| ==>
              TileList(FromScript(pg), cols, rows)[i].position == BoxRectangle(TiledBitmapMaker.TileList(pg, cols, rows)[i])
  {
    forall i | 0 <= i < |TiledBitmapMaker.TileList(pg, cols, rows)|
      ensures TileList(FromScript(pg), cols, rows)[i].position == BoxRectangle(TiledBitmapMaker.TileList(pg, cols, rows)[i])
    {
      CellAgrees(pg, i % cols, i / cols);
    }
  }

  /** For integer sizes with positive strides that the tiling script
      accepts, the viewer accepts them too and plans the same grid: the
      same shape and, tile by tile, the same rectangle. */
  lemma AgreesWithTilingScript(width: nat, height: nat, tileWidth: int, tileHeight: int,
                               strideHorizontal: int, strideVertical: int)
    requires strideHorizontal > 0 && strideVertical > 0
    requires TiledBitmapMaker.Build(width, height, tileWidth, tileHeight, strideHorizontal, strideVertical).Ok?
    ensures var p := TiledBitmapMaker.Build(width, height, tileWidth, tileHeight, strideHorizontal, strideVertical).value;
            var k := Build(width as real, height as real, tileWidth as real, tileHeight as real,
                           strideHorizontal as real, strideVertical as real);
            && k.Ok?
            && k.value.colCount == p.colCount && k.value.rowCount == p.rowCount
            && |k.value.tileList| == |p.tileList|
            && forall i :: 0 <= i < |p.tileList| ==>
                 k.value.tileList[i].position == BoxRectangle(p.tileList[i])
  {
    var pg := TiledBitmapMaker.Geometry(width, height, tileWidth, tileHeight, strideHorizontal, strideVertical);
    var g := FromScript(pg);
    TiledBitmapMaker.BuildTiles(width, height, tileWidth, tileHeight, strideHorizontal, strideVertical);
    CeilOfRatio(width, strideHorizontal);
    CeilOfRatio(height, strideVertical);
    assert Build(g.sourceWidth, g.sourceHeight, g.tileWidth, g.tileHeight, g.strideHorizontal, g.strideVertical).Ok?;
    BuildTiles(g);
    var p := TiledBitmapMaker.Build(width, height, tileWidth, tileHeight, strideHorizontal, strideVertical).value;
    TileListAgrees(pg, p.colCount, p.rowCount);
  }

  /** Where the two builds differ: a tile as large as the whole source is
      accepted here and refused by the tiling script. */
  lemma WholeSourceTileAccepted(size: nat)
    requires size > 0
    ensures Build(size as real, size as real, size as real, size as real, size as real, size as real).Ok?
    ensures TiledBitmapMaker.Build(size, size, size, size, size, size) == Err(TiledBitmapMaker.TileWidthNotSmaller)
  {
  }
}

=== FILE: view_context.dfy ===
/** `ViewContext`: the viewer's camera. `currentX`/`currentY` is the global
    position of the view's top-left corner and `currentScale` its zoom; the
    viewport is the global rectangle the view shows, `viewWidth / scale`
    wide. A scroll area, when given, pulls the viewport back inside it on
    every axis whose scroll policy is strict. */
module ViewContexts {
  import opened Numerics
  import opened Wrappers
  import opened Rectangles

  const SCROLL_POLICY_UNLIMITED: int := 0
  const SCROLL_POLICY_STRICT_SCROLL_AREA: int := 1

  datatype ViewContext = ViewContext(
    viewWidth: real,
    viewHeight: real,
    currentX: real,
    currentY: real,
    currentScale: real,
    viewport: Rectangle,
    minScale: real,
    maxScale: real,
    scrollPolicyHorizontal: int,
    scrollPolicyVertical: int)
  {
    /** `viewportWidth`: the global width the view shows at this scale. */
    function ViewportWidth(): real
      requires currentScale != 0.0
    {
      viewWidth / currentScale
    }

    function ViewportHeight(): real
      requires currentScale != 0.0
    {
      viewHeight / currentScale
    }
  }

  /** A fresh context with the constructor's defaults. */
  function Initial(): (vc: ViewContext)
    ensures vc.currentScale == 1.0 && vc.minScale == 1.0 && vc.maxScale == 5.0
    ensures vc.viewport == Rectangle(0.0, 0.0, vc.viewWidth, vc.viewHeight)
    ensures vc.scrollPolicyHorizontal == SCROLL_POLICY_UNLIMITED
    ensures vc.scrollPolicyVertical == SCROLL_POLICY_UNLIMITED
  {
    ViewContext(0.0, 0.0, 0.0, 0.0, 1.0, Rectangle(0.0, 0.0, 0.0, 0.0), 1.0, 5.0,
                SCROLL_POLICY_UNLIMITED, SCROLL_POLICY_UNLIMITED)
  }

  /** The viewport matches the position and scale, as `applyViewport`
      leaves it. */
  predicate Applied(vc: ViewContext)
  {
    && vc.currentScale != 0.0
    && vc.viewport == Rectangle(vc.currentX, vc.currentY,
                                vc.currentX + vc.ViewportWidth(), vc.currentY + vc.ViewportHeight())
  }

  /** `setViewSize`: the view size changes and the viewport is reset to the
      view at the origin, whatever the position and scale. */
  function SetViewSize(vc: ViewContext, w: int, h: int): (r: ViewContext)
    ensures r.viewWidth == w as real && r.viewHeight == h as real
    ensures r.viewport == Rectangle(0.0, 0.0, w as real, h as real)
    ensures r.(viewWidth := vc.viewWidth, viewHeight := vc.viewHeight, viewport := vc.viewport) == vc
  {
    vc.(viewWidth := w as real, viewHeight := h as real, viewport := Rectangle(0.0, 0.0, w as real, h as real))
  }

  /** `setScrollableAxis`. */
  function SetScrollableAxis(vc: ViewContext, horizontal: int, vertical: int): (r: ViewContext)
    ensures r.scrollPolicyHorizontal == horizontal && r.scrollPolicyVertical == vertical
    ensures r.(scrollPolicyHorizontal := vc.scrollPolicyHorizontal, scrollPolicyVertical := vc.scrollPolicyVertical) == vc
  {
    vc.(scrollPolicyHorizontal := horizontal, scrollPolicyVertical := vertical)
  }

  /** Ranks `applyViewport`, `offsetTo` and `offset` for the calls between
      them: a call either drops the scroll area or moves to a lower rank. */
  function CallRank(area: Option<Rectangle>): nat
  {
    if area.Some? then 1 else 0
  }

  /** `applyViewport`: place the viewport at the current position, then,
      with a scroll area, correct the horizontal and then the vertical axis
      under a strict policy by an `offset` that carries no scroll area. */
  function ApplyViewport(vc: ViewContext, area: Option<Rectangle>): (r: ViewContext)
    requires vc.currentScale != 0.0
    ensures r.currentScale == vc.currentScale && r.viewWidth == vc.viewWidth && r.viewHeight == vc.viewHeight
    ensures r.minScale == vc.minScale && r.maxScale == vc.maxScale
    ensures r.scrollPolicyHorizontal == vc.scrollPolicyHorizontal
    ensures r.scrollPolicyVertical == vc.scrollPolicyVertical
    ensures Applied(r)
    ensures area.None? ==> r.currentX == vc.currentX && r.currentY == vc.currentY
    decreases CallRank(area), 0
  {
    var placed := vc.(viewport := Rectangle(vc.currentX, vc.currentY,
                                            vc.currentX + vc.ViewportWidth(), vc.currentY + vc.ViewportHeight()));
    match area
    case None => placed
    case Some(a) =>
      var h :=
        if placed.scrollPolicyHorizontal == SCROLL_POLICY_STRICT_SCROLL_AREA then
          if placed.viewport.left < a.left then Offset(placed, a.left - placed.viewport.left, 0.0, None, true)
          else if placed.viewport.right > a.right then Offset(placed, a.right - placed.viewport.right, 0.0, None, true)
          else placed
        else placed;
      if h.scrollPolicyVertical == SCROLL_POLICY_STRICT_SCROLL_AREA then
        if h.viewport.top < a.top then Offset(h, 0.0, a.top - h.viewport.top, None, true)
        else if h.viewport.bottom > a.bottom then Offset(h, 0.0, a.bottom - h.viewport.bottom, None, true)
        else h
      else h
  }

  /** `offsetTo`: move to `(x, y)`; the viewport follows only when applied
      immediately. */
  function OffsetTo(vc: ViewContext, x: real, y: real, area: Option<Rectangle>, applyImmediately: bool): (r: ViewContext)
    requires vc.currentScale != 0.0
    ensures r.currentScale == vc.currentScale && r.viewWidth == vc.viewWidth && r.viewHeight == vc.viewHeight
    ensures r.minScale == vc.minScale && r.maxScale == vc.maxScale
    ensures r.scrollPolicyHorizontal == vc.scrollPolicyHorizontal
    ensures r.scrollPolicyVertical == vc.scrollPolicyVertical
    ensures !applyImmediately ==> r == vc.(currentX := x, currentY := y)
    ensures applyImmediately ==> Applied(r)
    ensures applyImmediately && area.None? ==>
              r.viewport == Rectangle(x, y, x + vc.ViewportWidth(), y + vc.ViewportHeight())
    decreases CallRank(area), 1
  {
    var moved := vc.(currentX := x, currentY := y);
    if applyImmediately then ApplyViewport(moved, area) else moved
  }

  /** `offset`: move by `(offsetX, offsetY)`. */
  function Offset(vc: ViewContext, offsetX: real, offsetY: real, area: Option<Rectangle>, applyImmediately: bool)
    : (r: ViewContext)
    requires vc.currentScale != 0.0
    ensures r.currentScale == vc.currentScale && r.viewWidth == vc.viewWidth && r.viewHeight == vc.viewHeight
    ensures r.minScale == vc.minScale && r.maxScale == vc.maxScale
    ensures r.scrollPolicyHorizontal == vc.scrollPolicyHorizontal
    ensures r.scrollPolicyVertical == vc.scrollPolicyVertical
    ensures !applyImmediately ==> r == vc.(currentX := vc.currentX + offsetX, currentY := vc.currentY + offsetY)
    ensures applyImmediately ==> Applied(r)
    ensures applyImmediately && area.None? ==>
              && r.currentX == vc.currentX + offsetX && r.currentY == vc.currentY + offsetY
    decreases CallRank(area), 2
  {
    OffsetTo(vc, vc.currentX + offsetX, vc.currentY + offsetY, area, applyImmediately)
  }

  /** `scroll` is `offset` under another name. */
  function Scroll(vc: ViewContext, distanceX: real, distanceY: real, area: Option<Rectangle>, applyImmediately: bool)
    : ViewContext
    requires vc.currentScale != 0.0
  {
    Offset(vc, distanceX, distanceY, area, applyImmediately)
  }

  /** The scale `scaleTo` settles on: `max(min(scale, maxScale), minScale)`. */
  function ClampScale(vc: ViewContext, scale: real): (s: real)
    ensures s >= vc.minScale
    ensures vc.minScale <= vc.maxScale ==> s <= vc.maxScale
    ensures vc.minScale <= scale <= vc.maxScale ==> s == scale
  {
    Max(Min(scale, vc.maxScale), vc.minScale)
  }

  /** Division-free conditions under which `scaleTo` stays finite. */
  predicate CanZoom(vc: ViewContext)
  {
    vc.currentScale != 0.0 && vc.minScale > 0.0 && vc.viewWidth != 0.0 && vc.viewHeight != 0.0
  }

  /** `scaleTo`: clamp the target scale; if that is the current scale nothing
      happens; otherwise switch scale and shift the position so that the
      focus keeps its place, then apply. */
  function ScaleTo(vc: ViewContext, scale: real, focusX: real, focusY: real,
                   area: Option<Rectangle>, applyImmediately: bool): (r: ViewContext)
    requires CanZoom(vc)
    ensures r.currentScale == ClampScale(vc, scale)
    ensures vc.minScale <= vc.maxScale ==> vc.minScale <= r.currentScale <= vc.maxScale
    ensures ClampScale(vc, scale) == vc.currentScale ==> r == vc
    ensures r.viewWidth == vc.viewWidth && r.viewHeight == vc.viewHeight
    ensures r.minScale == vc.minScale && r.maxScale == vc.maxScale
  {
    var newScale := ClampScale(vc, scale);
    if vc.currentScale == newScale then vc
    else
      var focusXRatio := focusX / vc.viewWidth;
      var focusYRatio := focusY / vc.viewHeight;
      var newViewportWidth := vc.viewWidth / newScale;
      var newViewportHeight := vc.viewHeight / newScale;
      var diffX := vc.ViewportWidth() - newViewportWidth;
      var diffY := vc.ViewportHeight() - newViewportHeight;
      Offset(vc.(currentScale := newScale), diffX * focusXRatio, diffY * focusYRatio, area, applyImmediately)
  }

  /** `scale`: zoom by a factor of the current scale. */
  function Scale(vc: ViewContext, factor: real, focusX: real, focusY: real,
                 area: Option<Rectangle>, applyImmediately: bool): (r: ViewContext)
    requires CanZoom(vc)
    ensures r.currentScale == ClampScale(vc, vc.currentScale * factor)
  {
    ScaleTo(vc, vc.currentScale * factor, focusX, focusY, area, applyImmediately)
  }

  /** `canScrollLeft`: part of `rectangle`, `delta` beyond its left edge,
      lies left of the viewport. */
  predicate CanScrollLeft(vc: ViewContext, rectangle: Rectangle, delta: real)
  {
    rectangle.left - delta < vc.viewport.left
  }

  predicate CanScrollRight(vc: ViewContext, rectangle: Rectangle, delta: real)
  {
    rectangle.right + delta > vc.viewport.right
  }

  predicate CanScrollTop(vc: ViewContext, rectangle: Rectangle, delta: real)
  {
    rectangle.top - delta < vc.viewport.top
  }

  predicate CanScrollBottom(vc: ViewContext, rectangle: Rectangle, delta: real)
  {
    rectangle.bottom + delta > vc.viewport.bottom
  }

  /** `projectToGlobalPosition`: the global point under a screen point, as a
      rectangle collapsed to that point. The point divides the viewport in
      the ratio the screen point divides the view. */
  function ProjectToGlobalPosition(vc: ViewContext, screenX: real, screenY: real): (r: Rectangle)
    requires vc.viewWidth != 0.0 && vc.viewHeight != 0.0
    ensures r.Width() == 0.0 && r.Height() == 0.0
    ensures (r.left - vc.viewport.left) * vc.viewWidth == screenX * vc.viewport.Width()
    ensures (r.top - vc.viewport.top) * vc.viewHeight == screenY * vc.viewport.Height()
  {
    var horizontalRatio := screenX / vc.viewWidth;
    var verticalRatio := screenY / vc.viewHeight;
    var globalX := vc.viewport.left + vc.viewport.Width() * horizontalRatio;
    var globalY := vc.viewport.top + vc.viewport.Height() * verticalRatio;
    Rectangle(globalX, globalY, globalX, globalY)
  }

  /** `projectToScreenPosition`: the screen point showing a global point. It
      divides the view in the ratio the global point divides the viewport. */
  function ProjectToScreenPosition(vc: ViewContext, globalX: real, globalY: real): (r: Rectangle)
    requires vc.viewport.Width() != 0.0 && vc.viewport.Height() != 0.0
    ensures r.Width() == 0.0 && r.Height() == 0.0
    ensures r.left * vc.viewport.Width() == (globalX - vc.viewport.left) * vc.viewWidth
    ensures r.top * vc.viewport.Height() == (globalY - vc.viewport.top) * vc.viewHeight
  {
    var horizontalRatio := (globalX - vc.viewport.left) / vc.viewport.Width();
    var verticalRatio := (globalY - vc.viewport.top) / vc.viewport.Height();
    var screenX := vc.viewWidth * horizontalRatio;
    var screenY := vc.viewHeight * verticalRatio;
    Rectangle(screenX, screenY, screenX, screenY)
  }

  /** The view's corners show the viewport's corners: the screen origin is
      the viewport's top-left and the far screen corner its bottom-right,
      and the other way round. */
  lemma ProjectCorners(vc: ViewContext)
    requires vc.viewWidth != 0.0 && vc.viewHeight != 0.0
    requires vc.viewport.Width() != 0.0 && vc.viewport.Height() != 0.0
    ensures var v := vc.viewport;
            && ProjectToGlobalPosition(vc, 0.0, 0.0).left == v.left
            && ProjectToGlobalPosition(vc, 0.0, 0.0).top == v.top
            && ProjectToGlobalPosition(vc, vc.viewWidth, vc.viewHeight).left == v.right
            && ProjectToGlobalPosition(vc, vc.viewWidth, vc.viewHeight).top == v.bottom
            && ProjectToScreenPosition(vc, v.left, v.top).left == 0.0
            && ProjectToScreenPosition(vc, v.left, v.top).top == 0.0
            && ProjectToScreenPosition(vc, v.right, v.bottom).left == vc.viewWidth
            && ProjectToScreenPosition(vc, v.right, v.bottom).top == vc.viewHeight
  {
    GlobalCorners(vc);
    ScreenOrigin(vc);
    ScreenFarCorner(vc);
  }

  lemma GlobalCorners(vc: ViewContext)
    requires vc.viewWidth != 0.0 && vc.viewHeight != 0.0
    ensures var v := vc.viewport;
            && ProjectToGlobalPosition(vc, 0.0, 0.0).left == v.left
            && ProjectToGlobalPosition(vc, 0.0, 0.0).top == v.top
            && ProjectToGlobalPosition(vc, vc.viewWidth, vc.viewHeight).left == v.right
            && ProjectToGlobalPosition(vc, vc.viewWidth, vc.viewHeight).top == v.bottom
  {
    DivSelf(vc.viewWidth);
    DivSelf(vc.viewHeight);
  }

  lemma ScreenOrigin(vc: ViewContext)
    requires vc.viewport.Width() != 0.0 && vc.viewport.Height() != 0.0
    ensures ProjectToScreenPosition(vc, vc.viewport.left, vc.viewport.top).left == 0.0
    ensures ProjectToScreenPosition(vc, vc.viewport.left, vc.viewport.top).top == 0.0
  {
  }

  lemma ScreenFarCorner(vc: ViewContext)
    requires vc.viewport.Width() != 0.0 && vc.viewport.Height() != 0.0
    ensures ProjectToScreenPosition(vc, vc.viewport.right, vc.viewport.bottom).left == vc.viewWidth
    ensures ProjectToScreenPosition(vc, vc.viewport.right, vc.viewport.bottom).top == vc.viewHeight
  {
    DivSelf(vc.viewport.Width());
    DivSelf(vc.viewport.Height());
  }


  /** With a positive view and viewport, both projections keep the order of
      points on each axis. */
  lemma ProjectionsKeepOrder(vc: ViewContext, a: real, b: real)
    requires vc.viewWidth > 0.0 && vc.viewHeight > 0.0
    requires vc.viewport.Width() > 0.0 && vc.viewport.Height() > 0.0
    requires a <= b
    ensures ProjectToGlobalPosition(vc, a, a).left <= ProjectToGlobalPosition(vc, b, b).left
    ensures ProjectToGlobalPosition(vc, a, a).top <= ProjectToGlobalPosition(vc, b, b).top
    ensures ProjectToScreenPosition(vc, a, a).left <= ProjectToScreenPosition(vc, b, b).left
    ensures ProjectToScreenPosition(vc, a, a).top <= ProjectToScreenPosition(vc, b, b).top
  {
    AxisKeepsOrder(a, b, vc.viewWidth, vc.viewport.left, vc.viewport.Width());
    AxisKeepsOrder(a, b, vc.viewHeight, vc.viewport.top, vc.viewport.Height());
  }

  /** One axis of both projections, on plain numbers. */
  lemma AxisKeepsOrder(a: real, b: real, view: real, lo: real, len: real)
    requires view > 0.0 && len > 0.0 && a <= b
    ensures lo + len * (a / view) <= lo + len * (b / view)
    ensures view * ((a - lo) / len) <= view * ((b - lo) / len)
  {
    DivMonotoneReal(a, b, view);
    MulMonotoneReal(a / view, b / view, len);
    DivMonotoneReal(a - lo, b - lo, len);
    MulMonotoneReal((a - lo) / len, (b - lo) / len, view);
  }

  /** Without a scroll area, moving and applying puts the viewport at the
      new position with the size the scale gives. */
  lemma OffsetToPlacesViewport(vc: ViewContext, x: real, y: real)
    requires vc.currentScale != 0.0
    ensures var r := OffsetTo(vc, x, y, None, true);
            && r.currentX == x && r.currentY == y
            && r.viewport.left == x && r.viewport.top == y
            && r.viewport.Width() == vc.viewWidth / vc.currentScale
            && r.viewport.Height() == vc.viewHeight / vc.currentScale
  {
  }

  /** A strict horizontal policy leaves a viewport no wider than the scroll
      area inside it horizontally, and the vertical pass does not move it
      sideways again. */
  lemma StrictHorizontalStaysInside(vc: ViewContext, a: Rectangle)
    requires vc.currentScale != 0.0
    requires vc.scrollPolicyHorizontal == SCROLL_POLICY_STRICT_SCROLL_AREA
    requires vc.ViewportWidth() <= a.Width()
    ensures var r := ApplyViewport(vc, Some(a));
            a.left <= r.viewport.left && r.viewport.right <= a.right
  {
  }

  /** The same on the vertical axis. */
  lemma StrictVerticalStaysInside(vc: ViewContext, a: Rectangle)
    requires vc.currentScale != 0.0
    requires vc.scrollPolicyVertical == SCROLL_POLICY_STRICT_SCROLL_AREA
    requires vc.ViewportHeight() <= a.Height()
    ensures var r := ApplyViewport(vc, Some(a));
            a.top <= r.viewport.top && r.viewport.bottom <= a.bottom
  {
  }

  /** An axis whose policy is not strict is never corrected. */
  lemma UnlimitedAxisNotCorrected(vc: ViewContext, a: Rectangle)
    requires vc.currentScale != 0.0
    ensures vc.scrollPolicyHorizontal != SCROLL_POLICY_STRICT_SCROLL_AREA ==>
              ApplyViewport(vc, Some(a)).currentX == vc.currentX
    ensures vc.scrollPolicyVertical != SCROLL_POLICY_STRICT_SCROLL_AREA ==>
              ApplyViewport(vc, Some(a)).currentY == vc.currentY
  {
  }

  /** A viewport already inside the scroll area is left where it is. */
  lemma InsideAreaNotCorrected(vc: ViewContext, a: Rectangle)
    requires vc.currentScale != 0.0
    requires Contains(a, ApplyViewport(vc, None).viewport)
    ensures ApplyViewport(vc, Some(a)) == ApplyViewport(vc, None)
  {
  }

  /** `scaleTo` without a scroll area keeps the global point under the focus
      where it was: the zoom pivots on the focus. */
  lemma ScaleToKeepsFocus(vc: ViewContext, scale: real, focusX: real, focusY: real)
    requires CanZoom(vc) && Applied(vc)
    ensures ProjectToGlobalPosition(ScaleTo(vc, scale, focusX, focusY, None, true), focusX, focusY)
            == ProjectToGlobalPosition(vc, focusX, focusY)
  {
    var s := ClampScale(vc, scale);
    if s != vc.currentScale {
      var rx := focusX / vc.viewWidth;
      var ry := focusY / vc.viewHeight;
      var w0, w1 := vc.viewWidth / vc.currentScale, vc.viewWidth / s;
      var h0, h1 := vc.viewHeight / vc.currentScale, vc.viewHeight / s;
      var r := ScaleTo(vc, scale, focusX, focusY, None, true);
      assert r.currentX == vc.currentX + (w0 - w1) * rx;
      assert r.viewport.Width() == w1;
      assert (w0 - w1) * rx + w1 * rx == w0 * rx;
      assert r.currentY == vc.currentY + (h0 - h1) * ry;
      assert r.viewport.Height() == h1;
      assert (h0 - h1) * ry + h1 * ry == h0 * ry;
    }
  }

  /** Screen to global and back is the identity on a non-degenerate view. */
  lemma ScreenRoundTrip(vc: ViewContext, screenX: real, screenY: real)
    requires vc.viewWidth != 0.0 && vc.viewHeight != 0.0
    requires vc.viewport.Width() != 0.0 && vc.viewport.Height() != 0.0
    ensures var g := ProjectToGlobalPosition(vc, screenX, screenY);
            ProjectToScreenPosition(vc, g.left, g.top) == Rectangle(screenX, screenY, screenX, screenY)
  {
    var g := ProjectToGlobalPosition(vc, screenX, screenY);
    var hx := screenX / vc.viewWidth;
    var hy := screenY / vc.viewHeight;
    assert (g.left - vc.viewport.left) / vc.viewport.Width() == hx;
    assert (g.top - vc.viewport.top) / vc.viewport.Height() == hy;
    assert vc.viewWidth * hx == screenX;
    assert vc.viewHeight * hy == screenY;
  }

  /** Global to screen and back is the identity on a non-degenerate view. */
  lemma GlobalRoundTrip(vc: ViewContext, globalX: real, globalY: real)
    requires vc.viewWidth != 0.0 && vc.viewHeight != 0.0
    requires vc.viewport.Width() != 0.0 && vc.viewport.Height() != 0.0
    ensures var p := ProjectToScreenPosition(vc, globalX, globalY);
            ProjectToGlobalPosition(vc, p.left, p.top) == Rectangle(globalX, globalY, globalX, globalY)
  {
    var p := ProjectToScreenPosition(vc, globalX, globalY);
    var hx := (globalX - vc.viewport.left) / vc.viewport.Width();
    var hy := (globalY - vc.viewport.top) / vc.viewport.Height();
    assert p.left / vc.viewWidth == hx;
    assert p.top / vc.viewHeight == hy;
    assert vc.viewport.Width() * hx == globalX - vc.viewport.left;
    assert vc.viewport.Height() * hy == globalY - vc.viewport.top;
  }

  /** With no margin, nothing of a rectangle is left to scroll to in any
      direction exactly when the viewport shows all of it. */
  lemma NothingToScrollIffShown(vc: ViewContext, rectangle: Rectangle)
    ensures (!CanScrollLeft(vc, rectangle, 0.0) && !CanScrollRight(vc, rectangle, 0.0)
             && !CanScrollTop(vc, rectangle, 0.0) && !CanScrollBottom(vc, rectangle, 0.0))
            <==> Contains(vc.viewport, rectangle)
  {
  }
}
